=== FILE: README.md ===
# wsdp ingestion core in Dafny

This project models the deterministic ingestion path of `wsdp`, the Wi-Fi
sensing data pipeline. The path runs from raw capture contents to labelled
training samples:

- **Decoders.**
  - The Intel 5300 "bfee" binary log decoder, used for the Widar and Gait datasets (`BfeeReader`, `Bits`).
  - The ElderAL amplitude CSV decoder (`ElderReader`).
  - The XRF55 array reshaper (`XrfReader`).
  - The ZTE CSV decoder (`ZteReader`).
- **Records.** The frame and capture records that the decoders fill (`Structure`).
- **Dispatch.** The dataset-to-reader registry, the discovery of data files, the capture of each file's failure, and the folding of every file's captures into one list (`Readers`).
- **Per-capture processing** (`Processor`):
  - the file-name grammars of each dataset (`Patterns`);
  - the label/group selector;
  - the stable sort of frames by timestamp (`Ordering`);
  - stacking and squeezing into one array (`Tensors`);
  - rejecting captures with fewer than three axes;
  - the order-keeping filter of `process`.
- **Utilities.**
  - Padding or truncating samples to a fixed number of time steps (`Resize`).
  - The zero-based remapping of labels and groups, and `num_classes` (`Labels`).
  - The byte-range plan, `Range` header and bounded retry of the parallel download (`Download`).

Supporting modules:

- `Numbers` holds Python's `int()`/`float()` for decimal text, `str.strip()`, `str(n)` and the `repr()` of a text that `int()`'s error message shows.
- `Paths` holds `os.path.basename`, `splitext` and `str.split`.
- `Arith` holds a few division facts.
- `Wrappers` holds `Option` and `Result`.

Arrays are numpy arrays seen as a shape plus the elements in C order. Element values are exact (`real` pairs), so float32/float64 rounding is outside the model.

Files, sockets and worker pools become parameters:

- A decoder receives the file's bytes, the rows `csv.reader` yields, or the array `np.load` returns.
- Discovery receives the list of paths the recursive walk found.
- The order in which worker processes complete is an arbitrary permutation.
- Each download attempt's outcome is a function of the attempt number.
- Phase calibration and wavelet denoising are opaque function parameters.

Exceptions are modelled as `Err` carrying `Class: message`, the exception's class name followed by its message (`str(e)` is the part after the class). For exceptions the repository raises itself, the message is the repository's own text. For some exceptions raised inside pandas or numpy, the message is a shortened or descriptive text (see "## Left out"). `None` results are modelled as `Option`.

Where the source and its design notes disagree, the model follows the code:

- A file name that does not fit a known dataset's grammar makes `parse_file_info_from_filename` return `None`. `selector` then subscripts `None`, so the capture's processing raises and `process` fails. The capture is not silently dropped.
- `elderAL` takes the fifth `/`-separated part of the path. A path with fewer parts raises `IndexError`.
- Phase calibration unpacks `T, F, A = shape`. A stacked array with more than three axes therefore raises.
- In the ElderAL reader, a row too short for a mapped column raises `IndexError`, which is not caught. The whole file then fails rather than the row being skipped.
- `np.pad` is given three pad pairs, so padding a sample that does not have exactly three axes raises.
- A bfee record whose length field is 0 is modelled as the code runs it. `read(-1)` takes the rest of the file, after which the loop ends.
- A negative `target_length` follows Python's slicing rules.

## Model

| member | source | states |
|---|---|---|
| Structure.BaseFrame | wsdp/structure/CSIFrame.py:6-12 | A base frame holds exactly the given timestamp and array and no receiver metadata. |
| Structure.BfeeFrame | wsdp/structure/CSIFrame.py:22-38 | The base part receives the timestamp and array unchanged, and all ten metadata fields are stored as given. |
| Structure.ReprIgnoresContents | wsdp/structure/CSIFrame.py:14-17 | `repr` depends only on the timestamp, the shape and the dtype. Frames that differ only in array contents or metadata print alike. |
| Structure.NewCsiData | wsdp/structure/CSIData.py:2-7 | A new capture has the given name and no frames. |
| Structure.AddFrame | wsdp/structure/CSIData.py:9-14 | `add_frame` puts the frame at the end and grows the list by one. Earlier frames and the name are unchanged, and the frame is not validated. |
| Structure.AddFramesAppends | wsdp/structure/CSIData.py:9-14 | Repeated `add_frame` yields the earlier frames followed by the added ones, in the order they were added. |
| Structure.AddFramesTwice | wsdp/structure/CSIData.py:9-14 | Adding two runs of frames one after the other is the same as adding their concatenation. |
| Bits.Signed8 | wsdp/readers/bfee_reader.py:90-91 | A byte whose top bit is set reads as value - 256, so every signed reading lies in [-128, 127]. |
| Bits.Unsigned8 | wsdp/readers/bfee_reader.py:90-91 | Every value in [-128, 127] is the signed reading of some byte, namely its two's-complement form. |
| Bits.GetBitsU8IsByte | wsdp/readers/bfee_reader.py:78-82 | An 8-bit cursor read is below 256. |
| Bits.GetBitPacked | wsdp/readers/bfee_reader.py:71-76 | `get_bit` reads bit `pos % 8` of byte `pos / 8`, least significant first, so it returns every bit of a packed bit string. |
| Bits.ReadPackedU8 | wsdp/readers/bfee_reader.py:78-82 | Reading 8 bits at any offset, aligned or not, where the packed string holds the bits of `u` (least significant first) returns `u`. |
| BfeeReader.PairSlot | wsdp/readers/bfee_reader.py:92-93 | Pair `j` goes to `(rx, tx)` exactly when `j == tx * nRx + rx`. |
| BfeeReader.PairSlotsBijective | wsdp/readers/bfee_reader.py:84-94 | The pair loop hits every cell of the `nRx x nTx` matrix exactly once. Pair `j` lands inside the matrix at `(j % nRx, j / nRx)`, and each cell is the slot of exactly one pair. |
| BfeeReader.PairLoopAt | wsdp/readers/bfee_reader.py:86-94 | After the inner loop over pairs of one subcarrier, each of that subcarrier's cells holds the pair read 16 bits per step further on. Every other cell is untouched. |
| BfeeReader.SubcarrierLoopAt | wsdp/readers/bfee_reader.py:84-94 | After the outer loop, every cell of the remaining subcarriers holds the pair read at its closed-form bit position. That position accounts for 3 pilot bits per subcarrier and 16 bits per pair. |
| BfeeReader.DecodeMatrix | wsdp/readers/bfee_reader.py:67-94 | The decoded matrix has shape `(30, nRx, nTx)`. Cell `[s, rx, tx]` is the signed pair at bit `s * (3 + 16 * nRx * nTx) + 3 + 16 * (tx * nRx + rx)`. |
| BfeeReader.PairAtInt8 | wsdp/readers/bfee_reader.py:86-91 | Both parts of every element read are signed 8-bit integers. |
| BfeeReader.ReadsStayInside | wsdp/readers/bfee_reader.py:62-89 | When the length check passes, every bit the loops read lies inside the `csi_len` bytes, so `get_bit`'s zero fill past the end is never used. |
| BfeeReader.ParseRecord | wsdp/readers/bfee_reader.py:41-96 | A frame comes out exactly when the payload has the 20 header bytes, `csi_len` equals `calc_len` for nRx and nTx, and the payload holds `20 + csi_len` bytes. It returns `None` otherwise. The frame's timestamp is the little-endian u32, `bfee_count`, `csi_len` and `fake_rate` are little-endian u16, and `noise` is byte 13 signed. The matrix is the decoded `csi_bytes`. |
| BfeeReader.ParsedIsInt8 | wsdp/readers/bfee_reader.py:86-94 | Every element of a parsed matrix is a pair of signed 8-bit integers. |
| BfeeReader.ReadFile | wsdp/readers/bfee_reader.py:14-39 | The capture is named after the base name of the path. It holds, in file order, the frames of the payloads the framing loop hands on that parse. |
| BfeeReader.StepRecord | wsdp/readers/bfee_reader.py:21-37 | The loop steps over one complete record. It hands on the payload only when the code is `0xBB`, and skips `L - 1` bytes otherwise. |
| BfeeReader.TruncatedRecord | wsdp/readers/bfee_reader.py:27-31 | A record cut short by the end of the file hands on nothing and ends the loop. |
| BfeeReader.ReadEncodedFile | wsdp/readers/bfee_reader.py:14-37 | A file of complete records, possibly followed by a truncated one, reads as the frames of its `0xBB` records, in order. The truncated tail adds nothing. |
| BfeeReader.HeaderRoundTrip | wsdp/readers/bfee_reader.py:45-60 | The header fields of a written payload read back as written. |
| BfeeReader.PairRoundTrip | wsdp/readers/bfee_reader.py:78-94 | Decoding an encoded element at its bit position gives the element back. |
| BfeeReader.CellsRoundTrip | wsdp/readers/bfee_reader.py:62-94 | A payload whose matrix bytes encode a matrix of signed 8-bit pairs decodes to exactly that matrix. |
| BfeeReader.RecordRoundTrip | wsdp/readers/bfee_reader.py:41-96 | `parse_bfee_record` inverts the record writer: timestamp, all ten metadata fields, shape and every element come back. |
| BfeeReader.ReadWrittenRecord | wsdp/readers/bfee_reader.py:14-39 | A log holding one written `0xBB` record reads as a capture with exactly that frame. |
| ElderReader.ColumnOf | wsdp/readers/elder_reader.py:41-45 | A column name maps to numbers exactly when the header pattern matches at its start. The three numbers are `int()` of the three groups. |
| ElderReader.ColumnNameRoundTrip | wsdp/readers/elder_reader.py:41-45 | A header `amp_tx<t>_rx<r>_sub<s>` reads back as `(t, r, s)`. |
| ElderReader.KindOf | wsdp/readers/elder_reader.py:35-50 | A stripped cell equal to `timestamp` marks the timestamp column. Otherwise a pattern match with `tx == 0` maps the column to `(sub, rx)`. Every other cell is ignored. |
| ElderReader.ScanStamp | wsdp/readers/elder_reader.py:35-39 | The timestamp column is the last `timestamp` cell, and one exists exactly when some cell is `timestamp`. |
| ElderReader.ScanColumns | wsdp/readers/elder_reader.py:41-50 | The mapping holds exactly the columns whose header maps them, in column order, each with the entry its header names. |
| ElderReader.ScanExtent | wsdp/readers/elder_reader.py:32-50 | The largest subcarrier and receiver are attained by mapped columns. They stay -1 exactly when no column is mapped. |
| ElderReader.Extents | wsdp/readers/elder_reader.py:55-56 | The matrix shape `(max sub + 1, max rx + 1)` holds every mapped entry. |
| ElderReader.ExtentsLeast | wsdp/readers/elder_reader.py:32-56 | For a scanned header, the extents are the smallest matrix that holds every mapped entry. They are `(0, 0)` exactly when no column is mapped. |
| ElderReader.FillOutcome | wsdp/readers/elder_reader.py:66-70 | A row's matrix exists exactly when every mapped cell is present and numeric. Otherwise the first bad column decides whether the row is skipped (`ValueError`) or the read raises (`IndexError`). |
| ElderReader.FillZeros | wsdp/readers/elder_reader.py:66-70 | Entries no mapped column writes stay 0. |
| ElderReader.FillLastWriter | wsdp/readers/elder_reader.py:68-70 | An entry holds the value of the last mapped column that writes it. |
| ElderReader.ParseStamp | wsdp/readers/elder_reader.py:63-64 | A timestamp with a `.` is read by `float()`, otherwise by `int()`. Text the conversion rejects makes the row fail with `ValueError`. |
| ElderReader.ParseStampInt | wsdp/readers/elder_reader.py:64 | An integer written by `str` is read back as that integer. |
| ElderReader.ReadRow | wsdp/readers/elder_reader.py:59-79 | An empty row is skipped, as is a row whose timestamp does not parse. A non-empty row whose timestamp parses and whose mapped cells are all numeric is kept. The row raises `IndexError` exactly when it is too short for the timestamp column, or when its timestamp parses and the first bad mapped column lies past the row's end. A kept row gives a float64 frame of the header's extents, stamped with its parsed timestamp, whose matrix is the filled matrix of its cells. |
| ElderReader.ReadRowEntries | wsdp/readers/elder_reader.py:66-70 | In a kept row's matrix, an entry holds the value of the last mapped column that writes it, and 0 where no mapped column writes. |
| ElderReader.FillMissing | wsdp/readers/elder_reader.py:68-70 | Filling a row fails with `IndexError` exactly when the first mapped column whose cell is not a number lies past the row's end. |
| ElderReader.RunRows | wsdp/readers/elder_reader.py:59-79 | The row loop succeeds exactly when no row raises. It then yields the kept rows' frames in file order; otherwise it fails with the first row's exception. |
| ElderReader.ReadFile | wsdp/readers/elder_reader.py:14-81 | A file with no header row gives an empty list rather than a capture. A successful read gives one capture named by the full path. |
| ElderReader.ReadFileNoStamp | wsdp/readers/elder_reader.py:52-53 | Without a `timestamp` header cell the read raises `ValueError`. |
| ElderReader.ReadFileFrames | wsdp/readers/elder_reader.py:52-81 | With a timestamp column, the read fails exactly when some data row raises. Otherwise it holds the kept rows' frames in file order. |
| ElderReader.ReadFileShapes | wsdp/readers/elder_reader.py:55-73 | Every frame read has the header's extents, and there is at most one frame per data row. |
| XrfReader.Reshape | wsdp/readers/xrf_reader.py:20-24 | A reshape succeeds exactly when the element counts agree. It keeps the C-order elements. |
| XrfReader.ReceiverFrames | wsdp/readers/xrf_reader.py:32-39 | Receiver `g` yields 1000 frames, stamped 0 to 999 in order, each a `30 x 3` array. |
| XrfReader.Capture | wsdp/readers/xrf_reader.py:30-41 | A receiver's capture is named by the path and holds exactly its frames, in time order. |
| XrfReader.ReadFile | wsdp/readers/xrf_reader.py:13-43 | The result is empty exactly when the file is missing or cannot be reshaped to `(3, 30, 3, 1000)`. Otherwise there are three captures, each named by the path, with 1000 frames of shape `(30, 3)` stamped 0 to 999. |
| XrfReader.LayoutOffset | wsdp/readers/xrf_reader.py:21 | Element `[g, s, a, t]` of the reshaped array is flat element `((g * 30 + s) * 3 + a) * 1000 + t`. |
| XrfReader.FrameEntry | wsdp/readers/xrf_reader.py:30-37 | Entry `[s][a]` of frame `t` of capture `g` is flat element `((g * 30 + s) * 3 + a) * 1000 + t` of the saved array. |
| ZteReader.Tx0Rows | wsdp/readers/zte_reader.py:18 | The kept rows are exactly those whose `rx_chain_num` ends with `tx0`. A one-row table keeps its row exactly when it ends with `tx0`. |
| ZteReader.Tx0RowsAppend | wsdp/readers/zte_reader.py:18 | The filter works row by row: filtering two tables one after the other gives the two filtered tables one after the other. So kept rows keep their file order and multiplicity. |
| ZteReader.BeforeDash | wsdp/readers/zte_reader.py:24 | `split('-')[0]` is the longest prefix without a dash. |
| ZteReader.RemoveRxFirst | wsdp/readers/zte_reader.py:24 | `replace('rx', '')` keeps the text before the first occurrence of `rx`, drops that occurrence, and continues after it. |
| ZteReader.RemoveRxNone | wsdp/readers/zte_reader.py:24 | `replace('rx', '')` leaves text without an occurrence of `rx` unchanged. |
| ZteReader.RxIndexRejects | wsdp/readers/zte_reader.py:24 | A chain `rx<t>` or `rx<t>-...`, where `<t>` is not integer text, raises `int()`'s `ValueError` for `<t>`. The message's text after the fixed prefix reads back to `<t>` when the repr fits in 200 characters. |
| ZteReader.RxIndexOfName | wsdp/readers/zte_reader.py:24 | A chain named `rx<k>-...` has index `k`. |
| ZteReader.SetColumn | wsdp/readers/zte_reader.py:47-48 | Writing column `c` changes that column only. |
| ZteReader.ScatterAt | wsdp/readers/zte_reader.py:40-48 | Column `c` of the frame of timestamp `t` holds the vector of the last entry with that timestamp for chain `c`. It is zero when there is none. Chains outside [0, 3) are ignored. |
| ZteReader.GroupFrames | wsdp/readers/zte_reader.py:36-51 | There is one complex64 frame per distinct timestamp, in ascending timestamp order. Each frame is the scatter of its group. |
| ZteReader.GroupStamps | wsdp/readers/zte_reader.py:36-51 | The frames' timestamps are strictly increasing. They are exactly the distinct timestamps of the entries, one frame each. |
| ZteReader.ReadFile | wsdp/readers/zte_reader.py:13-55 | The capture is named by the full path. With no `tx0` rows it has no frames. The read fails exactly when a kept chain name is not `rx<int>` or a kept row lacks one of the columns named `csi_i_0` ... `csi_i_511` or `csi_q_0` ... `csi_q_511`. A row carries the cells of exactly those named columns, in index order. |
| ZteReader.ReadFileOk | wsdp/readers/zte_reader.py:24-53 | A successful read is the grouping of the kept rows' entries, each carrying its parsed chain index and `I + jQ` vector. |
| ZteReader.ReadFileStamps | wsdp/readers/zte_reader.py:36-53 | A successful read has one frame per distinct `tx0` timestamp, in strictly increasing order. |
| ZteReader.ReadFileEntry | wsdp/readers/zte_reader.py:40-51 | Entry `[k][c]` of a frame is `I + jQ` of cell `k` of the last `tx0` row with that timestamp and chain `c`. It is zero when there is no such row. |
| ZteReader.GroupEntry | wsdp/readers/zte_reader.py:40-51 | The same entry-level description, stated for the groups of any entries. |
| Readers.ReaderFor | wsdp/readers/__init__.py:13-30 | `widar` and `gait` map to the bfee reader, `xrf55` to the XRF reader and `elderAL` to the ElderAL reader. Any other name raises `ValueError: not supported dataset`. |
| Readers.DataFiles | wsdp/readers/__init__.py:48 | The data files are exactly the regular files found whose own name does not contain `truth`. |
| Readers.DataFilesAppend | wsdp/readers/__init__.py:48 | The filter keeps the walk's order: filtering a concatenation concatenates the filtered parts. |
| Readers.DataFilesCount | wsdp/readers/__init__.py:48 | Each data file is kept exactly as often as the walk found it, and no other path is kept. |
| Readers.ReadWith | wsdp/readers/__init__.py:38 | Dispatching to a reader gives the bfee reader's single capture, the XRF reader's list of 0 or 3 captures, or the ElderAL reader's outcome. |
| Readers.ProcessFile | wsdp/readers/__init__.py:33-41 | `_process_file` never raises. It returns the file name with either the data or the exception's message, never both. |
| Readers.DescribeNamed | wsdp/readers/__init__.py:40-41 | `str(e)` is the message without the exception class. |
| Readers.Contribution | wsdp/readers/__init__.py:60-61 | A list result contributes all its captures, a single capture contributes itself, and a failure contributes nothing. |
| Readers.GatherReordered | wsdp/readers/__init__.py:56-61 | Two completion orders that visit the same files gather the same multiset of captures. |
| Readers.GatherMembers | wsdp/readers/__init__.py:56-61 | Under a completion order that visits every file once, a capture is gathered exactly when some file contributes it. |
| Readers.LoadData | wsdp/readers/__init__.py:44-65 | A non-directory raises `ValueError` first. Then an empty file set raises `IOError`, whose class Python 3 names `OSError` (`OSError: no file in folder: ...`), and only then is the dataset looked up. The load succeeds exactly when all three checks pass. |
| Readers.LoadDataOrderFree | wsdp/readers/__init__.py:54-65 | The loaded captures are the same multiset whatever order the workers complete in. |
| Readers.LoadDataParts | wsdp/readers/__init__.py:54-65 | A successful load gathers, in completion order, each data file's contribution. |
| Readers.LoadDataMembers | wsdp/readers/__init__.py:54-65 | A capture is loaded exactly when some data file's read produced it. Failed files add nothing. |
| Paths.Basename | wsdp/processors/base_processor.py:53 | `basename` is the suffix after the last `/`. |
| Paths.StripExtension | wsdp/processors/base_processor.py:53 | `splitext(...)[0]` removes the last `.` and what follows, except when every character before that dot is itself a dot. |
| Paths.SplitJoin | wsdp/processors/base_processor.py:90 | Joining the pieces of `split('/')` with `/` gives the path back. |
| Paths.JoinSplit | wsdp/processors/base_processor.py:90 | Splitting a `/`-join of slash-free pieces gives the pieces back. |
| Paths.HasSubstring | wsdp/readers/__init__.py:48 | The scan decides `"truth" in name`: some position starts an occurrence. |
| Patterns.MatchAt | wsdp/processors/base_processor.py:56 | When the matcher succeeds, the pattern fits the text with the returned groups, and every group is a non-empty run of digits. |
| Patterns.MatchAtComplete | wsdp/processors/base_processor.py:56 | For the pipeline's patterns, the greedy matcher succeeds wherever the pattern fits. When the pattern ends in a literal, it returns exactly the fitting split. |
| Patterns.ReMatch | wsdp/processors/base_processor.py:56 | `re.match` reports a fit anchored at position 0, with digit groups. |
| Patterns.SearchFrom | wsdp/processors/base_processor.py:70 | `re.search` returns the first start position at which the matcher succeeds. |
| Patterns.SearchLeftmost | wsdp/processors/base_processor.py:70 | `re.search` finds a match no later than any position at which the pattern fits. It fails only when the pattern fits nowhere. |
| Patterns.MatchAnchored | wsdp/processors/base_processor.py:56 | `re.match` succeeds whenever the pattern fits at the start. |
| Patterns.FormatRoundTrip | wsdp/processors/base_processor.py:56-64 | Matching a name written from a template returns the whole name and the digits of every value. |
| Patterns.Fold | wsdp/processors/base_processor.py:70 | `re.IGNORECASE` folding leaves digits alone and never turns a letter into a digit. |
| Patterns.IgnoreCaseChar | wsdp/processors/base_processor.py:70 | Under `re.IGNORECASE` a lower-case ASCII pattern letter matches exactly itself and its capital, and `s` also matches the long s. Any other character that is not a capital matches only itself. |
| Patterns.FoldAvoids | wsdp/processors/base_processor.py:70 | A non-letter occurs in a text exactly where it occurs in any text with the same case folding. |
| Patterns.MatchAtFold | wsdp/processors/base_processor.py:70 | Case-insensitive matching gives the same result on texts that differ only in letter case. |
| Patterns.ReSearchFold | wsdp/processors/base_processor.py:70 | A case-insensitive `re.search` gives the same answer on texts that differ only in letter case. |
| Patterns.ReMatchGreedy | wsdp/processors/base_processor.py:56 | `re.match` returns the greedy fit at position 0. It succeeds exactly when the pattern fits there. |
| Patterns.ReSearchLeftmost | wsdp/processors/base_processor.py:70 | `re.search` returns the leftmost greedy fit. It succeeds exactly when the pattern fits somewhere. |
| Patterns.GreedyUnique | wsdp/processors/base_processor.py:56 | A position has at most one greedy fit, so its groups are determined. |
| Patterns.LeftmostUnique | wsdp/processors/base_processor.py:70 | A text has at most one leftmost greedy fit, so its position and groups are determined. |
| Processor.ParseFileInfo | wsdp/processors/base_processor.py:52-101 | An unknown dataset, or a name that does not fit, gives `None`. A tuple always has six entries. It raises exactly for an `elderAL` path with fewer than five `/`-separated parts. |
| Processor.ParseWidar | wsdp/processors/base_processor.py:53-66 | Widar gives a tuple exactly when its pattern fits at the start of the base name. For the greedy fit there, the tuple is `int()` of all six groups. |
| Processor.ParseGait | wsdp/processors/base_processor.py:68-78 | Gait gives a tuple exactly when its pattern fits somewhere in the base name, letters compared case-insensitively. For the leftmost greedy fit, the tuple is `int()` of the first three groups, then three `None`. |
| Processor.ParseXrf | wsdp/processors/base_processor.py:80-87 | XRF55 gives a tuple exactly when `(\d+)_(\d+)_` fits somewhere in the base name. For the leftmost greedy fit, the tuple is `int()` of the two groups, then four `None`. |
| Processor.ParseElder | wsdp/processors/base_processor.py:89-98 | On a path with at least five `/`-separated parts, ElderAL gives a tuple exactly when its pattern fits somewhere in the fifth part. For the leftmost greedy fit, the tuple is `int()` of the three groups, then three `None`. |
| Processor.WidarName | wsdp/processors/base_processor.py:55-64 | A Widar file `user<a>-<b>-<c>-<d>-<e>-r<f>.<ext>` parses to the six numbers. It is labelled by the gesture `b` and grouped by the torso position `c`. |
| Processor.GaitName | wsdp/processors/base_processor.py:68-76 | A Gait file `user<a>-<b>-<c>-r<d>.<ext>` parses to `(a, b, c)`. It is labelled by the user `a` and grouped by the track `b`. |
| Processor.GaitNameAnyCase | wsdp/processors/base_processor.py:68-76 | A Gait file whose name differs from `user<a>-<b>-<c>-r<d>` only in letter case (`USER3-1-1-R1.dat`) parses and is labelled as the lower-case name is. |
| Processor.FoldedBase | wsdp/processors/base_processor.py:53 | A name that folds like a formatted template is the base name of `dir/<name>.<ext>`. |
| Processor.XrfName | wsdp/processors/base_processor.py:80-85 | An XRF55 file `<a>_<b>_.<ext>` parses to `(a, b)`. It is labelled by the action `b` and grouped by the user `a`. |
| Processor.ElderName | wsdp/processors/base_processor.py:89-96 | An ElderAL path whose fifth part is `user<a>_position<b>_activity<c>` parses to `(a, b, c)`. It is labelled by the activity `c` and grouped by the position `b`. |
| Processor.NoInfoMeansNoFit | wsdp/processors/base_processor.py:55-98 | A known dataset yields no tuple only when its pattern fits nowhere it is looked for. That is the start of the base for Widar, and any position for the others. |
| Processor.Columns | wsdp/processors/base_processor.py:104-121 | The selector has a (label, group) pair of distinct tuple positions exactly for the four known datasets. |
| Processor.Select | wsdp/processors/base_processor.py:104-121 | An unknown dataset gives `(None, None)`. For a known dataset, a missing tuple raises. Otherwise label and group are entries of the tuple. |
| Processor.LabelOfInfo | wsdp/processors/base_processor.py:31-32 | Once the tuple is known, label and group are its selected entries. |
| Processor.LabelOf | wsdp/processors/base_processor.py:31-32 | A known dataset whose name does not fit makes the capture's processing raise. |
| Processor.StackFrames | wsdp/processors/base_processor.py:38-40 | No frames gives nothing. Frames of differing shapes raise. Otherwise the result is the frames' arrays laid end to end, with every extent-1 axis removed. |
| Processor.LaysAt | wsdp/processors/base_processor.py:39-40 | Element `k` of frame `i` sits at flat position `i * p + k` of the stacked array, where `p` is the number of elements per frame. |
| Processor.ProcessSingle | wsdp/processors/base_processor.py:30-49 | A failing label lookup raises. The result is `None` exactly when there are no frames or fewer than three axes remain. A sample is the calibrated, denoised stack of the frames in stable timestamp order, with the capture's label and group. |
| Processor.Collect | wsdp/processors/base_processor.py:21-25 | The loop succeeds exactly when every result is a success. It then gives three lists of equal length, at most one entry per result; a failure carries the message of the first failing result, and every earlier result succeeded. |
| Processor.CollectAppend | wsdp/processors/base_processor.py:21-25 | Collecting two runs one after the other is collecting them together, so the loop is an order-keeping filter. |
| Processor.CollectOne | wsdp/processors/base_processor.py:21-25 | One result contributes its sample to all three lists, or nothing when it has none. |
| Processor.Process | wsdp/processors/base_processor.py:13-26 | `process` succeeds exactly when every capture's processing does. It then gives three parallel lists of equal length, at most one entry per capture. A failure raises the first failing capture's exception, in input order. |
| Ordering.SortByStable | wsdp/processors/base_processor.py:33 | `sorted` orders the frames by timestamp value and keeps equal timestamps in their original order. |
| Ordering.SortByUnique | wsdp/processors/base_processor.py:33 | Any sequence ordered by key that keeps the same elements per key, in the same order, is the sorted result. The stable sort is therefore determined. |
| Ordering.SortBy | wsdp/processors/base_processor.py:33 | Sorting permutes the frames. |
| Tensors.Stack | wsdp/processors/base_processor.py:39 | `np.stack` on axis 0 puts array `i` at index `[i] + idx`. |
| Tensors.StackFlat | wsdp/processors/base_processor.py:39 | The stacked arrays are laid end to end in C order. |
| Tensors.Squeeze | wsdp/processors/base_processor.py:40 | `squeeze` keeps the C-order elements and their count, and leaves no extent-1 axis. |
| Tensors.RemoveOnesAppend | wsdp/processors/base_processor.py:40 | Axes are removed one by one from left to right, and a single axis is dropped exactly when its extent is 1. So the kept axes stay in order. |
| Tensors.SqueezeIdempotent | wsdp/processors/base_processor.py:40 | Squeezing twice is squeezing once. |
| Tensors.OffsetInjective | wsdp/readers/xrf_reader.py:21 | Distinct in-bounds indices address distinct elements. |
| Tensors.Unoffset | wsdp/readers/xrf_reader.py:21 | Every C-order position is the offset of some index. |
| Tensors.Take | wsdp/readers/xrf_reader.py:32 | `a[g]` is the sub-array at position `g` of axis 0. |
| Tensors.TakeLast | wsdp/readers/xrf_reader.py:35 | `a[..., t]` is the sub-array at position `t` of the last axis. |
| Tensors.Zeros | wsdp/readers/bfee_reader.py:67 | `np.zeros` is zero at every index. |
| Resize.SliceEnd | wsdp/utils/resize.py:13-14 | The slice `[:n]` ends at `n` for `0 <= n <= T`, counts from the end for negative `n`, and is clamped to `[0, T]`. |
| Resize.Truncate | wsdp/utils/resize.py:13-14 | Truncation keeps the first `n` steps unchanged. |
| Resize.Pad | wsdp/utils/resize.py:15-21 | Padding keeps the first `T` steps unchanged. The added steps equal `pad_value` everywhere. |
| Resize.ResizeOne | wsdp/utils/resize.py:10-23 | A sample keeps its trailing axes and gets the target length, cut or padded element by element. A sample already of that length is returned unchanged. It raises exactly for shapes the slice or `np.pad` reject. |
| Resize.ResizeDetermined | wsdp/utils/resize.py:10-23 | The element-wise description determines the resized sample completely. |
| Resize.PadTruncate | wsdp/utils/resize.py:13-21 | Padding and then cutting back to the original length gives the sample back. |
| Resize.TruncateTwice | wsdp/utils/resize.py:13-14 | Cutting twice is cutting once, to the shorter length. |
| Resize.ResizeAll | wsdp/utils/resize.py:4-27 | Resizing keeps list length and order. Every output has the target length when it is non-negative. The first sample that cannot be resized raises, and an empty list gives an empty list. |
| Labels.Unique | wsdp/core.py:58 | `sorted(set(xs))` is strictly increasing and has exactly the values of `xs`. |
| Labels.IndexMap | wsdp/core.py:59 | The map sends each distinct value to its position in the sorted list, and nothing else is in it. |
| Labels.Remap | wsdp/core.py:58-60 | The remapped list has the same length, and every index names its label's value among the sorted distinct labels. |
| Labels.RemapMonotone | wsdp/core.py:58-60 | Smaller labels get smaller indices, and equal labels equal indices, in both directions. |
| Labels.RemapOnto | wsdp/core.py:58-60 | Every index below the number of classes is used. |
| Labels.RemapIsRank | wsdp/core.py:58-64 | A label's index is the number of distinct labels below it. Groups go through the same construction. |
| Labels.NumClassesDistinct | wsdp/core.py:123 | `num_classes` is the number of distinct labels. |
| Download.Plan | wsdp/download.py:76-78 | A size that is zero or negative gives no chunk plan. |
| Download.Chunks | wsdp/download.py:87-90 | Chunk `i` starts at `i * chunk_size` and ends at `min(start + chunk_size - 1, size - 1)`. There are just enough chunks to reach the last byte. |
| Download.ChunksTile | wsdp/download.py:87-90 | The chunks start at 0 and each starts right after the previous one ends. The last ends at `size - 1`. All but the last span exactly `chunk_size` bytes and none spans more. There are `ceil(size / chunk_size)` of them. |
| Download.ChunksPartition | wsdp/download.py:87-90 | Every byte lies in exactly one chunk, the one numbered `byte / chunk_size`. |
| Download.RangeHeaderRoundTrip | wsdp/download.py:94 | The header `bytes=st-ed` names exactly the inclusive range it was made for, as in section 2.1 of RFC 7233. |
| Download.RetryFrom | wsdp/download.py:97-107 | At most three attempts are made. The result is the first successful attempt's byte count, and every earlier attempt failed. |
| Download.DownloadChunk | wsdp/download.py:92-108 | A chunk succeeds exactly when one of its three attempts does. After three failures it raises `Exception: download chunk failed: st-ed`. |
| Numbers.ParseShowInt | wsdp/processors/base_processor.py:58-63 | `int(str(i)) == i`. |
| Numbers.ParseIntDigits | wsdp/processors/base_processor.py:58-63 | `int()` of a run of digits is its decimal value. |
| Numbers.IntTextIsFloatText | wsdp/readers/elder_reader.py:64 | Every text `int()` accepts is accepted by `float()` with the same value. |
| Numbers.Strip | wsdp/readers/elder_reader.py:36 | `strip()` gives an infix of the text that neither starts nor ends with white space. |
| Numbers.StripSpaces | wsdp/readers/elder_reader.py:36 | Everything `strip()` removes is white space. The result is empty exactly when the whole text is white space. |
| Numbers.StripUnique | wsdp/readers/elder_reader.py:36 | Around a text that neither starts nor ends with white space, `strip()` removes exactly the surrounding white space. |
| Numbers.StrRepr | wsdp/readers/zte_reader.py:24 | `repr()` of a text opens and closes with the same quote character. |
| Numbers.ReprRoundTrip | wsdp/readers/zte_reader.py:24 | The repr of a text reads back to the text. |
| Numbers.EscapeRoundTrip | wsdp/readers/zte_reader.py:24 | Escaping the quote, the backslash and control characters is undone by reading the escapes back. |
| Numbers.EscapeCharBack | wsdp/readers/zte_reader.py:24 | Each escaped character reads back as itself. |
| Numbers.ReprPlain | wsdp/readers/zte_reader.py:24 | A text without a single quote, backslash or control character appears between single quotes as it is. |
| Numbers.ReprDoubleQuoted | wsdp/readers/zte_reader.py:24 | A text holding a single quote but no double quote, backslash or control character appears between double quotes as it is. |
| Numbers.IntErrorQuoting | wsdp/readers/zte_reader.py:24 | `int()`'s message for a short text without escapes shows the text in single quotes, or in double quotes when it holds a single quote and no double quote. |
| Numbers.IntErrorQuoted | wsdp/readers/zte_reader.py:24 | `int("1'")` fails, and its message shows `"1'"` in double quotes. |

## Left out

- File, process and network machinery is outside the model:
  - `open`, `fstat`, `seek`, `np.load`, `csv.reader`, `pd.read_csv` and `rglob`;
  - the process and thread pools, `as_completed` and `tqdm`;
  - `requests` and the single-thread download.

  Decoders take contents as parameters, and the pools become folds over a given order.
- Phase calibration (`algorithms/phase_calibration.py`) and wavelet denoising (`wsdp/algorithms/denoising.py`) are floating-point numerics. They are opaque function parameters. Only the `T, F, A = shape` unpacking is modelled, as the rejection of more than three axes.
- Float arithmetic is not modelled. Element values are exact rationals, so float32/float64 rounding and `complex64` casts are not modelled. The non-finite texts `inf` and `nan` are not modelled either.
- Under `re`, `\d` also matches non-ASCII decimal digits. The model's digits are `0`-`9`.
- Patterns.Fold: under `re.IGNORECASE`, Python also applies other non-ASCII case equivalences: U+0130 and `ı` (U+0131) with `i`, the Kelvin sign U+212A with `k`, `µ` with `μ`, and more. Here every character other than the ASCII capitals and `ſ` folds to itself. The only pattern searched case-insensitively, Gait's, contains neither `i` nor `k`.
- Numbers.StrRepr: Python escapes non-ASCII characters that `str.isprintable()` rejects, as `\x`, `\u` or `\U` escapes. That test needs the Unicode character database, so here non-ASCII characters are shown as they are. ASCII is escaped as Python escapes it.
- `int()` and `float()` are modelled for ASCII decimal text: a sign, digits with single underscores, a point and an exponent. Unicode digits are not modelled.
- `print` output, warnings and the progress bar are not modelled.
- Some exception messages from pandas and numpy are not reproduced exactly:
  - ZteReader.ReadFile: the `KeyError` for missing `csi_i_*`/`csi_q_*` columns carries a descriptive text, not pandas' list of the missing labels.
  - Resize.ResizeOne: numpy's `IndexError` and `ValueError` messages are given without their trailing details (the array's dimension count, the remapped shapes).
- ZteReader.ReadFile: non-integer `timestamp` cells are not modelled. Neither is a missing `rx_chain_num` column, a missing cell (`NaN`) in a present column, or pandas' key order for mixed-type timestamps. Timestamps are integers here.
- XrfReader.ReadFile: of `np.load`'s failures, only the missing file is modelled. Other load errors propagate in the source and are not modelled.
- Structure.Repr: float timestamps are printed by a parameter, since Python's shortest float repr is not modelled.
- Readers.LoadData: the check "path exists and is a directory" is one boolean parameter, and `str(Path)` is the given text.
- Everything else in `wsdp/core.py` is left out, as are `wsdp/cli.py`, `wsdp/utils/load_model.py`, `wsdp/utils/load_preset.py` and `wsdp/utils/ftp_process.py`. So are the model, dataset and training files (`wsdp/models/csi_model.py`, `wsdp/datasets/CSIDataset.py`, `wsdp/utils/train_func.py`, `default_model_template.py`). They are configuration, I/O or machine-learning framework code.
- `wsdp/readers/base.py` is an abstract interface. It appears as the closed datatype `Readers.ReaderKind`.

=== FILE: arith.dfy ===
/** Small facts about integer multiplication and Euclidean division that the
    index arithmetic of the decoders relies on. */
module Arith {

  lemma {:induction false} MulStep(i: nat, n: nat, p: nat)
    requires i < n
    ensures i * p + p <= n * p
  {
    assert i * p + p == (i + 1) * p;
  }

  lemma {:induction false} MulLe(i: nat, n: nat, p: nat)
    requires i <= n
    ensures i * p <= n * p
  {
  }

  lemma {:induction false} MulPred(i: int, w: int)
    ensures i * w == w + (i - 1) * w
  {
  }

  lemma {:induction false} MulAtLeast(d: int, n: int)
    requires d >= 1 && n > 0
    ensures d * n >= n
  {
  }

  /** Quotient and remainder of `q * n + r` by `n` are `q` and `r`. */
  lemma {:induction false} DivModUnique(q: int, r: int, n: int)
    requires n > 0 && 0 <= r < n
    ensures (q * n + r) / n == q && (q * n + r) % n == r
  {
    var x := q * n + r;
    var q', r' := x / n, x % n;
    assert x == q' * n + r';
    assert (q - q') * n == r' - r;
    if q > q' {
      MulAtLeast(q - q', n);
      assert false;
    } else if q' > q {
      MulAtLeast(q' - q, n);
      assert false;
    }
  }

  lemma {:induction false} DivBound(j: nat, a: nat, b: nat)
    requires j < a * b
    ensures a > 0 && j / a < b
  {
    if a == 0 {
      assert false;
    }
  }

  /** Splitting `k < p * n` into quotient and remainder by `p`. */
  lemma {:induction false} DivModSplit(k: nat, n: nat, p: nat)
    requires k < n * p
    ensures p > 0 && 0 <= k / p < n && 0 <= k % p < p && (k / p) * p + k % p == k
  {
    DivBound(k, p, n);
  }
}

=== FILE: bfee.dfy ===
/** The Intel 5300 "bfee" log reader used for the Widar and Gait captures:
    the record framing of a log file, the 20-byte record header and the
    bit-packed 30 x nRx x nTx channel matrix that follows it. */
module BfeeReader {
  import opened Wrappers
  import opened Arith
  import opened Bits
  import opened Tensors
  import opened Structure
  import Paths

  /** Subcarriers per record. */
  const Subcarriers: nat := 30
  /** Record code of a beamforming-feedback record; other codes are skipped. */
  const BfeeCode: byte := 0xBB
  /** Bytes of the record header in front of the packed matrix. */
  const HeaderBytes: nat := 20

  // ---------------------------------------------------------------------
  // Layout of the packed matrix

  /** Antenna pairs per subcarrier. */
  function Pairs(nRx: nat, nTx: nat): nat { nRx * nTx }

  /** Bits of one subcarrier: a 3-bit pilot field, then 16 bits (real and
      imaginary byte) per antenna pair. */
  function SubcarrierBits(pairs: nat): nat { 3 + 16 * pairs }

  /** `calc_len`: bytes the packed matrix of an nRx x nTx record occupies. */
  function ExpectedCsiLen(nRx: nat, nTx: nat): nat
  {
    (30 * (nRx * nTx * 8 * 2 + 3) + 7) / 8
  }

  /** Bit position of the real part of antenna pair `j` of subcarrier `s`. */
  function PairBit(pairs: nat, s: nat, j: nat): nat
  {
    s * SubcarrierBits(pairs) + 3 + 16 * j
  }

  /** A value that fits a signed 8-bit field: an integer in [-128, 127]. */
  predicate IsInt8(x: real) { x == x.Floor as real && -128 <= x.Floor <= 127 }

  /** The element read at a bit position: two signed 8-bit reads, real then
      imaginary. */
  function PairAt(csi: seq<byte>, pos: nat): Num
  {
    GetBitsU8IsByte(csi, pos);
    GetBitsU8IsByte(csi, pos + 8);
    Num(Signed8(GetBitsU8(csi, pos)) as real, Signed8(GetBitsU8(csi, pos + 8)) as real)
  }

  /** Both parts of an element read are signed 8-bit integers. */
  lemma {:induction false} PairAtInt8(csi: seq<byte>, pos: nat)
    ensures IsInt8(PairAt(csi, pos).re) && IsInt8(PairAt(csi, pos).im)
  {
    GetBitsU8IsByte(csi, pos);
    GetBitsU8IsByte(csi, pos + 8);
  }

  function MatrixShape(nRx: nat, nTx: nat): seq<nat> { [Subcarriers, nRx, nTx] }

  /** Antenna pair `j` is stored at receive antenna `j % nRx`, transmit
      antenna `j / nRx`. */
  function PairIndex(nRx: nat, rx: nat, tx: nat): nat { tx * nRx + rx }

  lemma {:induction false} PairIndexBound(nRx: nat, nTx: nat, rx: nat, tx: nat)
    requires rx < nRx && tx < nTx
    ensures PairIndex(nRx, rx, tx) < Pairs(nRx, nTx)
  {
    MulStep(tx, nTx, nRx);
  }

  /** Pair `j` is the one stored at `(rx, tx)` exactly when `j` is the pair
      index of `(rx, tx)`. */
  lemma {:induction false} PairSlot(nRx: nat, j: nat, rx: nat, tx: nat)
    requires rx < nRx
    ensures (j % nRx == rx && j / nRx == tx) <==> PairIndex(nRx, rx, tx) == j
  {
    DivModUnique(tx, rx, nRx);
    assert j == (j / nRx) * nRx + j % nRx;
  }

  /** Pair `j` sits at `(j % nRx, j / nRx)`, inside the matrix. */
  lemma {:induction false} PairOfIndex(nRx: nat, nTx: nat, j: nat)
    requires j < Pairs(nRx, nTx)
    ensures nRx > 0 && j % nRx < nRx && j / nRx < nTx && PairIndex(nRx, j % nRx, j / nRx) == j
  {
    DivBound(j, nRx, nTx);
    var q, r := j / nRx, j % nRx;
    assert PairIndex(nRx, r, q) == q * nRx + r;
    assert q * nRx + r == j;
  }

  /** The pair loop fills every element exactly once: pair `j` of
      `0 .. nRx*nTx-1` goes to `(j % nRx, j / nRx)`, a cell of the matrix,
      and every cell `(rx, tx)` is the target of exactly the pair
      `tx * nRx + rx`. */
  lemma {:induction false} PairSlotsBijective(nRx: nat, nTx: nat)
    ensures forall j :: 0 <= j < Pairs(nRx, nTx) ==>
              j % nRx < nRx && j / nRx < nTx && PairIndex(nRx, j % nRx, j / nRx) == j
    ensures forall rx, tx :: 0 <= rx < nRx && 0 <= tx < nTx ==>
              PairIndex(nRx, rx, tx) < Pairs(nRx, nTx)
              && PairIndex(nRx, rx, tx) % nRx == rx && PairIndex(nRx, rx, tx) / nRx == tx
  {
    forall j | 0 <= j < Pairs(nRx, nTx)
      ensures j % nRx < nRx && j / nRx < nTx && PairIndex(nRx, j % nRx, j / nRx) == j
    {
      PairOfIndex(nRx, nTx, j);
    }
    forall rx, tx | 0 <= rx < nRx && 0 <= tx < nTx
      ensures PairIndex(nRx, rx, tx) < Pairs(nRx, nTx)
              && PairIndex(nRx, rx, tx) % nRx == rx && PairIndex(nRx, rx, tx) / nRx == tx
    {
      PairIndexBound(nRx, nTx, rx, tx);
      PairSlot(nRx, PairIndex(nRx, rx, tx), rx, tx);
    }
  }

  // ---------------------------------------------------------------------
  // The decoding loops

  /** The inner loop over antenna pairs `j, j+1, ...` of subcarrier `sc`,
      with the bit cursor at `bit`. */
  function PairLoop(csi: seq<byte>, a: Tensor, sc: nat, j: nat, bit: nat, nRx: nat, nTx: nat): (r: Tensor)
    requires Valid(a) && a.shape == MatrixShape(nRx, nTx) && sc < Subcarriers && j <= Pairs(nRx, nTx)
    ensures Valid(r) && r.shape == a.shape
    decreases Pairs(nRx, nTx) - j
  {
    if j == Pairs(nRx, nTx) then a
    else
      DivBound(j, nRx, nTx);
      var v := PairAt(csi, bit);
      PairLoop(csi, WriteAt(a, [sc, j % nRx, j / nRx], v), sc, j + 1, bit + 16, nRx, nTx)
  }

  /** The outer loop over subcarriers `sc, sc+1, ..., 29`: skip the pilot
      bits, then run the pair loop. */
  function SubcarrierLoop(csi: seq<byte>, a: Tensor, sc: nat, bit: nat, nRx: nat, nTx: nat): (r: Tensor)
    requires Valid(a) && a.shape == MatrixShape(nRx, nTx) && sc <= Subcarriers
    ensures Valid(r) && r.shape == a.shape
    decreases Subcarriers - sc
  {
    if sc == Subcarriers then a
    else
      var a' := PairLoop(csi, a, sc, 0, bit + 3, nRx, nTx);
      SubcarrierLoop(csi, a', sc + 1, bit + SubcarrierBits(Pairs(nRx, nTx)), nRx, nTx)
  }

  /** After the pair loop of subcarrier `sc` from pair `j` with the cursor
      at `bit`, the element of pair `k >= j` of that subcarrier holds the
      value read `16 * (k - j)` bits further on; everything else is as
      before. */
  lemma {:induction false} PairLoopAt(csi: seq<byte>, a: Tensor, sc: nat, j: nat, bit: nat,
                                      nRx: nat, nTx: nat, s: nat, rx: nat, tx: nat)
    requires Valid(a) && a.shape == MatrixShape(nRx, nTx) && sc < Subcarriers && j <= Pairs(nRx, nTx)
    requires s < Subcarriers && rx < nRx && tx < nTx
    ensures At(PairLoop(csi, a, sc, j, bit, nRx, nTx), [s, rx, tx])
         == if s == sc && j <= PairIndex(nRx, rx, tx)
            then PairAt(csi, bit + 16 * (PairIndex(nRx, rx, tx) - j))
            else At(a, [s, rx, tx])
    decreases Pairs(nRx, nTx) - j
  {
    if j < Pairs(nRx, nTx) {
      DivBound(j, nRx, nTx);
      var target := [sc, j % nRx, j / nRx];
      var v := PairAt(csi, bit);
      var a' := WriteAt(a, target, v);
      PairLoopAt(csi, a', sc, j + 1, bit + 16, nRx, nTx, s, rx, tx);
      PairSlot(nRx, j, rx, tx);
      assert InBounds(a.shape, [s, rx, tx]);
      assert ([s, rx, tx] == target) <==> (s == sc && PairIndex(nRx, rx, tx) == j);
    } else {
      PairIndexBound(nRx, nTx, rx, tx);
    }
  }

  /** After the subcarrier loop from `sc`, every element of subcarriers
      `sc..29` holds the value read at its bit position. */
  lemma {:induction false} SubcarrierLoopAt(csi: seq<byte>, a: Tensor, sc: nat, bit: nat,
                                            nRx: nat, nTx: nat, s: nat, rx: nat, tx: nat)
    requires Valid(a) && a.shape == MatrixShape(nRx, nTx) && sc <= Subcarriers
    requires bit == sc * SubcarrierBits(Pairs(nRx, nTx))
    requires s < Subcarriers && rx < nRx && tx < nTx
    ensures At(SubcarrierLoop(csi, a, sc, bit, nRx, nTx), [s, rx, tx])
         == if sc <= s
            then PairAt(csi, PairBit(Pairs(nRx, nTx), s, PairIndex(nRx, rx, tx)))
            else At(a, [s, rx, tx])
    decreases Subcarriers - sc
  {
    if sc < Subcarriers {
      var sb := SubcarrierBits(Pairs(nRx, nTx));
      var a' := PairLoop(csi, a, sc, 0, bit + 3, nRx, nTx);
      assert SubcarrierLoop(csi, a, sc, bit, nRx, nTx) == SubcarrierLoop(csi, a', sc + 1, bit + sb, nRx, nTx);
      MulPred(sc + 1, sb);
      SubcarrierLoopAt(csi, a', sc + 1, bit + sb, nRx, nTx, s, rx, tx);
      SubcarrierPairs(csi, a, sc, bit, nRx, nTx, s, rx, tx);
    }
  }

  /** The pair loop of subcarrier `sc`, entered past its pilot bits, reads
      each element of that subcarrier at its bit position. */
  lemma {:induction false} SubcarrierPairs(csi: seq<byte>, a: Tensor, sc: nat, bit: nat,
                        nRx: nat, nTx: nat, s: nat, rx: nat, tx: nat)
    requires Valid(a) && a.shape == MatrixShape(nRx, nTx) && sc < Subcarriers
    requires bit == sc * SubcarrierBits(Pairs(nRx, nTx))
    requires s < Subcarriers && rx < nRx && tx < nTx
    ensures At(PairLoop(csi, a, sc, 0, bit + 3, nRx, nTx), [s, rx, tx])
         == if s == sc
            then PairAt(csi, PairBit(Pairs(nRx, nTx), s, PairIndex(nRx, rx, tx)))
            else At(a, [s, rx, tx])
  {
    PairLoopAt(csi, a, sc, 0, bit + 3, nRx, nTx, s, rx, tx);
    var j := PairIndex(nRx, rx, tx);
    assert bit + 3 + 16 * (j - 0) == PairBit(Pairs(nRx, nTx), sc, j);
  }

  /** The matrix of a record, decoded from its packed bytes: the element of
      subcarrier `s`, receive antenna `rx`, transmit antenna `tx` is the pair
      read at bit `s * (3 + 16 * nRx * nTx) + 3 + 16 * (tx * nRx + rx)`. */
  function DecodeMatrix(csi: seq<byte>, nRx: nat, nTx: nat): (r: Tensor)
    ensures Valid(r) && r.shape == MatrixShape(nRx, nTx)
    ensures forall s: nat, rx: nat, tx: nat :: s < Subcarriers && rx < nRx && tx < nTx ==>
              At(r, [s, rx, tx]) == PairAt(csi, PairBit(Pairs(nRx, nTx), s, PairIndex(nRx, rx, tx)))
  {
    SubcarrierLoopAll(csi, nRx, nTx);
    SubcarrierLoop(csi, Zeros(MatrixShape(nRx, nTx)), 0, 0, nRx, nTx)
  }

  lemma {:induction false} SubcarrierLoopAll(csi: seq<byte>, nRx: nat, nTx: nat)
    ensures var r := SubcarrierLoop(csi, Zeros(MatrixShape(nRx, nTx)), 0, 0, nRx, nTx);
            forall s: nat, rx: nat, tx: nat :: s < Subcarriers && rx < nRx && tx < nTx ==>
              InBounds(r.shape, [s, rx, tx]) &&
              At(r, [s, rx, tx]) == PairAt(csi, PairBit(Pairs(nRx, nTx), s, PairIndex(nRx, rx, tx)))
  {
    var z := Zeros(MatrixShape(nRx, nTx));
    forall s: nat, rx: nat, tx: nat | s < Subcarriers && rx < nRx && tx < nTx
      ensures InBounds(z.shape, [s, rx, tx])
      ensures At(SubcarrierLoop(csi, z, 0, 0, nRx, nTx), [s, rx, tx])
           == PairAt(csi, PairBit(Pairs(nRx, nTx), s, PairIndex(nRx, rx, tx)))
    {
      SubcarrierLoopAt(csi, z, 0, 0, nRx, nTx, s, rx, tx);
    }
  }

  /** Every bit the loops read for a record whose length field matches lies
      inside its `csi_len` bytes: the zero fill past the end is never used. */
  lemma {:induction false} ReadsStayInside(nRx: nat, nTx: nat, s: nat, rx: nat, tx: nat, b: nat)
    requires s < Subcarriers && rx < nRx && tx < nTx && b < 16
    ensures (PairBit(Pairs(nRx, nTx), s, PairIndex(nRx, rx, tx)) + b) / 8 < ExpectedCsiLen(nRx, nTx)
  {
    var n := Pairs(nRx, nTx);
    var sb := SubcarrierBits(n);
    PairIndexBound(nRx, nTx, rx, tx);
    MulStep(s, Subcarriers, sb);
    assert PairBit(n, s, PairIndex(nRx, rx, tx)) + b < 30 * sb;
  }

  // ---------------------------------------------------------------------
  // One record

  /** A frame as this reader produces it: a complex64 30 x nRx x nTx matrix
      with the record metadata attached. */
  predicate WellFormedFrame(f: Frame)
  {
    && f.dtype == Complex64 && f.meta.Some? && Valid(f.csi)
    && f.csi.shape == MatrixShape(f.meta.value.nRx, f.meta.value.nTx)
  }

  /** `parse_bfee_record`: `None` for a payload shorter than the header, a
      `csi_len` field that disagrees with nRx and nTx, or a payload too short
      for the matrix. */
  function ParseRecord(p: seq<byte>): (r: Option<Frame>)
    ensures r.Some? <==>
              && |p| >= HeaderBytes
              && LE16(p[16], p[17]) == ExpectedCsiLen(p[8], p[9])
              && |p| >= HeaderBytes + LE16(p[16], p[17])
    ensures r.Some? ==>
              && WellFormedFrame(r.value)
              && r.value.timestamp == IntStamp(LE32(p[0], p[1], p[2], p[3]))
              && r.value.meta.value == BfeeMeta(LE16(p[4], p[5]), p[8], p[9], p[10], p[11], p[12],
                                                Signed8(p[13]), p[14], p[15], LE16(p[18], p[19]))
    ensures r.Some? ==>
              var csi := p[HeaderBytes..HeaderBytes + LE16(p[16], p[17])];
              var nRx: nat := p[8];
              var nTx: nat := p[9];
              forall s: nat, rx: nat, tx: nat :: s < Subcarriers && rx < nRx && tx < nTx ==>
                At(r.value.csi, [s, rx, tx]) == PairAt(csi, PairBit(Pairs(nRx, nTx), s, PairIndex(nRx, rx, tx)))
  {
    if |p| < HeaderBytes then None
    else
      var timestamp := LE32(p[0], p[1], p[2], p[3]);
      var bfeeCount := LE16(p[4], p[5]);
      var nRx := p[8];
      var nTx := p[9];
      var csiLen := LE16(p[16], p[17]);
      var fakeRate := LE16(p[18], p[19]);
      if csiLen != ExpectedCsiLen(nRx, nTx) then None
      else if |p| < HeaderBytes + csiLen then None
      else
        var csi := DecodeMatrix(p[HeaderBytes..HeaderBytes + csiLen], nRx, nTx);
        Some(BfeeFrame(IntStamp(timestamp), csi, bfeeCount, nRx, nTx, p[10], p[11], p[12],
                       Signed8(p[13]), p[14], p[15], fakeRate))
  }

  // ---------------------------------------------------------------------
  // The file

  /** The framing loop from byte `cur` on, as the payloads it hands to
      `parse_bfee_record`, in file order. Each record has a 3-byte header:
      a big-endian 16-bit length `L` (code byte plus payload) and the code.
      A bfee record's payload is the next `L - 1` bytes; `L = 0` makes
      `read(-1)` take the rest of the file, after which the next header read
      finds the end. A payload cut short by the end of the file ends the
      loop. Other codes are skipped by seeking `L - 1` bytes. */
  function Payloads(bytes: seq<byte>, cur: nat): (ps: seq<seq<byte>>)
    decreases |bytes| - cur
  {
    if cur + 3 >= |bytes| then []
    else
      var len := BE16(bytes[cur], bytes[cur + 1]);
      var code := bytes[cur + 2];
      if code != BfeeCode then Payloads(bytes, cur + 2 + len)
      else if len == 0 then [bytes[cur + 3..]]
      else if cur + 2 + len > |bytes| then []
      else [bytes[cur + 3..cur + 2 + len]] + Payloads(bytes, cur + 2 + len)
  }

  /** The frames of the payloads that parse, in order. */
  function ParsedFrames(ps: seq<seq<byte>>): (fs: seq<Frame>)
    ensures |fs| <= |ps|
    ensures forall i :: 0 <= i < |fs| ==> WellFormedFrame(fs[i])
  {
    if |ps| == 0 then []
    else
      var rest := ParsedFrames(ps[1..]);
      match ParseRecord(ps[0])
      case Some(f) => [f] + rest
      case None => rest
  }

  lemma {:induction false} ParsedFramesAppend(a: seq<seq<byte>>, b: seq<seq<byte>>)
    ensures ParsedFrames(a + b) == ParsedFrames(a) + ParsedFrames(b)
  {
    if |a| > 0 {
      assert (a + b)[0] == a[0] && (a + b)[1..] == a[1..] + b;
      ParsedFramesAppend(a[1..], b);
    } else {
      assert a + b == b;
    }
  }

  /** `read_file(file_path)`: the capture is named after the file's base
      name and holds the frames of its well-formed bfee records in file
      order. */
  function ReadFile(path: string, bytes: seq<byte>): (d: CsiData)
    ensures d.fileName == Paths.Basename(path)
    ensures d.frames == ParsedFrames(Payloads(bytes, 0))
    ensures forall i :: 0 <= i < |d.frames| ==> WellFormedFrame(d.frames[i])
  {
    var fs := ParsedFrames(Payloads(bytes, 0));
    AddFramesAppends(NewCsiData(Paths.Basename(path)), fs);
    AddFrames(NewCsiData(Paths.Basename(path)), fs)
  }

  // ---------------------------------------------------------------------
  // Writing a log file: the framing round trip

  datatype Record = Record(code: byte, payload: seq<byte>)

  /** The length field `|payload| + 1` fits in 16 bits. */
  predicate Encodable(r: Record) { |r.payload| + 1 < 65536 }

  predicate AllEncodable(rs: seq<Record>) { forall i :: 0 <= i < |rs| ==> Encodable(rs[i]) }

  function EncodeRecord(r: Record): (b: seq<byte>)
    requires Encodable(r)
    ensures |b| == 3 + |r.payload|
  {
    var len := |r.payload| + 1;
    [len / 256, len % 256, r.code] + r.payload
  }

  function EncodeRecords(rs: seq<Record>): seq<byte>
    requires AllEncodable(rs)
  {
    if |rs| == 0 then [] else EncodeRecord(rs[0]) + EncodeRecords(rs[1..])
  }

  /** What one record contributes: the parsed frame of a bfee record whose
      payload parses, nothing otherwise. */
  function RecordFrames(r: Record): seq<Frame>
  {
    if r.code != BfeeCode then []
    else match ParseRecord(r.payload)
      case Some(f) => [f]
      case None => []
  }

  function FramesOf(rs: seq<Record>): seq<Frame>
  {
    if |rs| == 0 then [] else RecordFrames(rs[0]) + FramesOf(rs[1..])
  }

  /** The payloads of the bfee records that have one. */
  function BfeePayloads(rs: seq<Record>): seq<seq<byte>>
  {
    if |rs| == 0 then [] else RecordPayload(rs[0]) + BfeePayloads(rs[1..])
  }

  /** The payload one record hands on, if it is a bfee record with one. */
  function RecordPayload(r: Record): seq<seq<byte>>
  {
    if r.code == BfeeCode && |r.payload| > 0 then [r.payload] else []
  }

  /** Payloads without the empty ones, which never parse. */
  function NonEmpty(ps: seq<seq<byte>>): seq<seq<byte>>
  {
    if |ps| == 0 then []
    else if |ps[0]| > 0 then [ps[0]] + NonEmpty(ps[1..])
    else NonEmpty(ps[1..])
  }

  lemma {:induction false} NonEmptyFrames(ps: seq<seq<byte>>)
    ensures ParsedFrames(NonEmpty(ps)) == ParsedFrames(ps)
  {
    if |ps| > 0 {
      NonEmptyFrames(ps[1..]);
      if |ps[0]| > 0 {
        assert ([ps[0]] + NonEmpty(ps[1..]))[1..] == NonEmpty(ps[1..]);
      } else {
        assert ParseRecord(ps[0]).None?;
      }
    }
  }

  lemma {:induction false} NonEmptyAppend(a: seq<seq<byte>>, b: seq<seq<byte>>)
    ensures NonEmpty(a + b) == NonEmpty(a) + NonEmpty(b)
  {
    if |a| > 0 {
      assert (a + b)[0] == a[0] && (a + b)[1..] == a[1..] + b;
      NonEmptyAppend(a[1..], b);
    } else {
      assert a + b == b;
    }
  }

  /** What one record contributes is the frame list of its bfee payload. */
  lemma {:induction false} RecordPayloadFrames(r: Record)
    ensures RecordFrames(r) == ParsedFrames(BfeePayloads([r]))
  {
    assert [r][1..] == [];
    if r.code == BfeeCode && |r.payload| > 0 {
      assert BfeePayloads([r]) == [r.payload];
      assert [r.payload][1..] == [];
    } else {
      assert BfeePayloads([r]) == [];
      if r.code == BfeeCode {
        assert ParseRecord(r.payload).None?;
      }
    }
  }

  /** The frames of the records are those of their bfee payloads. */
  lemma {:induction false} FramesOfPayloads(rs: seq<Record>)
    ensures FramesOf(rs) == ParsedFrames(BfeePayloads(rs))
  {
    if |rs| > 0 {
      var a, b := BfeePayloads([rs[0]]), BfeePayloads(rs[1..]);
      calc {
        FramesOf(rs);
        RecordFrames(rs[0]) + FramesOf(rs[1..]);
        { RecordPayloadFrames(rs[0]); FramesOfPayloads(rs[1..]); }
        ParsedFrames(a) + ParsedFrames(b);
        { ParsedFramesAppend(a, b); }
        ParsedFrames(a + b);
        { BfeePayloadsFirst(rs); }
        ParsedFrames(BfeePayloads(rs));
      }
    }
  }

  /** The loop steps over one complete record and hands on its payload when
      it is a bfee record with one. */
  lemma {:induction false} StepRecord(bytes: seq<byte>, cur: nat, r: Record, n: nat)
    requires Encodable(r) && n == |EncodeRecord(r)| && cur + n <= |bytes|
    requires bytes[cur..cur + n] == EncodeRecord(r)
    ensures NonEmpty(Payloads(bytes, cur)) == BfeePayloads([r]) + NonEmpty(Payloads(bytes, cur + n))
  {
    var e := EncodeRecord(r);
    var len := |r.payload| + 1;
    assert bytes[cur] == e[0] && bytes[cur + 1] == e[1] && bytes[cur + 2] == e[2];
    BE16Split(len);
    assert BE16(bytes[cur], bytes[cur + 1]) == len;
    assert BfeePayloads([r]) == if r.code == BfeeCode && |r.payload| > 0 then [r.payload] else [] by {
      assert [r][1..] == [];
    }
    if cur + 3 >= |bytes| {
      assert cur + n == |bytes|;
    } else if r.code == BfeeCode {
      assert e[3..] == r.payload;
      assert bytes[cur + 3..cur + 2 + len] == bytes[cur..cur + n][3..];
      var ps := Payloads(bytes, cur + n);
      assert Payloads(bytes, cur) == [r.payload] + ps;
      if |r.payload| > 0 {
        assert NonEmpty([r.payload] + ps) == [r.payload] + NonEmpty(ps) by {
          assert ([r.payload] + ps)[1..] == ps;
        }
      } else {
        assert NonEmpty([r.payload] + ps) == NonEmpty(ps) by {
          assert ([r.payload] + ps)[1..] == ps;
        }
      }
    }
  }

  /** The loop over a run of complete records hands on their bfee payloads
      in order. */
  lemma {:induction false} StepRecords(bytes: seq<byte>, cur: nat, rs: seq<Record>, end: nat)
    requires AllEncodable(rs) && end == cur + |EncodeRecords(rs)| && end <= |bytes|
    requires bytes[cur..end] == EncodeRecords(rs)
    ensures NonEmpty(Payloads(bytes, cur)) == BfeePayloads(rs) + NonEmpty(Payloads(bytes, end))
    decreases |rs|
  {
    if |rs| > 0 {
      var n := EncodedSplit(bytes, cur, rs, end);
      StepRecords(bytes, cur + n, rs[1..], end);
      StepFirst(bytes, cur, rs, n, end);
    } else {
      assert end == cur && BfeePayloads(rs) == [];
    }
  }

  /** One record followed by the rest: the payloads of the first record
      come before those of the rest. */
  lemma {:induction false} StepFirst(bytes: seq<byte>, cur: nat, rs: seq<Record>, n: nat, end: nat)
    requires |rs| > 0 && Encodable(rs[0]) && n == |EncodeRecord(rs[0])| && cur + n <= |bytes|
    requires bytes[cur..cur + n] == EncodeRecord(rs[0])
    requires NonEmpty(Payloads(bytes, cur + n)) == BfeePayloads(rs[1..]) + NonEmpty(Payloads(bytes, end))
    ensures NonEmpty(Payloads(bytes, cur)) == BfeePayloads(rs) + NonEmpty(Payloads(bytes, end))
  {
    var a, b := BfeePayloads([rs[0]]), BfeePayloads(rs[1..]);
    var c := NonEmpty(Payloads(bytes, end));
    calc {
      NonEmpty(Payloads(bytes, cur));
      { StepRecord(bytes, cur, rs[0], n); }
      a + NonEmpty(Payloads(bytes, cur + n));
      a + (b + c);
      (a + b) + c;
      { BfeePayloadsFirst(rs); }
      BfeePayloads(rs) + c;
    }
  }

  lemma {:induction false} BfeePayloadsFirst(rs: seq<Record>)
    requires |rs| > 0
    ensures BfeePayloads(rs) == BfeePayloads([rs[0]]) + BfeePayloads(rs[1..])
  {
    var one := [rs[0]];
    assert one[0] == rs[0] && one[1..] == [];
    assert BfeePayloads(one) == RecordPayload(rs[0]) + [];
  }

  /** The bytes of a run of records start with those of its first record,
      `n` bytes long, followed by those of the rest. */
  lemma {:induction false} EncodedSplit(bytes: seq<byte>, cur: nat, rs: seq<Record>, end: nat) returns (n: nat)
    requires |rs| > 0 && AllEncodable(rs) && end == cur + |EncodeRecords(rs)| && end <= |bytes|
    requires bytes[cur..end] == EncodeRecords(rs)
    ensures Encodable(rs[0]) && AllEncodable(rs[1..])
    ensures n == |EncodeRecord(rs[0])| && end == cur + n + |EncodeRecords(rs[1..])|
    ensures bytes[cur..cur + n] == EncodeRecord(rs[0])
    ensures bytes[cur + n..end] == EncodeRecords(rs[1..])
  {
    var e := EncodeRecord(rs[0]);
    var rest := EncodeRecords(rs[1..]);
    n := |e|;
    assert AllEncodable(rs[1..]);
    assert EncodeRecords(rs) == e + rest;
    assert bytes[cur..cur + n] == EncodeRecords(rs)[..n];
    assert bytes[cur + n..end] == EncodeRecords(rs)[n..];
  }

  /** A record cut short by the end of the file hands on nothing and ends
      the loop. */
  lemma {:induction false} TruncatedRecord(bytes: seq<byte>, cur: nat, r: Record)
    requires Encodable(r) && cur <= |bytes| && |bytes| - cur < |EncodeRecord(r)|
    requires bytes[cur..] == EncodeRecord(r)[..|bytes| - cur]
    ensures Payloads(bytes, cur) == []
  {
    if cur + 3 < |bytes| {
      var e := EncodeRecord(r);
      assert bytes[cur] == e[0] && bytes[cur + 1] == e[1] && bytes[cur + 2] == e[2];
      BE16Split(|r.payload| + 1);
    }
  }

  /** The file made of complete records `rs`, possibly followed by a
      truncated record, reads as the frames of the bfee records of `rs`
      whose payloads parse, in file order. */
  lemma {:induction false} ReadEncodedFile(path: string, rs: seq<Record>, last: Record, cut: nat)
    requires AllEncodable(rs) && Encodable(last) && cut < |EncodeRecord(last)|
    ensures ReadFile(path, EncodeRecords(rs) + EncodeRecord(last)[..cut])
         == CsiData(Paths.Basename(path), FramesOf(rs))
  {
    var head := EncodeRecords(rs);
    var tail := EncodeRecord(last)[..cut];
    var bytes := head + tail;
    assert bytes[0..|head|] == head;
    assert bytes[|head|..] == tail;
    calc {
      ReadFile(path, bytes).frames;
      ParsedFrames(Payloads(bytes, 0));
      { NonEmptyFrames(Payloads(bytes, 0)); }
      ParsedFrames(NonEmpty(Payloads(bytes, 0)));
      { StepRecords(bytes, 0, rs, |head|); }
      ParsedFrames(BfeePayloads(rs) + NonEmpty(Payloads(bytes, |head|)));
      { TruncatedRecord(bytes, |head|, last); assert NonEmpty([]) == []; }
      ParsedFrames(BfeePayloads(rs) + []);
      { assert BfeePayloads(rs) + [] == BfeePayloads(rs); }
      ParsedFrames(BfeePayloads(rs));
      { FramesOfPayloads(rs); }
      FramesOf(rs);
    }
  }

  // ---------------------------------------------------------------------
  // Writing a record: the payload round trip

  /** Header values that fit their fields. */
  predicate HeaderFits(timestamp: nat, m: BfeeMeta)
  {
    && timestamp < 0x1_0000_0000 && m.bfeeCount < 65536 && m.fakeRate < 65536
    && m.nRx < 256 && m.nTx < 256 && m.rssiA < 256 && m.rssiB < 256 && m.rssiC < 256
    && m.agc < 256 && m.antennaSel < 256 && -128 <= m.noise <= 127
    && ExpectedCsiLen(m.nRx, m.nTx) < 65536
  }

  /** A 30 x nRx x nTx matrix of complex values with signed 8-bit integer
      parts, which is what a record can carry. */
  ghost predicate Int8Matrix(a: Tensor, nRx: nat, nTx: nat)
  {
    && Valid(a) && a.shape == MatrixShape(nRx, nTx)
    && forall idx :: InBounds(a.shape, idx) ==> IsInt8(At(a, idx).re) && IsInt8(At(a, idx).im)
  }

  /** The 16 bits of one element: real byte then imaginary byte, each
      least significant bit first. */
  function PairBits(v: Num): (bits: seq<bit>)
    requires IsInt8(v.re) && IsInt8(v.im)
    ensures |bits| == 16
  {
    NatBits(Unsigned8(v.re.Floor), 8) + NatBits(Unsigned8(v.im.Floor), 8)
  }

  /** The 16-bit groups of subcarrier `s`, in the order the decoder reads
      the pairs. */
  function PairPieces(a: Tensor, nRx: nat, nTx: nat, s: nat): (ps: seq<seq<bit>>)
    requires Int8Matrix(a, nRx, nTx) && s < Subcarriers
    ensures |ps| == Pairs(nRx, nTx) && Uniform(ps, 16)
  {
    var n := Pairs(nRx, nTx);
    seq(n, j requires 0 <= j < n =>
      DivBound(j, nRx, nTx);
      assert InBounds(a.shape, [s, j % nRx, j / nRx]);
      PairBits(At(a, [s, j % nRx, j / nRx])))
  }

  /** The bits of subcarrier `s`: a zero pilot field, then its pairs. */
  function SubcarrierPiece(a: Tensor, nRx: nat, nTx: nat, s: nat): (bits: seq<bit>)
    requires Int8Matrix(a, nRx, nTx) && s < Subcarriers
    ensures |bits| == SubcarrierBits(Pairs(nRx, nTx))
  {
    ConcatLength(PairPieces(a, nRx, nTx, s), 16);
    [0, 0, 0] + Concat(PairPieces(a, nRx, nTx, s))
  }

  function SubcarrierPieces(a: Tensor, nRx: nat, nTx: nat): (ps: seq<seq<bit>>)
    requires Int8Matrix(a, nRx, nTx)
    ensures |ps| == Subcarriers && Uniform(ps, SubcarrierBits(Pairs(nRx, nTx)))
    ensures forall s :: 0 <= s < Subcarriers ==> ps[s] == SubcarrierPiece(a, nRx, nTx, s)
  {
    seq(Subcarriers, s requires 0 <= s < Subcarriers => SubcarrierPiece(a, nRx, nTx, s))
  }

  function EncodeMatrixBits(a: Tensor, nRx: nat, nTx: nat): (bits: seq<bit>)
    requires Int8Matrix(a, nRx, nTx)
    ensures |bits| == Subcarriers * SubcarrierBits(Pairs(nRx, nTx))
  {
    ConcatLength(SubcarrierPieces(a, nRx, nTx), SubcarrierBits(Pairs(nRx, nTx)));
    Concat(SubcarrierPieces(a, nRx, nTx))
  }

  /** Within subcarrier `s`, the bits of the element at `(rx, tx)` follow
      the pilot field and the pairs before it. */
  lemma {:induction false} SubcarrierPieceAt(a: Tensor, nRx: nat, nTx: nat, s: nat, rx: nat, tx: nat, b: nat)
    requires Int8Matrix(a, nRx, nTx)
    requires s < Subcarriers && rx < nRx && tx < nTx && b < 16
    ensures InBounds(a.shape, [s, rx, tx])
    ensures var q := 3 + 16 * PairIndex(nRx, rx, tx) + b;
            q < SubcarrierBits(Pairs(nRx, nTx))
            && SubcarrierPiece(a, nRx, nTx, s)[q] == PairBits(At(a, [s, rx, tx]))[b]
  {
    var j := PairIndex(nRx, rx, tx);
    PairIndexBound(nRx, nTx, rx, tx);
    var pairs := PairPieces(a, nRx, nTx, s);
    ConcatAt(pairs, 16, j, b);
    PairSlot(nRx, j, rx, tx);
    DivBound(j, nRx, nTx);
    assert pairs[j] == PairBits(At(a, [s, j % nRx, j / nRx]));
  }

  /** The encoded bits of the element at `(s, rx, tx)` sit at its read
      position. */
  lemma {:induction false} EncBitAt(a: Tensor, nRx: nat, nTx: nat, s: nat, rx: nat, tx: nat, b: nat)
    requires Int8Matrix(a, nRx, nTx)
    requires s < Subcarriers && rx < nRx && tx < nTx && b < 16
    ensures InBounds(a.shape, [s, rx, tx])
    ensures var p := PairBit(Pairs(nRx, nTx), s, PairIndex(nRx, rx, tx)) + b;
            var bits := EncodeMatrixBits(a, nRx, nTx);
            p < |bits| && bits[p] == PairBits(At(a, [s, rx, tx]))[b]
  {
    var sb := SubcarrierBits(Pairs(nRx, nTx));
    var q := 3 + 16 * PairIndex(nRx, rx, tx) + b;
    SubcarrierPieceAt(a, nRx, nTx, s, rx, tx, b);
    ConcatAt(SubcarrierPieces(a, nRx, nTx), sb, s, q);
    assert PairBit(Pairs(nRx, nTx), s, PairIndex(nRx, rx, tx)) + b == s * sb + q;
  }

  /** The packed matrix of a record carrying `a`. */
  function EncodeMatrix(a: Tensor, nRx: nat, nTx: nat): (csi: seq<byte>)
    requires Int8Matrix(a, nRx, nTx)
    ensures |csi| == ExpectedCsiLen(nRx, nTx)
  {
    PackBits(EncodeMatrixBits(a, nRx, nTx))
  }

  /** The payload of a bfee record with this header and matrix. Bytes 6 and
      7 are not read by the decoder and are written as zero. */
  function EncodePayload(timestamp: nat, m: BfeeMeta, a: Tensor): (p: seq<byte>)
    requires HeaderFits(timestamp, m) && Int8Matrix(a, m.nRx, m.nTx)
    ensures |p| == HeaderBytes + ExpectedCsiLen(m.nRx, m.nTx)
  {
    var len := ExpectedCsiLen(m.nRx, m.nTx);
    [timestamp % 256, timestamp / 256 % 256, timestamp / 65536 % 256, timestamp / 16777216,
     m.bfeeCount % 256, m.bfeeCount / 256, 0, 0, m.nRx, m.nTx,
     m.rssiA, m.rssiB, m.rssiC, Unsigned8(m.noise), m.agc, m.antennaSel,
     len % 256, len / 256, m.fakeRate % 256, m.fakeRate / 256]
    + EncodeMatrix(a, m.nRx, m.nTx)
  }

  lemma {:induction false} LE32Split(n: nat)
    requires n < 0x1_0000_0000
    ensures LE32(n % 256, n / 256 % 256, n / 65536 % 256, n / 16777216) == n
  {
    var lo := n % 65536;
    var hi := n / 65536;
    assert n / 256 % 256 == lo / 256;
    assert n / 16777216 == hi / 256;
    LE16Split(lo);
    LE16Split(hi);
  }

  /** The byte read at the real (`half == 0`) or imaginary (`half == 1`)
      position of an encoded element is that part as an unsigned byte `u`. */
  lemma {:induction false} EncodedByte(a: Tensor, nRx: nat, nTx: nat, s: nat, rx: nat, tx: nat, half: nat, u: nat)
    requires Int8Matrix(a, nRx, nTx)
    requires s < Subcarriers && rx < nRx && tx < nTx && half < 2
    requires InBounds(a.shape, [s, rx, tx])
    requires var v := At(a, [s, rx, tx]);
             IsInt8(v.re) && IsInt8(v.im) &&
             u == Unsigned8((if half == 0 then v.re else v.im).Floor)
    ensures GetBitsU8(EncodeMatrix(a, nRx, nTx), PairBit(Pairs(nRx, nTx), s, PairIndex(nRx, rx, tx)) + 8 * half) == u
  {
    var bits := EncodeMatrixBits(a, nRx, nTx);
    var pos := PairBit(Pairs(nRx, nTx), s, PairIndex(nRx, rx, tx)) + 8 * half;
    EncodedBits(a, nRx, nTx, s, rx, tx, half, u);
    ReadPackedU8(bits, pos, u);
  }

  /** Decoding an encoded element gives the element back. */
  lemma {:induction false} PairRoundTrip(a: Tensor, nRx: nat, nTx: nat, s: nat, rx: nat, tx: nat)
    requires Int8Matrix(a, nRx, nTx)
    requires s < Subcarriers && rx < nRx && tx < nTx
    ensures PairAt(EncodeMatrix(a, nRx, nTx), PairBit(Pairs(nRx, nTx), s, PairIndex(nRx, rx, tx)))
         == At(a, [s, rx, tx])
  {
    EncBitAt(a, nRx, nTx, s, rx, tx, 0);
    var v := At(a, [s, rx, tx]);
    EncodedByte(a, nRx, nTx, s, rx, tx, 0, Unsigned8(v.re.Floor));
    EncodedByte(a, nRx, nTx, s, rx, tx, 1, Unsigned8(v.im.Floor));
  }

  /** The eight encoded bits of one part of an element. */
  lemma {:induction false} EncodedBits(a: Tensor, nRx: nat, nTx: nat, s: nat, rx: nat, tx: nat, half: nat, u: nat)
    requires Int8Matrix(a, nRx, nTx)
    requires s < Subcarriers && rx < nRx && tx < nTx && half < 2
    requires InBounds(a.shape, [s, rx, tx])
    requires var v := At(a, [s, rx, tx]);
             IsInt8(v.re) && IsInt8(v.im) &&
             u == Unsigned8((if half == 0 then v.re else v.im).Floor)
    ensures var pos := PairBit(Pairs(nRx, nTx), s, PairIndex(nRx, rx, tx)) + 8 * half;
            var bits := EncodeMatrixBits(a, nRx, nTx);
            pos + 8 <= |bits| && forall b :: 0 <= b < 8 ==> bits[pos + b] == NatBits(u, 8)[b]
  {
    var v := At(a, [s, rx, tx]);
    EncBitAt(a, nRx, nTx, s, rx, tx, 15);
    forall b | 0 <= b < 8
      ensures EncodeMatrixBits(a, nRx, nTx)[PairBit(Pairs(nRx, nTx), s, PairIndex(nRx, rx, tx)) + 8 * half + b]
           == NatBits(u, 8)[b]
    {
      EncBitAt(a, nRx, nTx, s, rx, tx, 8 * half + b);
      HalfBits(v, half, b);
    }
  }

  lemma {:induction false} HalfBits(v: Num, half: nat, b: nat)
    requires IsInt8(v.re) && IsInt8(v.im) && half < 2 && b < 8
    ensures var x := if half == 0 then v.re else v.im;
            PairBits(v)[8 * half + b] == NatBits(Unsigned8(x.Floor), 8)[b]
  {
  }

  /** The header fields of an encoded payload read back as written. */
  lemma {:induction false} HeaderRoundTrip(timestamp: nat, m: BfeeMeta, a: Tensor)
    requires HeaderFits(timestamp, m) && Int8Matrix(a, m.nRx, m.nTx)
    ensures var p := EncodePayload(timestamp, m, a);
            && LE32(p[0], p[1], p[2], p[3]) == timestamp
            && BfeeMeta(LE16(p[4], p[5]), p[8], p[9], p[10], p[11], p[12],
                        Signed8(p[13]), p[14], p[15], LE16(p[18], p[19])) == m
            && LE16(p[16], p[17]) == ExpectedCsiLen(p[8], p[9])
            && p[HeaderBytes..HeaderBytes + LE16(p[16], p[17])] == EncodeMatrix(a, m.nRx, m.nTx)
  {
    var p := EncodePayload(timestamp, m, a);
    var len := ExpectedCsiLen(m.nRx, m.nTx);
    LE32Split(timestamp);
    LE16Split(m.bfeeCount);
    LE16Split(m.fakeRate);
    LE16Split(len);
    assert p[8] == m.nRx && p[9] == m.nTx;
    assert LE16(p[16], p[17]) == len;
    assert p[HeaderBytes..HeaderBytes + len] == EncodeMatrix(a, m.nRx, m.nTx);
  }

  /** A payload whose matrix bytes encode `a` holds `a` in the header it
      declares. */
  ghost predicate CarriesMatrix(p: seq<byte>, a: Tensor)
  {
    && |p| >= HeaderBytes && Int8Matrix(a, p[8], p[9])
    && LE16(p[16], p[17]) == ExpectedCsiLen(p[8], p[9])
    && |p| >= HeaderBytes + LE16(p[16], p[17])
    && p[HeaderBytes..HeaderBytes + LE16(p[16], p[17])] == EncodeMatrix(a, p[8], p[9])
  }

  /** The element `(s, rx, tx)` of a parsed record, by the closed form. */
  lemma {:induction false} ParsedCell(p: seq<byte>, s: nat, rx: nat, tx: nat)
    requires ParseRecord(p).Some? && s < Subcarriers && rx < p[8] && tx < p[9]
    ensures InBounds(ParseRecord(p).value.csi.shape, [s, rx, tx])
    ensures At(ParseRecord(p).value.csi, [s, rx, tx])
         == PairAt(p[HeaderBytes..HeaderBytes + LE16(p[16], p[17])],
                   PairBit(Pairs(p[8], p[9]), s, PairIndex(p[8], rx, tx)))
  {
  }

  lemma {:induction false} ParsedCellInt8(p: seq<byte>, a: Tensor, idx: seq<nat>)
    requires ParseRecord(p).Some? && a == ParseRecord(p).value.csi
    requires a.shape == [Subcarriers, p[8], p[9]] && InBounds(a.shape, idx)
    ensures IsInt8(At(a, idx).re) && IsInt8(At(a, idx).im)
  {
    var s: nat, rx: nat, tx: nat := idx[0], idx[1], idx[2];
    assert idx == [s, rx, tx];
    ParsedCell(p, s, rx, tx);
    PairAtInt8(p[HeaderBytes..HeaderBytes + LE16(p[16], p[17])], PairBit(Pairs(p[8], p[9]), s, PairIndex(p[8], rx, tx)));
  }

  /** Every element `parse_bfee_record` produces is a pair of signed 8-bit
      values, so its output lies in the domain the record writer accepts. */
  lemma {:induction false} ParsedIsInt8(p: seq<byte>)
    requires ParseRecord(p).Some?
    ensures Int8Matrix(ParseRecord(p).value.csi, p[8], p[9])
  {
    var a := ParseRecord(p).value.csi;
    var nRx: nat, nTx: nat := p[8], p[9];
    assert Valid(a) && a.shape == [Subcarriers, nRx, nTx];
    forall idx | InBounds(a.shape, idx) ensures IsInt8(At(a, idx).re) && IsInt8(At(a, idx).im)
    {
      ParsedCellInt8(p, a, idx);
    }
  }

  lemma {:induction false} CellRoundTrip(p: seq<byte>, a: Tensor, s: nat, rx: nat, tx: nat)
    requires CarriesMatrix(p, a) && s < Subcarriers && rx < p[8] && tx < p[9]
    ensures ParseRecord(p).Some? && InBounds(a.shape, [s, rx, tx])
    ensures At(ParseRecord(p).value.csi, [s, rx, tx]) == At(a, [s, rx, tx])
  {
    ParsedCell(p, s, rx, tx);
    PairRoundTrip(a, p[8], p[9], s, rx, tx);
  }

  /** A payload whose matrix bytes encode `a` decodes to `a`. */
  lemma {:induction false} CellsRoundTrip(p: seq<byte>, a: Tensor)
    requires CarriesMatrix(p, a)
    ensures ParseRecord(p).Some? && ParseRecord(p).value.csi == a
  {
    var nRx: nat, nTx: nat := p[8], p[9];
    var c := ParseRecord(p).value.csi;
    forall s: nat, rx: nat, tx: nat | s < Subcarriers && rx < nRx && tx < nTx
      ensures InBounds(c.shape, [s, rx, tx]) && At(c, [s, rx, tx]) == At(a, [s, rx, tx])
    {
      CellRoundTrip(p, a, s, rx, tx);
    }
    Extensionality3(c, a, Subcarriers, nRx, nTx);
  }

  /** `parse_bfee_record` inverts the record writer: header fields, shape
      and every matrix element come back as written. */
  lemma {:induction false} RecordRoundTrip(timestamp: nat, m: BfeeMeta, a: Tensor)
    requires HeaderFits(timestamp, m) && Int8Matrix(a, m.nRx, m.nTx)
    ensures ParseRecord(EncodePayload(timestamp, m, a))
         == Some(Frame(IntStamp(timestamp), a, Complex64, Some(m)))
  {
    HeaderRoundTrip(timestamp, m, a);
    CellsRoundTrip(EncodePayload(timestamp, m, a), a);
  }

  /** A log file holding one bfee record written from a header and a matrix
      reads back as a capture with exactly that frame. */
  lemma {:induction false} ReadWrittenRecord(path: string, timestamp: nat, m: BfeeMeta, a: Tensor)
    requires HeaderFits(timestamp, m) && Int8Matrix(a, m.nRx, m.nTx)
    requires HeaderBytes + ExpectedCsiLen(m.nRx, m.nTx) + 1 < 65536
    ensures var r := Record(BfeeCode, EncodePayload(timestamp, m, a));
            ReadFile(path, EncodeRecord(r))
            == CsiData(Paths.Basename(path), [Frame(IntStamp(timestamp), a, Complex64, Some(m))])
  {
    var r := Record(BfeeCode, EncodePayload(timestamp, m, a));
    RecordRoundTrip(timestamp, m, a);
    OneRecord(r);
    ReadEncodedFile(path, [r], r, 0);
  }

  /** A file of one record is that record's bytes, and yields its frames. */
  lemma {:induction false} OneRecord(r: Record)
    requires Encodable(r)
    ensures AllEncodable([r])
    ensures EncodeRecord(r) == EncodeRecords([r]) + EncodeRecord(r)[..0]
    ensures FramesOf([r]) == RecordFrames(r)
  {
    assert [r][1..] == [];
    assert FramesOf([r]) == RecordFrames(r) + FramesOf([]);
    assert EncodeRecords([r]) == EncodeRecord(r) + EncodeRecords([]);
  }
}

=== FILE: bits.dfy ===
/** Byte-level helpers of the bfee decoder: multi-byte integer fields, the
    two's-complement view of a byte, and the unaligned least-significant-bit-
    first bit cursor over the packed CSI bytes, together with the inverse
    packing used to state the decoder's round trip. */
module Bits {

  type byte = x: int | 0 <= x < 256
  type bit = x: nat | x < 2

  /** `(hi << 8) | lo`: a big-endian 16-bit field. */
  function BE16(hi: byte, lo: byte): nat { hi * 256 + lo }

  /** `(lo | (hi << 8)) & 0xffff`: a little-endian 16-bit field. */
  function LE16(lo: byte, hi: byte): nat { lo + 256 * hi }

  /** `(b0 | b1 << 8 | b2 << 16 | b3 << 24) & 0xffffffff`. */
  function LE32(b0: byte, b1: byte, b2: byte, b3: byte): nat
  {
    LE16(b0, b1) + 65536 * LE16(b2, b3)
  }

  /** A byte read as a signed 8-bit value: bit 7 set means `value - 256`. */
  function Signed8(v: byte): (s: int)
    ensures -128 <= s <= 127
  {
    if v >= 128 then v - 256 else v
  }

  /** The byte whose signed reading is `s` (two's complement). */
  function Unsigned8(s: int): (v: byte)
    requires -128 <= s <= 127
    ensures Signed8(v) == s
  {
    if s < 0 then s + 256 else s
  }

  lemma {:induction false} BE16Split(n: nat)
    requires n < 65536
    ensures BE16(n / 256, n % 256) == n
  {
  }

  lemma {:induction false} LE16Split(n: nat)
    requires n < 65536
    ensures LE16(n % 256, n / 256) == n
  {
  }

  // ---------------------------------------------------------------------
  // The bit cursor

  function Pow2(k: nat): (r: nat)
    ensures r >= 1
  {
    if k == 0 then 1 else 2 * Pow2(k - 1)
  }

  /** `x >> k`. */
  function Shr(x: nat, k: nat): nat
  {
    if k == 0 then x else Shr(x / 2, k - 1)
  }

  /** `get_bit(pos)`: bit `pos % 8` of byte `pos / 8`, counting from the
      least significant bit; a position past the end reads as 0. */
  function GetBit(bytes: seq<byte>, pos: nat): bit
  {
    var i := pos / 8;
    if i >= |bytes| then 0 else Shr(bytes[i], pos % 8) % 2
  }

  /** The first `k` rounds of `val |= get_bit(pos + b) << b`, b = 0, 1, ...
      (the bits are distinct, so `|` adds). */
  function LoopValue(bytes: seq<byte>, pos: nat, k: nat): nat
  {
    if k == 0 then 0 else LoopValue(bytes, pos, k - 1) + GetBit(bytes, pos + k - 1) * Pow2(k - 1)
  }

  /** `get_bits_u8(pos)`. */
  function GetBitsU8(bytes: seq<byte>, pos: nat): nat
  {
    LoopValue(bytes, pos, 8)
  }

  /** The same sum read from the least significant end. */
  function FrontValue(bytes: seq<byte>, pos: nat, k: nat): nat
    decreases k
  {
    if k == 0 then 0 else GetBit(bytes, pos) + 2 * FrontValue(bytes, pos + 1, k - 1)
  }

  /** Peeling the first round off the accumulation loop. */
  lemma {:induction false} LoopFrontStep(bytes: seq<byte>, pos: nat, k: nat)
    requires k >= 1
    ensures LoopValue(bytes, pos, k) == GetBit(bytes, pos) + 2 * LoopValue(bytes, pos + 1, k - 1)
    decreases k
  {
    if k > 1 {
      LoopFrontStep(bytes, pos, k - 1);
      var g := GetBit(bytes, pos + k - 1);
      assert Pow2(k - 1) == 2 * Pow2(k - 2);
      assert g * Pow2(k - 1) == 2 * (g * Pow2(k - 2));
      assert LoopValue(bytes, pos + 1, k - 1)
          == LoopValue(bytes, pos + 1, k - 2) + g * Pow2(k - 2);
    }
  }

  lemma {:induction false} LoopIsFront(bytes: seq<byte>, pos: nat, k: nat)
    ensures LoopValue(bytes, pos, k) == FrontValue(bytes, pos, k)
    decreases k
  {
    if k > 0 {
      LoopFrontStep(bytes, pos, k);
      LoopIsFront(bytes, pos + 1, k - 1);
    }
  }

  lemma {:induction false} FrontValueBound(bytes: seq<byte>, pos: nat, k: nat)
    ensures FrontValue(bytes, pos, k) < Pow2(k)
    decreases k
  {
    if k > 0 { FrontValueBound(bytes, pos + 1, k - 1); }
  }

  /** An 8-bit read is an unsigned byte value. */
  lemma {:induction false} GetBitsU8IsByte(bytes: seq<byte>, pos: nat)
    ensures GetBitsU8(bytes, pos) < 256
  {
    LoopIsFront(bytes, pos, 8);
    FrontValueBound(bytes, pos, 8);
  }

  // ---------------------------------------------------------------------
  // Packing bits into bytes, least significant bit first

  /** The `k` low bits of `u`, least significant first. */
  function NatBits(u: nat, k: nat): (r: seq<bit>)
    ensures |r| == k
  {
    if k == 0 then [] else [u % 2] + NatBits(u / 2, k - 1)
  }

  function BitOr0(bits: seq<bit>, i: nat): bit
  {
    if i < |bits| then bits[i] else 0
  }

  function ByteVal(bits: seq<bit>, i: nat, k: nat): (r: nat)
    ensures r < Pow2(k)
    decreases k
  {
    if k == 0 then 0 else BitOr0(bits, i) + 2 * ByteVal(bits, i + 1, k - 1)
  }

  /** Packs a bit string into `ceil(|bits| / 8)` bytes, zero-padding the
      last one. */
  function PackBits(bits: seq<bit>): (r: seq<byte>)
    ensures |r| == (|bits| + 7) / 8
  {
    seq((|bits| + 7) / 8, k requires 0 <= k => ByteVal(bits, 8 * k, 8))
  }

  lemma {:induction false} ShrByteVal(bits: seq<bit>, i: nat, k: nat, m: nat)
    requires m < k
    ensures Shr(ByteVal(bits, i, k), m) % 2 == BitOr0(bits, i + m)
    decreases m
  {
    if m > 0 {
      var v := ByteVal(bits, i, k);
      assert v / 2 == ByteVal(bits, i + 1, k - 1);
      ShrByteVal(bits, i + 1, k - 1, m - 1);
    }
  }

  /** The cursor reads back every packed bit. */
  lemma {:induction false} GetBitPacked(bits: seq<bit>, p: nat)
    requires p < |bits|
    ensures GetBit(PackBits(bits), p) == bits[p]
  {
    var q := p / 8;
    assert q < (|bits| + 7) / 8;
    ShrByteVal(bits, 8 * q, 8, p % 8);
    assert 8 * q + p % 8 == p;
  }

  lemma {:induction false} FrontValueOfBits(bytes: seq<byte>, pos: nat, u: nat, k: nat)
    requires u < Pow2(k)
    requires forall b :: 0 <= b < k ==> GetBit(bytes, pos + b) == NatBits(u, k)[b]
    ensures FrontValue(bytes, pos, k) == u
    decreases k
  {
    if k > 0 {
      var rest := NatBits(u / 2, k - 1);
      assert NatBits(u, k) == [u % 2] + rest;
      forall b | 0 <= b < k - 1 ensures GetBit(bytes, pos + 1 + b) == rest[b]
      {
        assert GetBit(bytes, pos + (b + 1)) == NatBits(u, k)[b + 1];
      }
      assert GetBit(bytes, pos + 0) == NatBits(u, k)[0];
      FrontValueOfBits(bytes, pos + 1, u / 2, k - 1);
    }
  }

  /** Reading 8 bits where the packed string holds the bits of `u` gives `u`. */
  lemma {:induction false} ReadPackedU8(bits: seq<bit>, pos: nat, u: nat)
    requires u < 256 && pos + 8 <= |bits|
    requires forall b :: 0 <= b < 8 ==> bits[pos + b] == NatBits(u, 8)[b]
    ensures GetBitsU8(PackBits(bits), pos) == u
  {
    forall b | 0 <= b < 8 ensures GetBit(PackBits(bits), pos + b) == NatBits(u, 8)[b]
    {
      GetBitPacked(bits, pos + b);
    }
    LoopIsFront(PackBits(bits), pos, 8);
    FrontValueOfBits(PackBits(bits), pos, u, 8);
  }
}

=== FILE: download.dfy ===
/** The deterministic part of the parallel dataset download: splitting a
    file of known size into byte ranges, the `Range` request header of each
    range (an inclusive `bytes=first-last` range, section 2.1 of RFC 7233)
    and the bounded retry of one range. The requests themselves are not
    modelled; the outcome of each attempt is a parameter. */
module Download {
  import opened Wrappers
  import opened Numbers
  import Arith

  /** `chunk_size`: 16 MiB. */
  const ChunkSize: nat := 16 * 1024 * 1024

  /** The number of requests made for one range before giving up. */
  const MaxAttempts: nat := 3

  /** A byte range with an inclusive last position. */
  datatype Chunk = Chunk(first: nat, last: nat)

  function Min(a: int, b: int): int { if a <= b then a else b }

  /** `[(s, min(s + cs - 1, size - 1)) for s in range(start, size, cs)]`. */
  function Chunks(size: nat, cs: nat, start: nat): (c: seq<Chunk>)
    requires cs > 0
    ensures |c| == 0 <==> start >= size
    ensures |c| > 0 ==> start + (|c| - 1) * cs < size <= start + |c| * cs
    ensures forall i :: 0 <= i < |c| ==>
              c[i].first == start + i * cs && c[i].last == Min(start + i * cs + cs - 1, size - 1)
    decreases size - start
  {
    if start >= size then []
    else
      var rest := Chunks(size, cs, start + cs);
      var c := [Chunk(start, Min(start + cs - 1, size - 1))] + rest;
      forall i | 0 < i < |c|
        ensures c[i].first == start + i * cs && c[i].last == Min(start + i * cs + cs - 1, size - 1)
      {
        assert c[i] == rest[i - 1];
        assert (i - 1) * cs + cs == i * cs;
      }
      assert |rest| > 0 ==> (|rest| - 1) * cs + cs == (|c| - 1) * cs && |rest| * cs + cs == |c| * cs;
      c
  }

  /** The plan of `_download_file_from_url`: none when the size is unknown
      or not positive (the single-request path is taken), otherwise the
      ranges of `ChunkSize` bytes. */
  function Plan(size: int): (p: Option<seq<Chunk>>)
    ensures p.None? <==> size <= 0
  {
    if size <= 0 then None else Some(Chunks(size, ChunkSize, 0))
  }

  predicate InChunk(c: Chunk, b: nat) { c.first <= b <= c.last }

  /** The ranges start at 0, each starts right after the previous one ends,
      the last ends at the last byte, all but the last span exactly `cs`
      bytes and none spans more, and there are ceil(size / cs) of them. */
  lemma {:induction false} ChunksTile(size: nat, cs: nat)
    requires size > 0 && cs > 0
    ensures var c := Chunks(size, cs, 0);
      && |c| > 0 && c[0].first == 0 && c[|c| - 1].last == size - 1
      && (forall i :: 0 <= i < |c| - 1 ==> c[i + 1].first == c[i].last + 1)
      && (forall i :: 0 <= i < |c| ==> c[i].first <= c[i].last && c[i].last - c[i].first + 1 <= cs)
      && (forall i :: 0 <= i < |c| - 1 ==> c[i].last - c[i].first + 1 == cs)
      && |c| == (size + cs - 1) / cs
  {
    var c := Chunks(size, cs, 0);
    var n := |c|;
    forall i | 0 <= i < n - 1 ensures c[i + 1].first == c[i].last + 1 && c[i].last - c[i].first + 1 == cs
    {
      assert (i + 1) * cs == i * cs + cs;
      assert i * cs + cs <= (n - 1) * cs;
    }
    CeilDiv(size, cs, n);
  }

  /** `n` is ceil(size / cs) when `(n - 1) * cs < size <= n * cs`. */
  lemma {:induction false} CeilDiv(size: nat, cs: nat, n: nat)
    requires cs > 0 && n > 0 && (n - 1) * cs < size <= n * cs
    ensures (size + cs - 1) / cs == n
  {
    var r := size + cs - 1 - n * cs;
    assert n * cs == (n - 1) * cs + cs;
    assert 0 <= r < cs;
    Arith.DivModUnique(n, r, cs);
  }

  /** Every byte of the file lies in exactly one range: the one numbered
      `b / cs`. */
  lemma {:induction false} ChunksPartition(size: nat, cs: nat, b: nat)
    requires cs > 0 && b < size
    ensures b / cs < |Chunks(size, cs, 0)|
    ensures forall i :: 0 <= i < |Chunks(size, cs, 0)| ==> (InChunk(Chunks(size, cs, 0)[i], b) <==> i == b / cs)
  {
    var c := Chunks(size, cs, 0);
    var q := b / cs;
    BlockOf(b, cs);
    assert q < |c| by {
      if q >= |c| {
        Arith.MulLe(|c|, q, cs);
        assert false;
      }
    }
    assert InChunk(c[q], b);
    forall i | 0 <= i < |c| && InChunk(c[i], b) ensures i == q
    {
      SameBlock(i, q, cs, b);
    }
  }

  lemma {:induction false} BlockOf(b: nat, cs: nat)
    requires cs > 0
    ensures (b / cs) * cs <= b < (b / cs) * cs + cs
  {
  }

  /** Only one block `[i * cs, i * cs + cs)` holds `b`. */
  lemma {:induction false} SameBlock(i: nat, j: nat, cs: nat, b: nat)
    requires i * cs <= b < i * cs + cs && j * cs <= b < j * cs + cs
    ensures i == j
  {
    if i < j {
      Arith.MulLe(i + 1, j, cs);
      assert false;
    } else if j < i {
      Arith.MulLe(j + 1, i, cs);
      assert false;
    }
  }

  /** The request header value `bytes=first-last`. */
  function RangeHeader(c: Chunk): (h: string)
  {
    "bytes=" + ShowNat(c.first) + "-" + ShowNat(c.last)
  }

  /** A reading of a `bytes=first-last` header value: decimal digits on
      both sides of the dash. */
  function ParseRange(h: string): (r: Option<Chunk>)
    ensures r.Some? ==> |h| > 6 && h[..6] == "bytes="
  {
    if |h| < 6 || h[..6] != "bytes=" then None
    else
      var rest := h[6..];
      match IndexOf(rest, '-')
      case None => None
      case Some(k) =>
        var a, b := rest[..k], rest[k + 1..];
        if |a| > 0 && |b| > 0 && AllDigits(a) && AllDigits(b) then Some(Chunk(DecValue(a), DecValue(b)))
        else None
  }

  /** The header names exactly the range it was made for. */
  lemma {:induction false} RangeHeaderRoundTrip(c: Chunk)
    ensures ParseRange(RangeHeader(c)) == Some(c)
  {
    var h := RangeHeader(c);
    var a, b := ShowNat(c.first), ShowNat(c.last);
    var rest := a + "-" + b;
    assert h == "bytes=" + rest;
    assert h[..6] == "bytes=" && h[6..] == rest;
    assert '-' !in a;
    assert rest[|a|] == '-' && rest[..|a|] == a && rest[|a| + 1..] == b;
    assert IndexOf(rest, '-') == Some(|a|);
    ShowNatValue(c.first);
    ShowNatValue(c.last);
  }

  /** Attempts `k`, `k + 1`, ... up to `MaxAttempts` of one request, with
      `attempt(k)` the byte count of a successful attempt `k` or `None` for
      one that raised; the result is the first byte count and the number of
      attempts made. */
  function RetryFrom(attempt: nat -> Option<nat>, k: nat): (r: (Option<nat>, nat))
    requires k <= MaxAttempts
    ensures k <= r.1 <= MaxAttempts
    ensures r.0.None? <==> forall i :: k <= i < MaxAttempts ==> attempt(i).None?
    ensures r.0.None? ==> r.1 == MaxAttempts
    ensures r.0.Some? ==> k < r.1 && attempt(r.1 - 1) == r.0 &&
                          (forall i :: k <= i < r.1 - 1 ==> attempt(i).None?)
    decreases MaxAttempts - k
  {
    if k == MaxAttempts then (None, k)
    else match attempt(k)
      case Some(n) => (Some(n), k + 1)
      case None => RetryFrom(attempt, k + 1)
  }

  /** `download_chunk`: the byte count of the first of at most three
      successful requests, or the failure naming the range. */
  function DownloadChunk(c: Chunk, attempt: nat -> Option<nat>): (r: (Result<nat>, nat))
    ensures 1 <= r.1 <= MaxAttempts
    ensures r.0.Ok? <==> exists i :: 0 <= i < MaxAttempts && attempt(i).Some?
    ensures r.0.Ok? ==> attempt(r.1 - 1) == Some(r.0.value) &&
                        (forall i :: 0 <= i < r.1 - 1 ==> attempt(i).None?)
    ensures r.0.Err? ==> r.1 == MaxAttempts &&
                         r.0.msg == "Exception: download chunk failed: " + ShowNat(c.first) + "-" + ShowNat(c.last)
  {
    match RetryFrom(attempt, 0)
    case (Some(n), used) => (Ok(n), used)
    case (None, used) => (Err("Exception: download chunk failed: " + ShowNat(c.first) + "-" + ShowNat(c.last)), used)
  }
}

=== FILE: elder.dfy ===
/** The ElderAL CSV reader. The first row is the header: a cell that reads
    `timestamp` after stripping names the timestamp column (the last such
    cell wins), and a cell whose stripped text starts with
    `amp_tx<t>_rx<r>_sub<s>` with `t == 0` maps its column to matrix entry
    `[s, r]`. Every later row becomes one `(max s + 1) x (max r + 1)` frame;
    a row that cannot be parsed is skipped, and a row too short for a
    column it is read at raises. */
module ElderReader {
  import opened Wrappers
  import opened Numbers
  import opened Patterns
  import opened Tensors
  import opened Structure

  /** The transmitter whose columns are kept. */
  const TargetTx: nat := 0

  const NoStampMsg := "ValueError: cannot fime column 'timestamp'"
  const IndexErrorMsg := "IndexError: list index out of range"

  /** `pattern.match(name)` with the three groups read as numbers
      `(tx, rx, sub)`. */
  function ColumnOf(name: string): (r: Option<(nat, nat, nat)>)
    ensures r.Some? <==> ReMatch(ColumnPattern, name, false).Some?
    ensures r.Some? ==> var g := ReMatch(ColumnPattern, name, false).value.groups;
                        && |g| == 3
                        && ParseInt(g[0]) == Some(r.value.0 as int)
                        && ParseInt(g[1]) == Some(r.value.1 as int)
                        && ParseInt(g[2]) == Some(r.value.2 as int)
  {
    ColumnPatternOk();
    match ReMatch(ColumnPattern, name, false)
    case None => None
    case Some(f) => Some((GroupValue(f, 0), GroupValue(f, 1), GroupValue(f, 2)))
  }

  /** The header `amp_tx<tx>_rx<rx>_sub<sub>` with the numbers in decimal. */
  function ColumnName(tx: nat, rx: nat, sub: nat): string
  {
    Format(ColumnTemplate, 0, [tx, rx, sub])
  }

  /** A written column header is read back as its three numbers. */
  lemma {:induction false} ColumnNameRoundTrip(tx: nat, rx: nat, sub: nat)
    ensures ColumnOf(ColumnName(tx, rx, sub)) == Some((tx, rx, sub))
  {
    var vals := [tx, rx, sub];
    ColumnPatternOk();
    FormatRoundTrip(ColumnTemplate, vals, false);
    var g := Shown(vals);
    ShowNatValue(tx);
    ShowNatValue(rx);
    ShowNatValue(sub);
    ParseIntDigits(g[0]);
    ParseIntDigits(g[1]);
    ParseIntDigits(g[2]);
  }

  predicate IsStamp(cell: string) { Strip(cell) == "timestamp" }

  /** What a header cell makes of its column. */
  datatype Kind = StampCell | AmpCell(sub: nat, rx: nat) | OtherCell

  /** The classification the header loop applies to one cell: the
      `timestamp` test first, then the column pattern with `tx == 0`. */
  function KindOf(cell: string): (k: Kind)
    ensures k == StampCell <==> IsStamp(cell)
    ensures k.AmpCell? <==> !IsStamp(cell) && ColumnOf(Strip(cell)).Some? && ColumnOf(Strip(cell)).value.0 == TargetTx
    ensures k.AmpCell? ==> ColumnOf(Strip(cell)) == Some((TargetTx, k.rx, k.sub))
  {
    if IsStamp(cell) then StampCell
    else match ColumnOf(Strip(cell))
      case Some((tx, rx, sub)) => if tx == TargetTx then AmpCell(sub, rx) else OtherCell
      case None => OtherCell
  }

  function Kinds(hs: seq<string>): (ks: seq<Kind>)
    ensures |ks| == |hs| && forall k :: 0 <= k < |hs| ==> ks[k] == KindOf(hs[k])
  {
    seq(|hs|, k requires 0 <= k < |hs| => KindOf(hs[k]))
  }

  datatype Mapped = Mapped(col: nat, sub: nat, rx: nat)

  /** The state of the header loop: the timestamp column, the mapped
      columns in column order (`col_mapping`), and the largest mapped
      subcarrier and receiver (`-1` before any). */
  datatype Scan = Scan(stampCol: Option<nat>, cols: seq<Mapped>, maxSub: int, maxRx: int)

  function Max(a: int, b: int): int { if a >= b then a else b }

  /** Every mapped entry is within the recorded extents. */
  predicate Bounded(s: Scan)
  {
    && -1 <= s.maxSub && -1 <= s.maxRx
    && forall j :: 0 <= j < |s.cols| ==> s.cols[j].sub <= s.maxSub && s.cols[j].rx <= s.maxRx
  }

  /** The header loop over the classified cells, in order. */
  function ScanKinds(ks: seq<Kind>): (s: Scan)
    ensures Bounded(s)
  {
    if |ks| == 0 then Scan(None, [], -1, -1)
    else
      var n := |ks| - 1;
      var s := ScanKinds(ks[..n]);
      match ks[n]
      case StampCell => s.(stampCol := Some(n))
      case OtherCell => s
      case AmpCell(sub, rx) => Scan(s.stampCol, s.cols + [Mapped(n, sub, rx)], Max(s.maxSub, sub), Max(s.maxRx, rx))
  }

  /** The header loop of `read_file`. */
  function ScanHeader(hs: seq<string>): (s: Scan)
    ensures Bounded(s)
  {
    ScanKinds(Kinds(hs))
  }

  /** The timestamp column is the last cell classified as such, and there
      is one exactly when some cell is. */
  lemma {:induction false} ScanStamp(ks: seq<Kind>)
    ensures var s := ScanKinds(ks);
            && (s.stampCol.Some? <==> exists k :: 0 <= k < |ks| && ks[k] == StampCell)
            && (s.stampCol.Some? ==> s.stampCol.value < |ks| && ks[s.stampCol.value] == StampCell)
            && (s.stampCol.Some? ==> forall k :: s.stampCol.value < k < |ks| ==> ks[k] != StampCell)
  {
    if |ks| > 0 {
      var n := |ks| - 1;
      ScanStamp(ks[..n]);
      assert forall k :: 0 <= k < n ==> ks[..n][k] == ks[k];
    }
  }

  /** `col_mapping` holds exactly the columns whose header maps them, in
      column order, each with the entry its header names. */
  lemma {:induction false} ScanColumns(ks: seq<Kind>)
    ensures var s := ScanKinds(ks);
            && (forall j :: 0 <= j < |s.cols| ==>
                  s.cols[j].col < |ks| && ks[s.cols[j].col] == AmpCell(s.cols[j].sub, s.cols[j].rx))
            && (forall j, k :: 0 <= j < k < |s.cols| ==> s.cols[j].col < s.cols[k].col)
            && (forall c :: 0 <= c < |ks| && ks[c].AmpCell? ==>
                  exists j :: 0 <= j < |s.cols| && s.cols[j].col == c)
  {
    if |ks| > 0 {
      var n := |ks| - 1;
      ScanColumns(ks[..n]);
      var p := ScanKinds(ks[..n]);
      var s := ScanKinds(ks);
      assert forall k :: 0 <= k < n ==> ks[..n][k] == ks[k];
      if ks[n].AmpCell? {
        var last := |p.cols|;
        assert s.cols == p.cols + [Mapped(n, ks[n].sub, ks[n].rx)];
        forall c | 0 <= c < |ks| && ks[c].AmpCell?
          ensures exists j :: 0 <= j < |s.cols| && s.cols[j].col == c
        {
          if c == n {
            assert s.cols[last].col == c;
          } else {
            var j :| 0 <= j < |p.cols| && p.cols[j].col == c;
            assert s.cols[j].col == c;
          }
        }
      }
    }
  }

  /** The largest subcarrier and receiver are attained by mapped columns,
      and are `-1` exactly when no column is mapped. */
  lemma {:induction false} ScanExtent(ks: seq<Kind>)
    ensures var s := ScanKinds(ks);
            && (|s.cols| == 0 <==> s.maxSub == -1)
            && (|s.cols| == 0 <==> s.maxRx == -1)
            && (|s.cols| > 0 ==> exists j :: 0 <= j < |s.cols| && s.cols[j].sub == s.maxSub)
            && (|s.cols| > 0 ==> exists j :: 0 <= j < |s.cols| && s.cols[j].rx == s.maxRx)
  {
    if |ks| > 0 {
      var n := |ks| - 1;
      ScanExtent(ks[..n]);
      var p := ScanKinds(ks[..n]);
      var s := ScanKinds(ks);
      if ks[n].AmpCell? {
        var last := |p.cols|;
        assert s.cols == p.cols + [Mapped(n, ks[n].sub, ks[n].rx)];
        if s.maxSub != s.cols[last].sub {
          var j :| 0 <= j < |p.cols| && p.cols[j].sub == p.maxSub;
          assert s.cols[j].sub == s.maxSub;
        }
        if s.maxRx != s.cols[last].rx {
          var j :| 0 <= j < |p.cols| && p.cols[j].rx == p.maxRx;
          assert s.cols[j].rx == s.maxRx;
        }
      }
    }
  }

  /** Every mapped entry lies inside an `nSub x nRx` matrix. */
  predicate Fits(cols: seq<Mapped>, nSub: nat, nRx: nat)
  {
    forall j :: 0 <= j < |cols| ==> cols[j].sub < nSub && cols[j].rx < nRx
  }

  /** The matrix of one row, or why there is none: a mapped cell that is
      not a number (`ValueError`, the row is skipped) or a row too short
      for a mapped column (`IndexError`). */
  datatype Cells = Filled(a: Tensor) | Unparsable | Missing

  /** `float(cell)` for every cell of a row. */
  function CellValues(row: seq<string>): (vs: seq<Option<real>>)
    ensures |vs| == |row| && forall i :: 0 <= i < |row| ==> vs[i] == ParseFloat(row[i])
  {
    seq(|row|, i requires 0 <= i < |row| => ParseFloat(row[i]))
  }

  predicate CellOk(vs: seq<Option<real>>, m: Mapped)
  {
    m.col < |vs| && vs[m.col].Some?
  }

  /** No later mapped column writes the same entry as column `k`. */
  predicate LastWriter(cols: seq<Mapped>, k: nat)
    requires k < |cols|
  {
    forall j :: k < j < |cols| ==> !(cols[j].sub == cols[k].sub && cols[j].rx == cols[k].rx)
  }

  /** `np.zeros((nSub, nRx))` filled by the mapped columns in order, from
      the row's cells read as numbers. */
  function FillCells(vs: seq<Option<real>>, cols: seq<Mapped>, nSub: nat, nRx: nat): (r: Cells)
    requires Fits(cols, nSub, nRx)
    ensures r.Filled? ==> Valid(r.a) && r.a.shape == [nSub, nRx]
  {
    if |cols| == 0 then Filled(Zeros([nSub, nRx]))
    else
      var n := |cols| - 1;
      var m := cols[n];
      match FillCells(vs, cols[..n], nSub, nRx)
      case Missing => Missing
      case Unparsable => Unparsable
      case Filled(a) =>
        if m.col >= |vs| then Missing
        else match vs[m.col]
          case None => Unparsable
          case Some(v) => Filled(WriteAt(a, [m.sub, m.rx], RealNum(v)))
  }

  /** A row's matrix exists exactly when every mapped cell is present and
      numeric; otherwise the first offending column decides between
      skipping the row and raising. */
  lemma {:induction false} FillOutcome(vs: seq<Option<real>>, cols: seq<Mapped>, nSub: nat, nRx: nat)
    requires Fits(cols, nSub, nRx)
    ensures var r := FillCells(vs, cols, nSub, nRx);
            && (r.Filled? <==> forall k :: 0 <= k < |cols| ==> CellOk(vs, cols[k]))
            && (r.Missing? ==> exists k :: 0 <= k < |cols| && cols[k].col >= |vs| &&
                                 forall j :: 0 <= j < k ==> CellOk(vs, cols[j]))
            && (r.Unparsable? ==> exists k :: 0 <= k < |cols| && cols[k].col < |vs| && vs[cols[k].col].None? &&
                                    forall j :: 0 <= j < k ==> CellOk(vs, cols[j]))
  {
    if |cols| > 0 {
      var n := |cols| - 1;
      var front := cols[..n];
      assert forall j :: 0 <= j < n ==> front[j] == cols[j];
      FillOutcome(vs, front, nSub, nRx);
    }
  }

  /** The first mapped column whose cell is not a number lies past the end
      of the row. */
  predicate FirstMissing(vs: seq<Option<real>>, cols: seq<Mapped>)
  {
    exists k :: 0 <= k < |cols| && cols[k].col >= |vs| && forall j :: 0 <= j < k ==> CellOk(vs, cols[j])
  }

  /** Filling a row fails with `IndexError` exactly when the first bad
      mapped column lies past the end of the row. */
  lemma {:induction false} FillMissing(vs: seq<Option<real>>, cols: seq<Mapped>, nSub: nat, nRx: nat)
    requires Fits(cols, nSub, nRx)
    ensures FillCells(vs, cols, nSub, nRx).Missing? <==> FirstMissing(vs, cols)
  {
    FillOutcome(vs, cols, nSub, nRx);
  }

  /** A filled matrix is zero wherever no mapped column writes. */
  lemma {:induction false} FillZeros(vs: seq<Option<real>>, cols: seq<Mapped>, nSub: nat, nRx: nat, s: nat, x: nat)
    requires Fits(cols, nSub, nRx) && s < nSub && x < nRx
    requires FillCells(vs, cols, nSub, nRx).Filled?
    requires forall k :: 0 <= k < |cols| ==> !(cols[k].sub == s && cols[k].rx == x)
    ensures At(FillCells(vs, cols, nSub, nRx).a, [s, x]) == Zero
  {
    if |cols| > 0 {
      var n := |cols| - 1;
      var front := cols[..n];
      var m := cols[n];
      assert forall j :: 0 <= j < n ==> front[j] == cols[j];
      FillZeros(vs, front, nSub, nRx, s, x);
      FillStep(vs, cols, nSub, nRx, s, x);
    }
  }

  /** The last mapped column decides the entry it writes and leaves the
      others as the earlier columns left them. */
  lemma {:induction false} FillStep(vs: seq<Option<real>>, cols: seq<Mapped>, nSub: nat, nRx: nat, s: nat, x: nat)
    requires Fits(cols, nSub, nRx) && |cols| > 0 && s < nSub && x < nRx
    requires FillCells(vs, cols, nSub, nRx).Filled?
    ensures var n := |cols| - 1;
            && FillCells(vs, cols[..n], nSub, nRx).Filled?
            && cols[n].col < |vs| && vs[cols[n].col].Some?
            && At(FillCells(vs, cols, nSub, nRx).a, [s, x]) ==
                 if cols[n].sub == s && cols[n].rx == x then RealNum(vs[cols[n].col].value)
                 else At(FillCells(vs, cols[..n], nSub, nRx).a, [s, x])
  {
    var prev, v := FillLast(vs, cols, nSub, nRx);
    var m := cols[|cols| - 1];
    WriteAt2(prev, m.sub, m.rx, RealNum(v), s, x);
  }

  /** A filled matrix is the matrix of all but the last mapped column with
      the last column's value written in. */
  lemma {:induction false} FillLast(vs: seq<Option<real>>, cols: seq<Mapped>, nSub: nat, nRx: nat) returns (prev: Tensor, v: real)
    requires Fits(cols, nSub, nRx) && |cols| > 0
    requires FillCells(vs, cols, nSub, nRx).Filled?
    ensures var n := |cols| - 1;
            && FillCells(vs, cols[..n], nSub, nRx) == Filled(prev)
            && cols[n].col < |vs| && vs[cols[n].col] == Some(v)
            && Valid(prev) && prev.shape == [nSub, nRx] && InBounds(prev.shape, [cols[n].sub, cols[n].rx])
            && FillCells(vs, cols, nSub, nRx).a == WriteAt(prev, [cols[n].sub, cols[n].rx], RealNum(v))
  {
    var n := |cols| - 1;
    prev := FillCells(vs, cols[..n], nSub, nRx).a;
    v := vs[cols[n].col].value;
  }

  /** Writing cell `[i, j]` of a matrix changes that cell only. */
  lemma {:induction false} WriteAt2(a: Tensor, i: nat, j: nat, v: Num, s: nat, x: nat)
    requires Valid(a) && |a.shape| == 2 && i < a.shape[0] && j < a.shape[1]
    requires s < a.shape[0] && x < a.shape[1]
    ensures InBounds(a.shape, [i, j]) && InBounds(a.shape, [s, x])
    ensures At(WriteAt(a, [i, j], v), [s, x]) == if i == s && j == x then v else At(a, [s, x])
  {
    assert InBounds(a.shape, [i, j]) && InBounds(a.shape, [s, x]);
    if [s, x] == [i, j] {
      assert [s, x][0] == s && [s, x][1] == x;
    }
  }

  /** Where mapped column `k` is the last to write its entry, the filled
      matrix holds that column's value. */
  lemma {:induction false} FillLastWriter(vs: seq<Option<real>>, cols: seq<Mapped>, nSub: nat, nRx: nat, k: nat)
    requires Fits(cols, nSub, nRx) && k < |cols| && LastWriter(cols, k)
    requires FillCells(vs, cols, nSub, nRx).Filled?
    ensures cols[k].col < |vs| && vs[cols[k].col].Some?
    ensures At(FillCells(vs, cols, nSub, nRx).a, [cols[k].sub, cols[k].rx]) == RealNum(vs[cols[k].col].value)
  {
    var n := |cols| - 1;
    var front := cols[..n];
    FillStep(vs, cols, nSub, nRx, cols[k].sub, cols[k].rx);
    if k < n {
      assert forall j :: 0 <= j < n ==> front[j] == cols[j];
      assert LastWriter(front, k);
      FillLastWriter(vs, front, nSub, nRx, k);
    }
  }

  /** `float(ts) if '.' in ts else int(ts)`; `None` where that raises
      `ValueError`. */
  function ParseStamp(text: string): (r: Option<Stamp>)
    ensures r.Some? && '.' in text ==> r.value.FloatStamp? && ParseFloat(text) == Some(r.value.x)
    ensures r.Some? && '.' !in text ==> r.value.IntStamp? && ParseInt(text) == Some(r.value.i)
    ensures r.None? ==> if '.' in text then ParseFloat(text).None? else ParseInt(text).None?
  {
    if '.' in text then
      match ParseFloat(text)
      case Some(x) => Some(FloatStamp(x))
      case None => None
    else
      match ParseInt(text)
      case Some(i) => Some(IntStamp(i))
      case None => None
  }

  /** An integer written by `str` is read back as that integer. */
  lemma {:induction false} ParseStampInt(i: int)
    ensures ParseStamp(ShowInt(i)) == Some(IntStamp(i))
  {
    var t := ShowInt(i);
    var n := ShowNat(if i < 0 then -i else i);
    assert t == (if i < 0 then "-" else "") + n;
    assert '.' !in n by {
      assert forall k :: 0 <= k < |n| ==> IsDigit(n[k]);
    }
    ParseShowInt(i);
  }

  /** What one data row gives: nothing, a frame, or an exception. */
  datatype RowOutcome = Skipped | Kept(frame: Frame) | Raised(msg: string)

  /** The body of the row loop for one row. */
  function ReadRow(row: seq<string>, stampCol: nat, cols: seq<Mapped>, nSub: nat, nRx: nat): (o: RowOutcome)
    requires Fits(cols, nSub, nRx)
    ensures |row| == 0 ==> o.Skipped?
    ensures o.Raised? ==> o.msg == IndexErrorMsg
    ensures |row| > 0 && stampCol >= |row| ==> o.Raised?
    ensures |row| > 0 && stampCol < |row| && ParseStamp(row[stampCol]).None? ==> o.Skipped?
    ensures o.Kept? ==> stampCol < |row| && ParseStamp(row[stampCol]) == Some(o.frame.timestamp)
    ensures o.Kept? ==> Valid(o.frame.csi) && o.frame.csi.shape == [nSub, nRx]
    ensures o.Kept? ==> o.frame.dtype == Float64 && o.frame.meta.None?
    ensures o.Kept? ==> forall k :: 0 <= k < |cols| ==> CellOk(CellValues(row), cols[k])
    ensures o.Kept? ==> FillCells(CellValues(row), cols, nSub, nRx) == Filled(o.frame.csi)
    ensures (&& |row| > 0 && stampCol < |row| && ParseStamp(row[stampCol]).Some?
             && forall k :: 0 <= k < |cols| ==> CellOk(CellValues(row), cols[k])) ==> o.Kept?
    ensures o.Raised? <==>
              |row| > 0 &&
              (stampCol >= |row| ||
               (ParseStamp(row[stampCol]).Some? && FirstMissing(CellValues(row), cols)))
  {
    if |row| == 0 then Skipped
    else if stampCol >= |row| then Raised(IndexErrorMsg)
    else match ParseStamp(row[stampCol])
      case None => Skipped
      case Some(ts) =>
        var vs := CellValues(row);
        FillOutcome(vs, cols, nSub, nRx);
        FillMissing(vs, cols, nSub, nRx);
        match FillCells(vs, cols, nSub, nRx)
        case Filled(a) => Kept(BaseFrame(ts, a, Float64))
        case Unparsable => Skipped
        case Missing => Raised(IndexErrorMsg)
  }

  /** What a kept row's matrix holds: entry `[s, x]` is the value of the
      last mapped column that writes it, and 0 where no mapped column
      writes. */
  lemma {:induction false} ReadRowEntries(row: seq<string>, stampCol: nat, cols: seq<Mapped>, nSub: nat, nRx: nat, s: nat, x: nat)
    requires Fits(cols, nSub, nRx) && s < nSub && x < nRx
    requires ReadRow(row, stampCol, cols, nSub, nRx).Kept?
    ensures var f := ReadRow(row, stampCol, cols, nSub, nRx).frame.csi;
            && InBounds(f.shape, [s, x])
            && ((forall k :: 0 <= k < |cols| ==> !(cols[k].sub == s && cols[k].rx == x)) ==> At(f, [s, x]) == Zero)
            && (forall k :: 0 <= k < |cols| && cols[k].sub == s && cols[k].rx == x && LastWriter(cols, k) ==>
                  cols[k].col < |row| && ParseFloat(row[cols[k].col]).Some? &&
                  At(f, [s, x]) == RealNum(ParseFloat(row[cols[k].col]).value))
  {
    var vs := CellValues(row);
    assert ReadRow(row, stampCol, cols, nSub, nRx).frame.csi == FillCells(vs, cols, nSub, nRx).a;
    if forall k :: 0 <= k < |cols| ==> !(cols[k].sub == s && cols[k].rx == x) {
      FillZeros(vs, cols, nSub, nRx, s, x);
    }
    forall k | 0 <= k < |cols| && cols[k].sub == s && cols[k].rx == x && LastWriter(cols, k)
      ensures cols[k].col < |row| && ParseFloat(row[cols[k].col]).Some?
      ensures At(FillCells(vs, cols, nSub, nRx).a, [s, x]) == RealNum(ParseFloat(row[cols[k].col]).value)
    {
      FillLastWriter(vs, cols, nSub, nRx, k);
    }
  }

  /** `[o.frame for o in outs if o is kept]`. */
  function KeptFrames(outs: seq<RowOutcome>): (fs: seq<Frame>)
    ensures |fs| <= |outs|
    ensures forall f :: f in fs ==> Kept(f) in outs
  {
    if |outs| == 0 then []
    else (if outs[0].Kept? then [outs[0].frame] else []) + KeptFrames(outs[1..])
  }

  lemma {:induction false} KeptFramesSnoc(outs: seq<RowOutcome>, o: RowOutcome)
    ensures KeptFrames(outs + [o]) == KeptFrames(outs) + (if o.Kept? then [o.frame] else [])
    decreases |outs|
  {
    if |outs| == 0 {
      assert outs + [o] == [o];
    } else {
      var h := if outs[0].Kept? then [outs[0].frame] else [];
      var t := if o.Kept? then [o.frame] else [];
      calc {
        KeptFrames(outs + [o]);
        { assert (outs + [o])[0] == outs[0] && (outs + [o])[1..] == outs[1..] + [o]; }
        h + KeptFrames(outs[1..] + [o]);
        { KeptFramesSnoc(outs[1..], o); }
        h + (KeptFrames(outs[1..]) + t);
        (h + KeptFrames(outs[1..])) + t;
        KeptFrames(outs) + t;
      }
    }
  }

  /** The row loop: rows in order, the first exception ends the read. */
  function RunRows(outs: seq<RowOutcome>): (r: Result<seq<Frame>>)
    ensures r.Ok? <==> forall i :: 0 <= i < |outs| ==> !outs[i].Raised?
    ensures r.Err? ==> exists i :: 0 <= i < |outs| && outs[i] == Raised(r.msg) &&
                                   forall j :: 0 <= j < i ==> !outs[j].Raised?
    ensures r.Ok? ==> r.value == KeptFrames(outs)
  {
    if |outs| == 0 then Ok([])
    else
      var n := |outs| - 1;
      var front := outs[..n];
      assert outs == front + [outs[n]];
      assert forall j :: 0 <= j < n ==> front[j] == outs[j];
      KeptFramesSnoc(front, outs[n]);
      match RunRows(front)
      case Err(m) => Err(m)
      case Ok(fs) =>
        match outs[n]
        case Skipped => Ok(fs)
        case Kept(f) => Ok(fs + [f])
        case Raised(m) => Err(m)
  }

  /** The matrix extents `(max sub + 1, max rx + 1)`; `(0, 0)` when no
      column is mapped. */
  function Extents(s: Scan): (e: (nat, nat))
    requires Bounded(s)
    ensures Fits(s.cols, e.0, e.1)
  {
    (s.maxSub + 1, s.maxRx + 1)
  }

  /** The extents of a scanned header are the smallest matrix every
      mapped entry fits in: `(max sub + 1, max rx + 1)`, and `(0, 0)`
      exactly when no column is mapped. */
  lemma {:induction false} ExtentsLeast(hs: seq<string>)
    ensures var s := ScanHeader(hs);
            var e := Extents(s);
            && Fits(s.cols, e.0, e.1)
            && (|s.cols| == 0 <==> e == (0, 0))
            && forall a: nat, b: nat :: Fits(s.cols, a, b) ==> e.0 <= a && e.1 <= b
  {
    var s := ScanHeader(hs);
    ScanExtent(Kinds(hs));
    if |s.cols| > 0 {
      var j1 :| 0 <= j1 < |s.cols| && s.cols[j1].sub == s.maxSub;
      var j2 :| 0 <= j2 < |s.cols| && s.cols[j2].rx == s.maxRx;
      forall a: nat, b: nat | Fits(s.cols, a, b) ensures s.maxSub + 1 <= a && s.maxRx + 1 <= b
      {
        assert s.cols[j1].sub < a && s.cols[j2].rx < b;
      }
    }
  }

  /** The outcome of every data row. */
  function RowOutcomes(rows: seq<seq<string>>, stampCol: nat, s: Scan): (outs: seq<RowOutcome>)
    requires |rows| > 0 && Bounded(s)
    ensures |outs| == |rows| - 1
    ensures forall i :: 0 <= i < |outs| ==> outs[i] == ReadRow(rows[i + 1], stampCol, s.cols, Extents(s).0, Extents(s).1)
  {
    seq(|rows| - 1, i requires 0 <= i < |rows| - 1 => RowAt(rows, i + 1, stampCol, s))
  }

  function RowAt(rows: seq<seq<string>>, i: nat, stampCol: nat, s: Scan): RowOutcome
    requires i < |rows| && Bounded(s)
  {
    ReadRow(rows[i], stampCol, s.cols, Extents(s).0, Extents(s).1)
  }

  /** `read_file` on the rows `csv.reader` yields for the file. */
  function ReadFile(path: string, rows: seq<seq<string>>): (r: Result<ReadOutput>)
    ensures |rows| == 0 ==> r == Ok(Many([]))
    ensures r.Ok? && |rows| > 0 ==> r.value.Single? && r.value.capture.fileName == path
  {
    if |rows| == 0 then Ok(Many([]))
    else
      var s := ScanHeader(rows[0]);
      match s.stampCol
      case None => Err(NoStampMsg)
      case Some(tc) =>
        match RunRows(RowOutcomes(rows, tc, s))
        case Err(m) => Err(m)
        case Ok(fs) =>
          AddFramesAppends(NewCsiData(path), fs);
          Ok(Single(AddFrames(NewCsiData(path), fs)))
  }

  /** Without a `timestamp` header cell the read raises `ValueError`. */
  lemma {:induction false} ReadFileNoStamp(path: string, rows: seq<seq<string>>)
    requires |rows| > 0 && forall k :: 0 <= k < |rows[0]| ==> !IsStamp(rows[0][k])
    ensures ReadFile(path, rows) == Err(NoStampMsg)
  {
    ScanStamp(Kinds(rows[0]));
  }

  /** With a timestamp column, the read raises exactly when some data row
      raises, and otherwise holds the kept rows' frames in file order, all
      of the header's extents. */
  lemma {:induction false} ReadFileFrames(path: string, rows: seq<seq<string>>)
    requires |rows| > 0 && ScanHeader(rows[0]).stampCol.Some?
    ensures var s := ScanHeader(rows[0]);
            var outs := RowOutcomes(rows, s.stampCol.value, s);
            && (ReadFile(path, rows).Err? <==> exists i :: 0 <= i < |outs| && outs[i].Raised?)
            && (ReadFile(path, rows).Ok? ==> ReadFile(path, rows).value.capture.frames == KeptFrames(outs))
  {
    var s := ScanHeader(rows[0]);
    var outs := RowOutcomes(rows, s.stampCol.value, s);
    match RunRows(outs)
    case Err(m) =>
    case Ok(fs) => AddFramesAppends(NewCsiData(path), fs);
  }

  /** Every frame read has the header's extents, and there is at most one
      frame per data row. */
  lemma {:induction false} ReadFileShapes(path: string, rows: seq<seq<string>>)
    requires |rows| > 0 && ReadFile(path, rows).Ok?
    ensures var fs := ReadFile(path, rows).value.capture.frames;
            var e := Extents(ScanHeader(rows[0]));
            && |fs| <= |rows| - 1
            && forall f :: f in fs ==> Valid(f.csi) && f.csi.shape == [e.0, e.1]
  {
    var s := ScanHeader(rows[0]);
    ReadFileFrames(path, rows);
    var outs := RowOutcomes(rows, s.stampCol.value, s);
    var fs := KeptFrames(outs);
    forall f | f in fs ensures Valid(f.csi) && f.csi.shape == [Extents(s).0, Extents(s).1]
    {
      var i :| 0 <= i < |outs| && outs[i] == Kept(f);
    }
  }
}

=== FILE: labels.dfy ===
/** The zero-based remapping of class labels and groups done before
    training: `unique = sorted(set(xs))`, `idx = {x: i for i, x in
    enumerate(unique)}` and `[idx[x] for x in xs]`. Each value becomes its
    rank among the distinct values. */
module Labels {

  predicate Increasing(u: seq<int>)
  {
    forall i, j :: 0 <= i < j < |u| ==> u[i] < u[j]
  }

  function Elems(xs: seq<int>): set<int>
  {
    set x | x in xs
  }

  /** Adds `x` to an increasing sequence unless it is already there. */
  function InsertUnique(u: seq<int>, x: int): (r: seq<int>)
    requires Increasing(u)
    ensures Increasing(r)
    ensures forall y :: y in r <==> y in u || y == x
  {
    if |u| == 0 then [x]
    else if x < u[0] then [x] + u
    else if x == u[0] then u
    else
      var rest := InsertUnique(u[1..], x);
      assert u == [u[0]] + u[1..];
      assert forall k :: 0 <= k < |rest| ==> rest[k] in u[1..] || rest[k] == x;
      [u[0]] + rest
  }

  /** `sorted(set(xs))`. */
  function Unique(xs: seq<int>): (u: seq<int>)
    ensures Increasing(u)
    ensures forall y :: y in u <==> y in xs
  {
    if |xs| == 0 then []
    else
      assert xs == xs[..|xs| - 1] + [xs[|xs| - 1]];
      InsertUnique(Unique(xs[..|xs| - 1]), xs[|xs| - 1])
  }

  /** `{x: i for i, x in enumerate(u)}`. */
  function IndexMap(u: seq<int>): (m: map<int, nat>)
    requires Increasing(u)
    ensures forall y :: y in m <==> y in u
    ensures forall y :: y in m ==> m[y] < |u| && u[m[y]] == y
    ensures forall i :: 0 <= i < |u| ==> u[i] in m && m[u[i]] == i
  {
    if |u| == 0 then map[]
    else
      var front := u[..|u| - 1];
      assert u == front + [u[|u| - 1]];
      IndexMap(front)[u[|u| - 1] := |u| - 1]
  }

  /** `[idx[x] for x in xs]` with `idx` built from `sorted(set(xs))`. */
  function Remap(xs: seq<int>): (r: seq<nat>)
    ensures |r| == |xs|
    ensures forall i :: 0 <= i < |xs| ==> r[i] < |Unique(xs)| && Unique(xs)[r[i]] == xs[i]
  {
    var u := Unique(xs);
    var m := IndexMap(u);
    seq(|xs|, i requires 0 <= i < |xs| => assert xs[i] in u; m[xs[i]])
  }

  /** `num_classes = len(unique_labels)`. */
  function NumClasses(xs: seq<int>): nat
  {
    |Unique(xs)|
  }

  /** An increasing sequence has as many elements as distinct values. */
  lemma {:induction false} IncreasingCard(u: seq<int>)
    requires Increasing(u)
    ensures |Elems(u)| == |u|
  {
    if |u| > 0 {
      var front := u[..|u| - 1];
      var last := u[|u| - 1];
      assert u == front + [last];
      IncreasingCard(front);
      assert Elems(u) == Elems(front) + {last};
      assert last !in Elems(front);
    }
  }

  /** The number of classes is the number of distinct labels. */
  lemma {:induction false} NumClassesDistinct(xs: seq<int>)
    ensures NumClasses(xs) == |Elems(xs)|
  {
    IncreasingCard(Unique(xs));
    assert Elems(Unique(xs)) == Elems(xs);
  }

  /** Positions in an increasing sequence compare as their values do. */
  lemma {:induction false} IncreasingOrder(u: seq<int>, i: nat, j: nat)
    requires Increasing(u) && i < |u| && j < |u|
    ensures u[i] < u[j] <==> i < j
    ensures u[i] == u[j] <==> i == j
  {
  }

  /** Equal labels get equal indices, smaller labels smaller indices. */
  lemma {:induction false} RemapMonotone(xs: seq<int>, i: nat, j: nat)
    requires i < |xs| && j < |xs|
    ensures xs[i] < xs[j] <==> Remap(xs)[i] < Remap(xs)[j]
    ensures xs[i] == xs[j] <==> Remap(xs)[i] == Remap(xs)[j]
  {
    var r := Remap(xs);
    IncreasingOrder(Unique(xs), r[i], r[j]);
  }

  /** Every index below the number of classes is used. */
  lemma {:induction false} RemapOnto(xs: seq<int>, k: nat)
    requires k < NumClasses(xs)
    ensures exists i :: 0 <= i < |xs| && Remap(xs)[i] == k
  {
    var u := Unique(xs);
    assert u[k] in xs;
    var i :| 0 <= i < |xs| && xs[i] == u[k];
    IncreasingOrder(u, k, Remap(xs)[i]);
  }

  /** The index of a label is the number of distinct labels below it. */
  lemma {:induction false} RemapIsRank(xs: seq<int>, i: nat)
    requires i < |xs|
    ensures Remap(xs)[i] == |set y | y in xs && y < xs[i]|
  {
    var u := Unique(xs);
    var k := Remap(xs)[i];
    BelowIsPrefix(xs, u, k);
    IncreasingCard(u[..k]);
  }

  /** The distinct values of `xs` below `u[k]` are the first `k` entries of
      its sorted distinct values `u`. */
  lemma {:induction false} BelowIsPrefix(xs: seq<int>, u: seq<int>, k: nat)
    requires Increasing(u) && k < |u| && forall y :: y in u <==> y in xs
    ensures (set y | y in xs && y < u[k]) == Elems(u[..k])
  {
    forall y | y in xs && y < u[k] ensures y in Elems(u[..k]) {
      var j :| 0 <= j < |u| && u[j] == y;
      IncreasingOrder(u, j, k);
      assert u[..k][j] == y;
    }
    forall y | y in Elems(u[..k]) ensures y in xs && y < u[k] {
      var j :| 0 <= j < k && u[..k][j] == y;
      IncreasingOrder(u, j, k);
      assert y == u[j];
    }
  }
}

=== FILE: numbers.dfy ===
/** Decimal text <-> number conversions the pipeline relies on: Python's
    `int(text)` and `float(text)` for decimal input, `str.strip()`, and the
    decimal rendering of a natural number used in HTTP `Range` headers.
    Values are exact: `float` results are modelled as rationals. */
module Numbers {
  import opened Wrappers

  // ---------------------------------------------------------------------
  // Characters

  predicate IsDigit(c: char) { '0' <= c <= '9' }

  function DigitValue(c: char): nat
    requires IsDigit(c)
  {
    (c as int) - ('0' as int)
  }

  function DigitChar(d: nat): (c: char)
    requires d < 10
    ensures IsDigit(c) && DigitValue(c) == d
  {
    (('0' as int) + d) as char
  }

  predicate AllDigits(s: string) { forall i :: 0 <= i < |s| ==> IsDigit(s[i]) }

  /** The characters Python's `str.isspace()` accepts, which are the ones
      `str.strip()`, `int()` and `float()` discard around their input. */
  predicate IsSpace(c: char)
  {
    || '\t' <= c <= '\r'
    || '\U{1c}' <= c <= ' '
    || c == '\U{85}' || c == '\U{a0}' || c == '\U{1680}'
    || '\U{2000}' <= c <= '\U{200a}'
    || c == '\U{2028}' || c == '\U{2029}' || c == '\U{202f}' || c == '\U{205f}' || c == '\U{3000}'
  }

  // ---------------------------------------------------------------------
  // strip()

  function StripLeft(s: string): (r: string)
    ensures |r| <= |s| && r == s[|s| - |r|..]
    ensures |r| > 0 ==> !IsSpace(r[0])
    ensures forall i :: 0 <= i < |s| - |r| ==> IsSpace(s[i])
  {
    if |s| > 0 && IsSpace(s[0]) then StripLeft(s[1..]) else s
  }

  function StripRight(s: string): (r: string)
    ensures |r| <= |s| && r == s[..|r|]
    ensures |r| > 0 ==> !IsSpace(r[|r| - 1])
    ensures forall i :: |r| <= i < |s| ==> IsSpace(s[i])
  {
    if |s| > 0 && IsSpace(s[|s| - 1]) then StripRight(s[..|s| - 1]) else s
  }

  /** `s.strip()`: the infix of `s` left after removing white space at both
      ends; it neither starts nor ends in white space. */
  function Strip(s: string): (r: string)
    ensures |r| > 0 ==> !IsSpace(r[0]) && !IsSpace(r[|r| - 1])
    ensures |r| <= |StripLeft(s)| <= |s| && r == s[|s| - |StripLeft(s)|..|s| - |StripLeft(s)| + |r|]
  {
    StripRight(StripLeft(s))
  }

  /** Everything `strip()` removes is white space, and the result is empty
      exactly when the whole text is white space. */
  lemma {:induction false} StripSpaces(s: string)
    ensures var k, r := |s| - |StripLeft(s)|, Strip(s);
            && (forall i :: 0 <= i < k ==> IsSpace(s[i]))
            && (forall i :: k + |r| <= i < |s| ==> IsSpace(s[i]))
            && (|r| == 0 <==> forall i :: 0 <= i < |s| ==> IsSpace(s[i]))
  {
    var t := StripLeft(s);
    var r := Strip(s);
    var k := |s| - |t|;
    forall i | k + |r| <= i < |s| ensures IsSpace(s[i])
    {
      assert s[i] == t[i - k];
    }
    if |r| > 0 {
      assert r[0] == s[k];
    }
  }

  /** `strip()` removes exactly the white space around the text: whatever
      white space surrounds a text that neither starts nor ends in white
      space, stripping gives back that text. */
  lemma {:induction false} StripUnique(p: string, t: string, q: string)
    requires forall i :: 0 <= i < |p| ==> IsSpace(p[i])
    requires forall i :: 0 <= i < |q| ==> IsSpace(q[i])
    requires |t| > 0 ==> !IsSpace(t[0]) && !IsSpace(t[|t| - 1])
    ensures Strip(p + t + q) == t
  {
    assert p + t + q == p + (t + q);
    if |t| == 0 {
      assert p + t + q == (p + q) + [];
      forall i | 0 <= i < |p + q| ensures IsSpace((p + q)[i])
      {
        if i >= |p| { assert (p + q)[i] == q[i - |p|]; }
      }
      StripLeftSpaces(p + q, []);
    } else {
      assert (t + q)[0] == t[0];
      StripLeftSpaces(p, t + q);
      StripRightSpaces(t, q);
    }
  }

  /** White space in front of a text that does not start with white space
      is exactly what `lstrip` removes. */
  lemma {:induction false} StripLeftSpaces(p: string, x: string)
    requires forall i :: 0 <= i < |p| ==> IsSpace(p[i])
    requires |x| > 0 ==> !IsSpace(x[0])
    ensures StripLeft(p + x) == x
    decreases |p|
  {
    if |p| > 0 {
      assert (p + x)[0] == p[0] && (p + x)[1..] == p[1..] + x;
      StripLeftSpaces(p[1..], x);
    } else {
      assert p + x == x;
    }
  }

  /** White space after a text that does not end in white space is exactly
      what `rstrip` removes. */
  lemma {:induction false} StripRightSpaces(x: string, q: string)
    requires forall i :: 0 <= i < |q| ==> IsSpace(q[i])
    requires |x| > 0 ==> !IsSpace(x[|x| - 1])
    ensures StripRight(x + q) == x
    decreases |q|
  {
    if |q| > 0 {
      var n := |q| - 1;
      assert (x + q)[|x + q| - 1] == q[n] && (x + q)[..|x + q| - 1] == x + q[..n];
      StripRightSpaces(x, q[..n]);
    } else {
      assert x + q == x;
    }
  }

  lemma {:induction false} StripNoSpace(s: string)
    requires |s| > 0 && !IsSpace(s[0]) && !IsSpace(s[|s| - 1])
    ensures Strip(s) == s
  {
  }

  // ---------------------------------------------------------------------
  // Digit runs, with Python's single-underscore grouping ("1_000")

  /** Value of a run of decimal digits, most significant first. */
  function DecValue(ds: string): nat
    requires AllDigits(ds)
  {
    if |ds| == 0 then 0 else DecValue(ds[..|ds| - 1]) * 10 + DigitValue(ds[|ds| - 1])
  }

  /** A `digitpart` of Python's numeric grammar: digits, optionally separated
      by single underscores, starting and ending with a digit. */
  predicate IsDigitPart(s: string)
  {
    && |s| > 0 && IsDigit(s[0]) && IsDigit(s[|s| - 1])
    && (forall i :: 0 <= i < |s| ==> IsDigit(s[i]) || s[i] == '_')
    && (forall i :: 0 <= i < |s| - 1 ==> !(s[i] == '_' && s[i + 1] == '_'))
  }

  function RemoveUnderscores(s: string): (r: string)
    requires forall i :: 0 <= i < |s| ==> IsDigit(s[i]) || s[i] == '_'
    ensures AllDigits(r) && |r| <= |s|
    ensures AllDigits(s) ==> r == s
  {
    if |s| == 0 then []
    else if s[0] == '_' then RemoveUnderscores(s[1..])
    else [s[0]] + RemoveUnderscores(s[1..])
  }

  function DigitPartValue(s: string): nat
    requires IsDigitPart(s)
  {
    DecValue(RemoveUnderscores(s))
  }

  // ---------------------------------------------------------------------
  // int(text)

  /** Splits an optional leading `+`/`-`; the flag is true for `-`. */
  function SplitSign(s: string): (bool, string)
  {
    if |s| > 0 && (s[0] == '+' || s[0] == '-') then (s[0] == '-', s[1..]) else (false, s)
  }

  function Signed(neg: bool, v: int): int { if neg then -v else v }

  /** Python's `int(text)` in base 10: surrounding white space, an optional
      sign and a digit part; `None` where Python raises `ValueError`. */
  function ParseInt(text: string): (r: Option<int>)
    ensures r.Some? ==> |Strip(text)| > 0
  {
    ParseSignedDigits(Strip(text))
  }

  /** An optional sign followed by a digit part, with nothing around it. */
  function ParseSignedDigits(t: string): Option<int>
  {
    var (neg, body) := SplitSign(t);
    if IsDigitPart(body) then Some(Signed(neg, DigitPartValue(body))) else None
  }

  // ---------------------------------------------------------------------
  // float(text)

  function Pow10(e: nat): (r: nat)
    ensures r >= 1
  {
    if e == 0 then 1 else 10 * Pow10(e - 1)
  }

  /** 10 raised to an integer power, as an exact rational. */
  function Scale10(e: int): (r: real)
    ensures r > 0.0
  {
    if e >= 0 then Pow10(e) as real else 1.0 / (Pow10(-e) as real)
  }

  function IndexOf(s: string, c: char): (r: Option<nat>)
    ensures r.Some? ==> r.value < |s| && s[r.value] == c && c !in s[..r.value]
    ensures r.None? ==> c !in s
  {
    if |s| == 0 then None
    else if s[0] == c then Some(0)
    else match IndexOf(s[1..], c)
      case None => None
      case Some(i) => Some(i + 1)
  }

  /** Position of the first `e` or `E`. */
  function ExponentMark(s: string): (r: Option<nat>)
    ensures r.Some? ==> r.value < |s| && (s[r.value] == 'e' || s[r.value] == 'E')
    ensures r.Some? ==> forall i :: 0 <= i < r.value ==> s[i] != 'e' && s[i] != 'E'
    ensures r.None? ==> forall i :: 0 <= i < |s| ==> s[i] != 'e' && s[i] != 'E'
  {
    if |s| == 0 then None
    else if s[0] == 'e' || s[0] == 'E' then Some(0)
    else match ExponentMark(s[1..])
      case None => None
      case Some(i) => Some(i + 1)
  }

  /** `digitpart? "." digitpart | digitpart "."?` as an exact value. */
  function ParseMantissa(m: string): Option<real>
  {
    match IndexOf(m, '.')
    case None =>
      if IsDigitPart(m) then Some(DigitPartValue(m) as real) else None
    case Some(p) =>
      var ip := m[..p];
      var fp := m[p + 1..];
      if (|ip| == 0 && |fp| == 0) || (|ip| > 0 && !IsDigitPart(ip)) || (|fp| > 0 && !IsDigitPart(fp)) then None
      else
        var iv := if |ip| == 0 then 0 else DigitPartValue(ip);
        var fd := if |fp| == 0 then [] else RemoveUnderscores(fp);
        var fv := DecValue(fd);
        Some(iv as real + (fv as real) / (Pow10(|fd|) as real))
  }


  /** Python's `float(text)` for decimal input: white space, sign, mantissa
      and optional exponent; `None` where Python raises `ValueError`. The
      non-finite spellings (`inf`, `nan`) are not part of this model. */
  function ParseFloat(text: string): (r: Option<real>)
    ensures r.Some? ==> |Strip(text)| > 0
  {
    var t := Strip(text);
    var (neg, body) := SplitSign(t);
    match ExponentMark(body)
    case None =>
      (match ParseMantissa(body)
       case None => None
       case Some(v) => Some(if neg then -v else v))
    case Some(p) =>
      match (ParseMantissa(body[..p]), ParseSignedDigits(body[p + 1..]))
      case (Some(v), Some(e)) =>
        var w := v * Scale10(e);
        Some(if neg then -w else w)
      case _ => None
  }

  /** Every text `int()` accepts is accepted by `float()` with the same value. */
  lemma {:induction false} IntTextIsFloatText(text: string)
    requires ParseInt(text).Some?
    ensures ParseFloat(text) == Some(ParseInt(text).value as real)
  {
    var t := Strip(text);
    var (neg, body) := SplitSign(t);
    assert IsDigitPart(body);
    assert forall i :: 0 <= i < |body| ==> body[i] != 'e' && body[i] != 'E' && body[i] != '.';
    assert ExponentMark(body).None?;
    assert '.' !in body;
  }

  // ---------------------------------------------------------------------
  // Decimal rendering

  /** `str(n)` for a natural number. */
  function ShowNat(n: nat): (s: string)
    ensures |s| > 0 && AllDigits(s)
    ensures |s| > 1 ==> s[0] != '0'
  {
    if n < 10 then [DigitChar(n)] else ShowNat(n / 10) + [DigitChar(n % 10)]
  }

  /** `str(i)` for any integer. */
  function ShowInt(i: int): (s: string)
    ensures |s| > 0
  {
    if i < 0 then "-" + ShowNat(-i) else ShowNat(i)
  }

  lemma {:induction false} ShowNatValue(n: nat)
    ensures DecValue(ShowNat(n)) == n
  {
    if n >= 10 {
      var s := ShowNat(n);
      assert s[..|s| - 1] == ShowNat(n / 10);
      ShowNatValue(n / 10);
    }
  }

  lemma {:induction false} AllDigitsIsDigitPart(s: string)
    requires |s| > 0 && AllDigits(s)
    ensures IsDigitPart(s) && DigitPartValue(s) == DecValue(s)
  {
  }

  lemma {:induction false} ShowIntStripped(i: int)
    ensures Strip(ShowInt(i)) == ShowInt(i)
  {
    var s := ShowInt(i);
    assert !IsSpace(s[0]) && !IsSpace(s[|s| - 1]);
    StripNoSpace(s);
  }

  lemma {:induction false} ShowIntSign(i: int)
    ensures SplitSign(ShowInt(i)) == (i < 0, ShowNat(if i < 0 then -i else i))
  {
  }


  /** `int(ds)` of a non-empty run of digits is its decimal value. */
  lemma {:induction false} ParseIntDigits(ds: string)
    requires |ds| > 0 && AllDigits(ds)
    ensures ParseInt(ds) == Some(DecValue(ds) as int)
  {
    assert IsDigit(ds[0]) && IsDigit(ds[|ds| - 1]);
    StripNoSpace(ds);
    assert SplitSign(ds) == (false, ds);
    AllDigitsIsDigitPart(ds);
    assert ParseSignedDigits(ds) == Some(DecValue(ds) as int);
  }

  /** `int(str(i)) == i`. */
  lemma {:induction false} ParseShowInt(i: int)
    ensures ParseInt(ShowInt(i)) == Some(i)
  {
    var n: nat := if i < 0 then -i else i;
    ShowIntStripped(i);
    ShowIntSign(i);
    ShowNatValue(n);
    AllDigitsIsDigitPart(ShowNat(n));
  }



  // ---------------------------------------------------------------------
  // repr(text), as `int()` quotes the text it rejects

  /** The quote `repr` puts around a text: a double quote when the text
      holds a single quote and no double quote, a single quote otherwise. */
  function QuoteFor(s: string): (q: char)
    ensures q == '\'' || q == '"'
  {
    if '\'' in s && '"' !in s then '"' else '\''
  }

  /** An ASCII control character: below the space, or DEL. */
  predicate IsControl(c: char) { c < ' ' || c == '\U{7f}' }

  /** A lower-case hexadecimal digit. */
  function HexChar(d: nat): char
    requires d < 16
  {
    if d < 10 then DigitChar(d) else (('a' as int) + d - 10) as char
  }

  /** How `repr` writes one character between quotes `q`: the quote and the
      backslash get a backslash, tab, line feed and carriage return their
      letter escapes, other control characters `\xhh`. */
  function EscapeChar(c: char, q: char): string
  {
    if c == q || c == '\\' then ['\\', c]
    else if c == '\t' then "\\t"
    else if c == '\n' then "\\n"
    else if c == '\r' then "\\r"
    else if IsControl(c) then "\\x" + [HexChar(c as int / 16), HexChar(c as int % 16)]
    else [c]
  }

  function Escape(s: string, q: char): string
  {
    if |s| == 0 then "" else EscapeChar(s[0], q) + Escape(s[1..], q)
  }

  /** `repr(s)` of a text. */
  function StrRepr(s: string): (r: string)
    ensures |r| >= 2 && r[0] == QuoteFor(s) && r[|r| - 1] == QuoteFor(s)
  {
    var q := QuoteFor(s);
    [q] + Escape(s, q) + [q]
  }

  /** The message of the `ValueError` that `int(text)` raises. CPython
      formats it with `%.200R`, which keeps at most 200 characters of the
      repr. */
  function IntError(text: string): (msg: string)
  {
    var r := StrRepr(text);
    IntErrorPrefix + (if |r| <= 200 then r else r[..200])
  }

  const IntErrorPrefix := "ValueError: invalid literal for int() with base 10: "

  // Reading a repr back.

  function HexValue(c: char): (v: Option<nat>)
    ensures v.Some? ==> v.value < 16
  {
    if IsDigit(c) then Some(DigitValue(c))
    else if 'a' <= c <= 'f' then Some(c as int - 'a' as int + 10)
    else None
  }

  function UnescapeLetter(c: char): char
  {
    if c == 't' then '\t' else if c == 'n' then '\n' else if c == 'r' then '\r' else c
  }

  function Prepend(c: char, r: Option<string>): Option<string>
  {
    match r
    case None => None
    case Some(s) => Some([c] + s)
  }

  /** Reads the text between a repr's quotes back; `None` for a dangling
      backslash or a malformed `\x` escape. */
  function Unescape(t: string): Option<string>
  {
    if |t| == 0 then Some("")
    else if t[0] != '\\' then Prepend(t[0], Unescape(t[1..]))
    else if |t| == 1 then None
    else if t[1] == 'x' then
      if |t| >= 4 && HexValue(t[2]).Some? && HexValue(t[3]).Some? then
        Prepend((HexValue(t[2]).value * 16 + HexValue(t[3]).value) as char, Unescape(t[4..]))
      else None
    else Prepend(UnescapeLetter(t[1]), Unescape(t[2..]))
  }

  /** Reads a quoted repr back. */
  function Unrepr(r: string): Option<string>
  {
    if |r| >= 2 && (r[0] == '\'' || r[0] == '"') && r[|r| - 1] == r[0] then Unescape(r[1..|r| - 1])
    else None
  }

  lemma {:induction false} HexRoundTrip(d: nat)
    requires d < 16
    ensures HexValue(HexChar(d)) == Some(d)
  {
  }

  /** One escaped character reads back as itself. */
  lemma {:induction false} EscapeCharBack(c: char, q: char, rest: string)
    requires q == '\'' || q == '"'
    ensures Unescape(EscapeChar(c, q) + rest) == Prepend(c, Unescape(rest))
  {
    var t := EscapeChar(c, q) + rest;
    if c == q || c == '\\' || c == '\t' || c == '\n' || c == '\r' {
      assert t[0] == '\\' && t[2..] == rest;
    } else if IsControl(c) {
      var hi, lo := c as int / 16, c as int % 16;
      HexRoundTrip(hi);
      HexRoundTrip(lo);
      assert t[0] == '\\' && t[1] == 'x' && t[2] == HexChar(hi) && t[3] == HexChar(lo) && t[4..] == rest;
      assert (hi * 16 + lo) as char == c;
    } else {
      assert t[0] == c && t[1..] == rest;
    }
  }

  /** Escaping is undone by `Unescape`. */
  lemma {:induction false} EscapeRoundTrip(s: string, q: char)
    requires q == '\'' || q == '"'
    ensures Unescape(Escape(s, q)) == Some(s)
  {
    if |s| > 0 {
      EscapeRoundTrip(s[1..], q);
      EscapeCharBack(s[0], q, Escape(s[1..], q));
      assert [s[0]] + s[1..] == s;
    }
  }

  /** The repr of a text reads back to the text. */
  lemma {:induction false} ReprRoundTrip(s: string)
    ensures Unrepr(StrRepr(s)) == Some(s)
  {
    var q := QuoteFor(s);
    var r := StrRepr(s);
    assert r[1..|r| - 1] == Escape(s, q);
    EscapeRoundTrip(s, q);
  }

  /** A text with no quote `q`, no backslash and no control character is
      written as it is. */
  lemma {:induction false} EscapeIdentity(s: string, q: char)
    requires q !in s && '\\' !in s && forall i :: 0 <= i < |s| ==> !IsControl(s[i])
    ensures Escape(s, q) == s
  {
    if |s| > 0 {
      assert s[1..][0..] == s[1..];
      assert forall i :: 0 <= i < |s| - 1 ==> s[1..][i] == s[i + 1];
      EscapeIdentity(s[1..], q);
      assert [s[0]] + s[1..] == s;
    }
  }

  /** A text with no single quote, backslash or control character appears
      between single quotes as it is. */
  lemma {:induction false} ReprPlain(s: string)
    requires '\'' !in s && '\\' !in s && forall i :: 0 <= i < |s| ==> !IsControl(s[i])
    ensures StrRepr(s) == "'" + s + "'"
  {
    EscapeIdentity(s, '\'');
  }

  /** A text holding a single quote but no double quote is put between
      double quotes, its single quotes unescaped. */
  lemma {:induction false} ReprDoubleQuoted(s: string)
    requires '\'' in s && '"' !in s && '\\' !in s && forall i :: 0 <= i < |s| ==> !IsControl(s[i])
    ensures StrRepr(s) == "\"" + s + "\""
  {
    EscapeIdentity(s, '"');
  }

  /** The message `int()` gives for a short text without backslashes or
      control characters: the text between single quotes, or between
      double quotes when it holds a single quote and no double quote. */
  lemma {:induction false} IntErrorQuoting(t: string)
    requires |t| <= 198 && '\\' !in t && forall i :: 0 <= i < |t| ==> !IsControl(t[i])
    ensures '\'' !in t ==> IntError(t) == IntErrorPrefix + "'" + t + "'"
    ensures '\'' in t && '"' !in t ==> IntError(t) == IntErrorPrefix + "\"" + t + "\""
  {
    if '\'' !in t {
      ReprPlain(t);
    } else if '"' !in t {
      ReprDoubleQuoted(t);
    }
  }

  /** `int("1'")` shows its text between double quotes. */
  lemma {:induction false} IntErrorQuoted()
    ensures ParseInt("1'").None?
    ensures IntError("1'") == "ValueError: invalid literal for int() with base 10: \"1'\""
  {
    var t := "1'";
    StripNoSpace(t);
    assert SplitSign(t) == (false, t) && !IsDigitPart(t);
    ReprDoubleQuoted(t);
  }
}

=== FILE: ordering.dfy ===
/** Python's `sorted(xs, key=k)`: a stable sort. It is modelled as an
    insertion sort that places each new element after every element whose
    key is not greater, and characterised by two facts that determine it
    completely: the result is ordered by key, and for every key value the
    elements with that key keep their original relative order. */
module Ordering {

  /** Ordered by key, not necessarily strictly. */
  ghost predicate SortedBy<T>(xs: seq<T>, key: T -> real)
  {
    forall i, j :: 0 <= i < j < |xs| ==> key(xs[i]) <= key(xs[j])
  }

  /** The elements whose key is `v`, in their order in `xs`. */
  function WithKey<T>(xs: seq<T>, key: T -> real, v: real): (r: seq<T>)
    ensures |r| <= |xs|
  {
    if |xs| == 0 then []
    else WithKey(xs[..|xs| - 1], key, v) + (if key(xs[|xs| - 1]) == v then [xs[|xs| - 1]] else [])
  }

  /** Inserts `x` behind the last element whose key does not exceed its own. */
  function Insert<T>(xs: seq<T>, x: T, key: T -> real): (r: seq<T>)
    ensures multiset(r) == multiset(xs) + multiset{x}
    ensures |r| == |xs| + 1
  {
    if |xs| == 0 then [x]
    else if key(xs[|xs| - 1]) <= key(x) then xs + [x]
    else
      var last := xs[|xs| - 1];
      assert xs == xs[..|xs| - 1] + [last];
      Insert(xs[..|xs| - 1], x, key) + [last]
  }

  /** `sorted(xs, key=key)`. */
  function SortBy<T>(xs: seq<T>, key: T -> real): (r: seq<T>)
    ensures multiset(r) == multiset(xs)
    ensures |r| == |xs|
  {
    if |xs| == 0 then []
    else
      assert xs == xs[..|xs| - 1] + [xs[|xs| - 1]];
      Insert(SortBy(xs[..|xs| - 1], key), xs[|xs| - 1], key)
  }

  lemma {:induction false} WithKeyMember<T>(xs: seq<T>, key: T -> real, v: real, x: T)
    requires x in WithKey(xs, key, v)
    ensures x in xs && key(x) == v
    decreases |xs|
  {
    var front := xs[..|xs| - 1];
    if x in WithKey(front, key, v) {
      WithKeyMember(front, key, v, x);
      assert x in front;
    }
  }

  lemma {:induction false} WithKeySnoc<T>(xs: seq<T>, y: T, key: T -> real, v: real)
    ensures WithKey(xs + [y], key, v) == WithKey(xs, key, v) + (if key(y) == v then [y] else [])
  {
    assert (xs + [y])[..|xs|] == xs;
  }

  /** Inserting keeps the result ordered. */
  lemma {:induction false} InsertSorted<T>(xs: seq<T>, x: T, key: T -> real)
    requires SortedBy(xs, key)
    ensures SortedBy(Insert(xs, x, key), key)
    ensures forall y :: y in Insert(xs, x, key) ==> y in xs || y == x
    decreases |xs|
  {
    InsertMembers(xs, x, key);
    if |xs| > 0 && key(xs[|xs| - 1]) > key(x) {
      var front := xs[..|xs| - 1];
      var last := xs[|xs| - 1];
      InsertSorted(front, x, key);
      InsertStep(xs, x, key);
      var f := Insert(front, x, key);
      var r := f + [last];
      forall i, j | 0 <= i < j < |r| ensures key(r[i]) <= key(r[j])
      {
        if j == |r| - 1 {
          assert r[i] in f;
          assert r[i] in front || r[i] == x;
        } else {
          assert r[i] == f[i] && r[j] == f[j];
        }
      }
    }
  }

  /** The inserted sequence holds `x` and the elements of `xs` only. */
  lemma {:induction false} InsertMembers<T>(xs: seq<T>, x: T, key: T -> real)
    ensures forall y :: y in Insert(xs, x, key) ==> y in xs || y == x
  {
    var r := Insert(xs, x, key);
    forall y | y in r ensures y in xs || y == x
    {
      assert y in multiset(r);
    }
  }

  /** Inserting `x` adds it behind the elements that share its key. */
  lemma {:induction false} InsertWithKey<T>(xs: seq<T>, x: T, key: T -> real, v: real)
    ensures WithKey(Insert(xs, x, key), key, v) == WithKey(xs, key, v) + (if key(x) == v then [x] else [])
    decreases |xs|
  {
    if |xs| > 0 {
      var front := xs[..|xs| - 1];
      var last := xs[|xs| - 1];
      InsertStep(xs, x, key);
      if key(last) <= key(x) {
        WithKeySnoc(xs, x, key, v);
      } else {
        var w := WithKey(front, key, v);
        var xt := if key(x) == v then [x] else [];
        var lt := if key(last) == v then [last] else [];
        calc {
          WithKey(Insert(xs, x, key), key, v);
          { WithKeySnoc(Insert(front, x, key), last, key, v); }
          WithKey(Insert(front, x, key), key, v) + lt;
          { InsertWithKey(front, x, key, v); }
          (w + xt) + lt;
          { KeyTailsCommute(w, x, last, key, v); }
          (w + lt) + xt;
          { WithKeySnoc(front, last, key, v); assert xs == front + [last]; }
          WithKey(xs, key, v) + xt;
        }
      }
    }
  }

  /** At most one of two elements with different keys has key `v`, so
      their contributions to the elements of key `v` commute. */
  lemma {:induction false} KeyTailsCommute<T>(w: seq<T>, x: T, last: T, key: T -> real, v: real)
    requires key(last) > key(x)
    ensures var xt := if key(x) == v then [x] else [];
            var lt := if key(last) == v then [last] else [];
            (w + xt) + lt == (w + lt) + xt
  {
  }

  /** One step of `Insert`: behind the last element, or in front of it. */
  lemma {:induction false} InsertStep<T>(xs: seq<T>, x: T, key: T -> real)
    requires |xs| > 0
    ensures key(xs[|xs| - 1]) <= key(x) ==> Insert(xs, x, key) == xs + [x]
    ensures key(xs[|xs| - 1]) > key(x) ==> Insert(xs, x, key) == Insert(xs[..|xs| - 1], x, key) + [xs[|xs| - 1]]
  {
  }

  lemma {:induction false} SortBySorted<T>(xs: seq<T>, key: T -> real)
    ensures SortedBy(SortBy(xs, key), key)
    decreases |xs|
  {
    if |xs| > 0 {
      var front := xs[..|xs| - 1];
      SortBySorted(front, key);
      InsertSorted(SortBy(front, key), xs[|xs| - 1], key);
    }
  }

  lemma {:induction false} SortByWithKey<T>(xs: seq<T>, key: T -> real, v: real)
    ensures WithKey(SortBy(xs, key), key, v) == WithKey(xs, key, v)
    decreases |xs|
  {
    if |xs| > 0 {
      var front := xs[..|xs| - 1];
      var last := xs[|xs| - 1];
      SortByWithKey(front, key, v);
      assert SortBy(xs, key) == Insert(SortBy(front, key), last, key);
      InsertWithKey(SortBy(front, key), last, key, v);
    }
  }

  /** `sorted` orders by key and keeps the relative order of equal keys. */
  lemma {:induction false} SortByStable<T>(xs: seq<T>, key: T -> real)
    ensures SortedBy(SortBy(xs, key), key)
    ensures forall v :: WithKey(SortBy(xs, key), key, v) == WithKey(xs, key, v)
  {
    SortBySorted(xs, key);
    forall v ensures WithKey(SortBy(xs, key), key, v) == WithKey(xs, key, v)
    {
      SortByWithKey(xs, key, v);
    }
  }

  /** A sequence that is ordered by key and has the same elements of each
      key, in the same order, as `xs` is `sorted(xs, key)`: the two facts
      above pin the stable sort down. */
  lemma {:induction false} SortByUnique<T>(xs: seq<T>, ys: seq<T>, key: T -> real)
    requires SortedBy(ys, key)
    requires forall v :: WithKey(ys, key, v) == WithKey(xs, key, v)
    ensures ys == SortBy(xs, key)
  {
    SortByStable(xs, key);
    SameKeysSortedEqual(ys, SortBy(xs, key), key);
  }

  /** Two key-ordered sequences with the same elements of each key, in the
      same order, are equal. */
  lemma {:induction false} SameKeysSortedEqual<T>(a: seq<T>, b: seq<T>, key: T -> real)
    requires SortedBy(a, key) && SortedBy(b, key)
    requires forall v :: WithKey(a, key, v) == WithKey(b, key, v)
    ensures a == b
    decreases |a| + |b|
  {
    // A non-empty side has an element of its last key, so the other side
    // is not empty either.
    if |a| > 0 { LastKeyPresent(a, key); }
    if |b| > 0 { LastKeyPresent(b, key); }
    if |a| > 0 && |b| > 0 {
      var a', b' := a[..|a| - 1], b[..|b| - 1];
      LastsAgree(a, b, key);
      forall v ensures WithKey(a', key, v) == WithKey(b', key, v)
      {
        FrontsAgree(a, b, key, v);
      }
      SortedFront(a, key);
      SortedFront(b, key);
      SameKeysSortedEqual(a', b', key);
      assert a == a' + [a[|a| - 1]] && b == b' + [b[|b| - 1]];
    }
  }

  /** Under the same hypotheses the last elements agree. */
  lemma {:induction false} LastsAgree<T>(a: seq<T>, b: seq<T>, key: T -> real)
    requires |a| > 0 && |b| > 0
    requires SortedBy(a, key) && SortedBy(b, key)
    requires forall v :: WithKey(a, key, v) == WithKey(b, key, v)
    ensures a[|a| - 1] == b[|b| - 1]
  {
    var x, y := a[|a| - 1], b[|b| - 1];
    var k := key(x);
    LastKeysEqual(a, b, key);
    WithKeyLast(a, key);
    WithKeyLast(b, key);
    assert WithKey(a, key, k) == WithKey(b, key, k);
    SnocLast(WithKey(a[..|a| - 1], key, k), WithKey(b[..|b| - 1], key, k), x, y);
  }

  /** Each last key occurs in the other sequence, whose last key bounds
      all of its keys; so the two last keys are equal. */
  lemma {:induction false} LastKeysEqual<T>(a: seq<T>, b: seq<T>, key: T -> real)
    requires |a| > 0 && |b| > 0
    requires SortedBy(a, key) && SortedBy(b, key)
    requires forall v :: WithKey(a, key, v) == WithKey(b, key, v)
    ensures key(a[|a| - 1]) == key(b[|b| - 1])
  {
    var x, y := a[|a| - 1], b[|b| - 1];
    WithKeyLast(a, key);
    WithKeyLast(b, key);
    assert WithKey(a, key, key(x)) == WithKey(b, key, key(x));
    assert WithKey(a, key, key(y)) == WithKey(b, key, key(y));
    assert x in WithKey(b, key, key(x));
    assert y in WithKey(a, key, key(y));
    WithKeyMember(b, key, key(x), x);
    WithKeyMember(a, key, key(y), y);
    LastKeyIsMax(a, key, y);
    LastKeyIsMax(b, key, x);
  }

  /** The elements with the last element's key end with it. */
  lemma {:induction false} WithKeyLast<T>(xs: seq<T>, key: T -> real)
    requires |xs| > 0
    ensures WithKey(xs, key, key(xs[|xs| - 1])) == WithKey(xs[..|xs| - 1], key, key(xs[|xs| - 1])) + [xs[|xs| - 1]]
  {
  }

  lemma {:induction false} SnocLast<T>(s: seq<T>, t: seq<T>, x: T, y: T)
    requires s + [x] == t + [y]
    ensures x == y
  {
    assert (s + [x])[|s + [x]| - 1] == x;
    assert (t + [y])[|t + [y]| - 1] == y;
  }

  /** Removing equal last elements keeps the elements of each key equal. */
  lemma {:induction false} FrontsAgree<T>(a: seq<T>, b: seq<T>, key: T -> real, v: real)
    requires |a| > 0 && |b| > 0 && a[|a| - 1] == b[|b| - 1]
    requires WithKey(a, key, v) == WithKey(b, key, v)
    ensures WithKey(a[..|a| - 1], key, v) == WithKey(b[..|b| - 1], key, v)
  {
    var x := a[|a| - 1];
    var tail := if key(x) == v then [x] else [];
    var w := WithKey(a, key, v);
    assert w == WithKey(a[..|a| - 1], key, v) + tail && w == WithKey(b[..|b| - 1], key, v) + tail;
    assert WithKey(a[..|a| - 1], key, v) == w[..|w| - |tail|];
  }

  /** A prefix of a key-ordered sequence is key-ordered. */
  lemma {:induction false} SortedFront<T>(a: seq<T>, key: T -> real)
    requires |a| > 0 && SortedBy(a, key)
    ensures SortedBy(a[..|a| - 1], key)
  {
  }

  lemma {:induction false} LastKeyPresent<T>(xs: seq<T>, key: T -> real)
    requires |xs| > 0
    ensures |WithKey(xs, key, key(xs[|xs| - 1]))| > 0
  {
  }

  lemma {:induction false} LastKeyIsMax<T>(xs: seq<T>, key: T -> real, z: T)
    requires SortedBy(xs, key) && z in xs
    ensures key(z) <= key(xs[|xs| - 1])
  {
    var i :| 0 <= i < |xs| && xs[i] == z;
    if i < |xs| - 1 { assert key(xs[i]) <= key(xs[|xs| - 1]); }
  }
}

=== FILE: paths.dfy ===
/** The string operations on POSIX paths that the pipeline uses:
    `os.path.basename`, the root part of `os.path.splitext`, `str.split('/')`
    and the substring test `"truth" in name`. */
module Paths {
  import opened Wrappers
  import Numbers

  /** Position of the last occurrence of `c`. */
  function LastIndexOf(s: string, c: char): (r: Option<nat>)
    ensures r.Some? ==> r.value < |s| && s[r.value] == c && c !in s[r.value + 1..]
    ensures r.None? ==> c !in s
  {
    if |s| == 0 then None
    else if s[|s| - 1] == c then Some(|s| - 1)
    else
      var r := LastIndexOf(s[..|s| - 1], c);
      assert r.Some? ==> s[r.value + 1..] == s[..|s| - 1][r.value + 1..] + [s[|s| - 1]];
      r
  }

  /** `os.path.basename(p)`: everything after the last `/`. */
  function Basename(p: string): (b: string)
    ensures '/' !in b
    ensures |b| <= |p| && b == p[|p| - |b|..]
    ensures |b| < |p| ==> p[|p| - |b| - 1] == '/'
  {
    match LastIndexOf(p, '/')
    case None => p
    case Some(i) => p[i + 1..]
  }

  predicate AllDots(s: string) { forall i :: 0 <= i < |s| ==> s[i] == '.' }

  /** `os.path.splitext(b)[0]` for a name without `/`: the last `.` and
      what follows it are removed, unless every character before that `.`
      is itself a `.` (so `.bashrc` and `..x` keep their text). */
  function StripExtension(b: string): (r: string)
    ensures r == b || (|r| < |b| && r == b[..|r|] && b[|r|] == '.' && !AllDots(r))
  {
    match LastIndexOf(b, '.')
    case None => b
    case Some(i) => if AllDots(b[..i]) then b else b[..i]
  }

  /** `s.split(c)`: the pieces between occurrences of `c`; never empty. */
  function Split(s: string, c: char): (parts: seq<string>)
    ensures |parts| >= 1
    ensures forall k :: 0 <= k < |parts| ==> c !in parts[k]
    decreases |s|
  {
    match Numbers.IndexOf(s, c)
    case None => [s]
    case Some(i) => [s[..i]] + Split(s[i + 1..], c)
  }

  /** Joining the pieces of `split` with the separator gives the text back. */
  lemma {:induction false} SplitJoin(s: string, c: char)
    ensures Join(Split(s, c), c) == s
    decreases |s|
  {
    match Numbers.IndexOf(s, c)
    case None =>
    case Some(i) =>
      var rest := Split(s[i + 1..], c);
      SplitJoin(s[i + 1..], c);
      var parts := [s[..i]] + rest;
      assert Split(s, c) == parts;
      assert |parts| > 1 && parts[0] == s[..i] && parts[1..] == rest;
      assert Join(parts, c) == s[..i] + [c] + Join(rest, c);
      assert s == s[..i] + [c] + s[i + 1..];
  }

  /** `c.join(parts)`. */
  function Join(parts: seq<string>, c: char): string
  {
    if |parts| == 0 then "" else if |parts| == 1 then parts[0] else parts[0] + [c] + Join(parts[1..], c)
  }

  /** Splitting a joined list of pieces without the separator gives the
      pieces back. */
  lemma {:induction false} JoinSplit(parts: seq<string>, c: char)
    requires |parts| >= 1 && forall k :: 0 <= k < |parts| ==> c !in parts[k]
    ensures Split(Join(parts, c), c) == parts
    decreases |parts|
  {
    var s := Join(parts, c);
    if |parts| == 1 {
      assert s == parts[0];
    } else {
      var rest := parts[1..];
      JoinSplit(rest, c);
      var i := |parts[0]|;
      assert s == parts[0] + [c] + Join(rest, c);
      assert s[..i] == parts[0] && s[i] == c && s[i + 1..] == Join(rest, c);
      assert Numbers.IndexOf(s, c) == Some(i);
      assert parts == [parts[0]] + rest;
    }
  }

  /** `sub` occurs in `s` starting at position `k`. */
  predicate OccursAt(s: string, sub: string, k: nat)
  {
    k + |sub| <= |s| && s[k..k + |sub|] == sub
  }

  /** `sub in s`. */
  ghost predicate Contains(s: string, sub: string)
  {
    exists k: nat :: OccursAt(s, sub, k)
  }

  /** `sub in s`, decided by scanning the start positions left to right. */
  function ContainsFrom(s: string, sub: string, i: nat): (r: bool)
    requires i <= |s|
    ensures r <==> exists k: nat :: i <= k && OccursAt(s, sub, k)
    decreases |s| - i
  {
    if i + |sub| > |s| then false
    else if OccursAt(s, sub, i) then true
    else ContainsFrom(s, sub, i + 1)
  }

  function HasSubstring(s: string, sub: string): (r: bool)
    ensures r <==> Contains(s, sub)
  {
    ContainsFrom(s, sub, 0)
  }
}

=== FILE: patterns.dfy ===
/** The file-name patterns of the base processor. Every pattern the
    pipeline uses is a sequence of literal characters and decimal groups
    `(\d+)`, so it is modelled as a list of items, with
    - a declarative meaning (`Matches`: some split of the text fits the items),
    - Python's matcher (`MatchAt`: a group takes the whole digit run first,
      which is the first alternative backtracking tries), and
    - `re.match` / `re.search` on top of it.
    For patterns in which every group is followed by a non-digit literal or
    by the end of the pattern, the greedy run is the only choice that can
    succeed, so `MatchAt` needs no backtracking; `MatchAtComplete` proves it. */
module Patterns {
  import opened Wrappers
  import opened Numbers

  /** One pattern item: a literal character or a group `(\d+)`. */
  datatype Item = Ch(c: char) | Digits

  type Pattern = seq<Item>

  /** The group count of a pattern. */
  function Groups(pat: Pattern): nat
  {
    if |pat| == 0 then 0 else (if pat[0].Digits? then 1 else 0) + Groups(pat[1..])
  }

  /** Writes a pattern as text in which `#` stands for `(\d+)`. */
  function Compile(t: string): (pat: Pattern)
    ensures |pat| == |t|
    ensures forall k :: 0 <= k < |t| ==> pat[k] == if t[k] == '#' then Digits else Ch(t[k])
  {
    if |t| == 0 then [] else [if t[0] == '#' then Digits else Ch(t[0])] + Compile(t[1..])
  }

  // ---------------------------------------------------------------------
  // Characters

  /** Case folding under `re.IGNORECASE` for the characters the patterns
      use: ASCII capitals fold to lower case and the long s (U+017F) folds
      to `s`; everything else, digits included, is its own fold. */
  function Fold(c: char): (f: char)
    ensures IsDigit(c) ==> f == c
    ensures IsDigit(f) <==> IsDigit(c)
  {
    if 'A' <= c <= 'Z' then (c as int + 32) as char
    else if c == 'ſ' then 's'
    else c
  }

  /** A text character `x` matches a literal `p`, case-insensitively when
      `ic` is set. */
  predicate CharMatches(x: char, p: char, ic: bool)
  {
    if ic then Fold(x) == Fold(p) else x == p
  }

  /** A literal that is not a digit can only match a non-digit. */
  lemma {:induction false} NonDigitLiteral(x: char, p: char, ic: bool)
    requires CharMatches(x, p, ic) && !IsDigit(p)
    ensures !IsDigit(x)
  {
  }

  // ---------------------------------------------------------------------
  // Meaning of a pattern

  /** `pat` matches `s[i..e]` with `caps` as the texts of its groups: each
      literal matches one character and each group a non-empty run of
      digits, the runs being given by `caps`. */
  predicate Matches(pat: Pattern, s: string, i: nat, e: nat, caps: seq<string>, ic: bool)
    decreases |pat|
  {
    if |pat| == 0 then e == i && caps == []
    else match pat[0]
      case Ch(c) =>
        i < |s| && CharMatches(s[i], c, ic) && Matches(pat[1..], s, i + 1, e, caps, ic)
      case Digits =>
        && |caps| > 0 && |caps[0]| > 0 && AllDigits(caps[0])
        && i + |caps[0]| <= |s| && s[i..i + |caps[0]|] == caps[0]
        && Matches(pat[1..], s, i + |caps[0]|, e, caps[1..], ic)
  }

  /** Every group is followed by a literal that is not a digit, or ends the
      pattern. */
  predicate WellFormed(pat: Pattern)
  {
    forall k :: 0 <= k < |pat| - 1 && pat[k].Digits? ==> pat[k + 1].Ch? && !IsDigit(pat[k + 1].c)
  }

  /** `big` has as many groups as `small` and each of its groups extends the
      corresponding one. */
  predicate Extends(big: seq<string>, small: seq<string>)
  {
    |big| == |small| && forall k :: 0 <= k < |small| ==> small[k] <= big[k]
  }

  // ---------------------------------------------------------------------
  // The matcher

  /** End of the run of digits that starts at `i`. */
  function DigitRunEnd(s: string, i: nat): (j: nat)
    requires i <= |s|
    ensures i <= j <= |s| && AllDigits(s[i..j])
    ensures j == |s| || !IsDigit(s[j])
    decreases |s| - i
  {
    if i < |s| && IsDigit(s[i]) then
      var j := DigitRunEnd(s, i + 1);
      assert s[i..j] == [s[i]] + s[i + 1..j];
      j
    else i
  }

  /** A digit run from `i` to `k` ends no later than the maximal run, and
      exactly there when a non-digit (or the end) follows it. */
  lemma {:induction false} RunEndBound(s: string, i: nat, k: nat)
    requires i <= k <= |s| && AllDigits(s[i..k])
    ensures k <= DigitRunEnd(s, i)
    ensures (k == |s| || !IsDigit(s[k])) ==> DigitRunEnd(s, i) == k
    decreases k - i
  {
    if i < k {
      assert s[i] == s[i..k][0];
      assert s[i + 1..k] == s[i..k][1..];
      RunEndBound(s, i + 1, k);
    }
  }

  /** Matching at position `i`, as Python's backtracking engine first
      tries it: literals one character each, a group the whole digit run.
      The result is the end position and the group texts. */
  function MatchAt(pat: Pattern, s: string, i: nat, ic: bool): (r: Option<(nat, seq<string>)>)
    requires i <= |s|
    ensures r.Some? ==> i <= r.value.0 <= |s| && |r.value.1| == Groups(pat)
    ensures r.Some? ==> Matches(pat, s, i, r.value.0, r.value.1, ic)
    ensures r.Some? ==> forall k :: 0 <= k < |r.value.1| ==> |r.value.1[k]| > 0 && AllDigits(r.value.1[k])
    decreases |pat|
  {
    if |pat| == 0 then Some((i, []))
    else match pat[0]
      case Ch(c) =>
        if i < |s| && CharMatches(s[i], c, ic) then MatchAt(pat[1..], s, i + 1, ic) else None
      case Digits =>
        var j := DigitRunEnd(s, i);
        if j == i then None
        else match MatchAt(pat[1..], s, j, ic)
          case None => None
          case Some((e, caps)) =>
            var all := [s[i..j]] + caps;
            assert all[0] == s[i..j] && all[1..] == caps;
            Some((e, all))
  }

  lemma {:induction false} WellFormedTail(pat: Pattern)
    requires |pat| > 0 && WellFormed(pat)
    ensures WellFormed(pat[1..])
  {
    var tail := pat[1..];
    forall k | 0 <= k < |tail| - 1 && tail[k].Digits?
      ensures tail[k + 1].Ch? && !IsDigit(tail[k + 1].c)
    {
      assert tail[k] == pat[k + 1] && tail[k + 1] == pat[k + 2];
    }
  }

  /** A pattern that is one digit run takes the whole run. */
  lemma {:induction false} DigitsAlone(pat: Pattern, s: string, i: nat, e: nat, caps: seq<string>, ic: bool)
    requires i <= |s| && |pat| == 1 && pat[0].Digits? && Matches(pat, s, i, e, caps, ic)
    ensures MatchAt(pat, s, i, ic).Some?
    ensures MatchAt(pat, s, i, ic).value.0 >= e
    ensures Extends(MatchAt(pat, s, i, ic).value.1, caps)
    ensures e >= |s| || !IsDigit(s[e]) ==> MatchAt(pat, s, i, ic) == Some((e, caps))
  {
    var tail := pat[1..];
    var k := i + |caps[0]|;
    RunEndBound(s, i, k);
    var j := DigitRunEnd(s, i);
    assert e == k && caps[1..] == [] && caps == [s[i..k]];
    assert MatchAt(tail, s, j, ic) == Some((j, []));
    assert [s[i..j]] + [] == [s[i..j]];
    assert MatchAt(pat, s, i, ic) == Some((j, [s[i..j]]));
    assert s[i..k] <= s[i..j];
  }

  /** A digit run followed by a non-digit literal: the matcher takes
      exactly the run and continues as the rest of the pattern does. */
  lemma {:induction false} DigitsThen(pat: Pattern, s: string, i: nat, e: nat, caps: seq<string>, ic: bool)
    requires i <= |s| && |pat| > 1 && pat[0].Digits? && pat[1].Ch? && !IsDigit(pat[1].c)
    requires Matches(pat, s, i, e, caps, ic)
    requires var r := MatchAt(pat[1..], s, i + |caps[0]|, ic);
             && r.Some? && r.value.0 >= e && Extends(r.value.1, caps[1..])
             && (pat[|pat| - 1].Ch? || e >= |s| || !IsDigit(s[e]) ==> r == Some((e, caps[1..])))
    ensures MatchAt(pat, s, i, ic).Some?
    ensures MatchAt(pat, s, i, ic).value.0 >= e
    ensures Extends(MatchAt(pat, s, i, ic).value.1, caps)
    ensures pat[|pat| - 1].Ch? || e >= |s| || !IsDigit(s[e]) ==> MatchAt(pat, s, i, ic) == Some((e, caps))
  {
    var tail := pat[1..];
    var k := i + |caps[0]|;
    RunEndBound(s, i, k);
    assert tail[0] == pat[1];
    var c := tail[0].c;
    assert k < |s| && CharMatches(s[k], c, ic);
    NonDigitLiteral(s[k], c, ic);
    assert DigitRunEnd(s, i) == k;
    var rest := MatchAt(tail, s, k, ic).value;
    var all := [s[i..k]] + rest.1;
    assert MatchAt(pat, s, i, ic) == Some((rest.0, all));
    forall g | 0 <= g < |caps| ensures caps[g] <= all[g]
    {
      if g > 0 { assert caps[g] == caps[1..][g - 1] && all[g] == rest.1[g - 1]; }
    }
    assert tail[|tail| - 1] == pat[|pat| - 1];
    assert caps == [caps[0]] + caps[1..];
  }

  /** For a well-formed pattern the greedy matcher finds a match wherever
      the pattern fits, and its groups extend those of any fitting split.
      When the pattern ends in a literal, or the fitting split ends where
      no digit follows, the matcher returns exactly that split. */
  lemma {:induction false} MatchAtComplete(pat: Pattern, s: string, i: nat, e: nat, caps: seq<string>, ic: bool)
    requires i <= |s| && WellFormed(pat) && Matches(pat, s, i, e, caps, ic)
    ensures MatchAt(pat, s, i, ic).Some?
    ensures MatchAt(pat, s, i, ic).value.0 >= e
    ensures Extends(MatchAt(pat, s, i, ic).value.1, caps)
    ensures |pat| == 0 || pat[|pat| - 1].Ch? || e >= |s| || !IsDigit(s[e]) ==>
              MatchAt(pat, s, i, ic) == Some((e, caps))
    decreases |pat|
  {
    if |pat| > 0 {
      var tail := pat[1..];
      WellFormedTail(pat);
      match pat[0]
      case Ch(c) =>
        MatchAtComplete(tail, s, i + 1, e, caps, ic);
      case Digits =>
        if |tail| == 0 {
          DigitsAlone(pat, s, i, e, caps, ic);
        } else {
          assert pat[1] == tail[0];
          MatchAtComplete(tail, s, i + |caps[0]|, e, caps[1..], ic);
          DigitsThen(pat, s, i, e, caps, ic);
        }
    }
  }

  // ---------------------------------------------------------------------
  // re.match and re.search

  /** A successful match: where it starts and ends, and its group texts. */
  datatype Found = Found(start: nat, end: nat, groups: seq<string>)

  /** Every group text is a non-empty run of digits. */
  predicate DigitGroups(caps: seq<string>)
  {
    forall k :: 0 <= k < |caps| ==> |caps[k]| > 0 && AllDigits(caps[k])
  }

  /** `re.match(pattern, s)`: a match anchored at the start of `s`. */
  function ReMatch(pat: Pattern, s: string, ic: bool): (r: Option<Found>)
    ensures r.Some? ==> r.value.start == 0 && Matches(pat, s, 0, r.value.end, r.value.groups, ic)
    ensures r.Some? ==> |r.value.groups| == Groups(pat) && DigitGroups(r.value.groups)
    ensures r.None? ==> MatchAt(pat, s, 0, ic).None?
  {
    match MatchAt(pat, s, 0, ic)
    case None => None
    case Some((e, caps)) => Some(Found(0, e, caps))
  }

  /** `re.search` from position `i`: the first start position, trying
      `i, i + 1, ..., |s|`, at which the matcher succeeds. */
  function SearchFrom(pat: Pattern, s: string, i: nat, ic: bool): (r: Option<Found>)
    requires i <= |s|
    ensures r.Some? ==> i <= r.value.start <= |s|
                        && MatchAt(pat, s, r.value.start, ic) == Some((r.value.end, r.value.groups))
    ensures forall j :: i <= j <= |s| && (r.None? || j < r.value.start) ==> MatchAt(pat, s, j, ic).None?
    decreases |s| - i
  {
    match MatchAt(pat, s, i, ic)
    case Some((e, caps)) => Some(Found(i, e, caps))
    case None => if i == |s| then None else SearchFrom(pat, s, i + 1, ic)
  }

  function ReSearch(pat: Pattern, s: string, ic: bool): (r: Option<Found>)
    ensures r.Some? ==> Matches(pat, s, r.value.start, r.value.end, r.value.groups, ic)
    ensures r.Some? ==> |r.value.groups| == Groups(pat) && DigitGroups(r.value.groups)
  {
    SearchFrom(pat, s, 0, ic)
  }

  /** `re.search` finds the leftmost position at which a well-formed
      pattern fits, and fails only when it fits nowhere. */
  lemma {:induction false} SearchLeftmost(pat: Pattern, s: string, j: nat, e: nat, caps: seq<string>, ic: bool)
    requires j <= |s| && WellFormed(pat) && Matches(pat, s, j, e, caps, ic)
    ensures ReSearch(pat, s, ic).Some? && ReSearch(pat, s, ic).value.start <= j
  {
    MatchAtComplete(pat, s, j, e, caps, ic);
  }

  /** `re.match` succeeds exactly when a well-formed pattern fits at the
      start of the text. */
  lemma {:induction false} MatchAnchored(pat: Pattern, s: string, e: nat, caps: seq<string>, ic: bool)
    requires WellFormed(pat) && Matches(pat, s, 0, e, caps, ic)
    ensures ReMatch(pat, s, ic).Some? && Extends(ReMatch(pat, s, ic).value.groups, caps)
  {
    MatchAtComplete(pat, s, 0, e, caps, ic);
  }

  // ---------------------------------------------------------------------
  // What re.match and re.search return, declaratively

  /** A fit at `i` whose groups are as long as they can be: the groups of
      every other fit at `i` are prefixes of them. */
  ghost predicate Greedy(pat: Pattern, s: string, i: nat, e: nat, caps: seq<string>, ic: bool)
  {
    && Matches(pat, s, i, e, caps, ic)
    && forall e': nat, caps': seq<string> :: Matches(pat, s, i, e', caps', ic) ==> Extends(caps, caps')
  }

  /** A greedy fit at a position before which the pattern fits nowhere. */
  ghost predicate Leftmost(pat: Pattern, s: string, i: nat, e: nat, caps: seq<string>, ic: bool)
  {
    && Greedy(pat, s, i, e, caps, ic)
    && forall j: nat, e': nat, caps': seq<string> :: j < i ==> !Matches(pat, s, j, e', caps', ic)
  }

  lemma {:induction false} ExtendsBoth(a: seq<string>, b: seq<string>)
    requires Extends(a, b) && Extends(b, a)
    ensures a == b
  {
    forall k | 0 <= k < |a| ensures a[k] == b[k]
    {
      assert b[k] <= a[k] && a[k] <= b[k];
    }
  }

  /** At most one greedy fit at a position: its groups are determined. */
  lemma {:induction false} GreedyUnique(pat: Pattern, s: string, i: nat, e: nat, caps: seq<string>,
                                        e': nat, caps': seq<string>, ic: bool)
    requires Greedy(pat, s, i, e, caps, ic) && Greedy(pat, s, i, e', caps', ic)
    ensures caps == caps'
  {
    ExtendsBoth(caps, caps');
  }

  /** At most one leftmost greedy fit: its position and groups are
      determined. */
  lemma {:induction false} LeftmostUnique(pat: Pattern, s: string, i: nat, e: nat, caps: seq<string>,
                                          i': nat, e': nat, caps': seq<string>, ic: bool)
    requires Leftmost(pat, s, i, e, caps, ic) && Leftmost(pat, s, i', e', caps', ic)
    ensures i == i' && caps == caps'
  {
    assert !(i < i') && !(i' < i);
    GreedyUnique(pat, s, i, e, caps, e', caps', ic);
  }

  /** For a well-formed pattern `re.match` returns the greedy fit at the
      start, and fails exactly when the pattern does not fit there. */
  lemma {:induction false} ReMatchGreedy(pat: Pattern, s: string, ic: bool)
    requires WellFormed(pat)
    ensures ReMatch(pat, s, ic).Some? ==>
              Greedy(pat, s, 0, ReMatch(pat, s, ic).value.end, ReMatch(pat, s, ic).value.groups, ic)
    ensures ReMatch(pat, s, ic).Some? ==> exists e: nat, caps: seq<string> :: Matches(pat, s, 0, e, caps, ic)
    ensures (exists e: nat, caps: seq<string> :: Matches(pat, s, 0, e, caps, ic)) ==> ReMatch(pat, s, ic).Some?
  {
    var r := ReMatch(pat, s, ic);
    forall e: nat, caps: seq<string> | Matches(pat, s, 0, e, caps, ic)
      ensures r.Some? && Extends(r.value.groups, caps)
    {
      MatchAnchored(pat, s, e, caps, ic);
    }
    if r.Some? {
      assert Matches(pat, s, 0, r.value.end, r.value.groups, ic);
    }
  }

  /** For a well-formed pattern `re.search` returns the leftmost greedy
      fit, and fails exactly when the pattern fits nowhere. */
  lemma {:induction false} ReSearchLeftmost(pat: Pattern, s: string, ic: bool)
    requires WellFormed(pat)
    ensures ReSearch(pat, s, ic).Some? ==>
              var f := ReSearch(pat, s, ic).value;
              Leftmost(pat, s, f.start, f.end, f.groups, ic)
    ensures ReSearch(pat, s, ic).Some? ==>
              exists j: nat, e: nat, caps: seq<string> :: j <= |s| && Matches(pat, s, j, e, caps, ic)
    ensures (exists j: nat, e: nat, caps: seq<string> :: j <= |s| && Matches(pat, s, j, e, caps, ic)) ==>
              ReSearch(pat, s, ic).Some?
  {
    var r := ReSearch(pat, s, ic);
    forall j: nat, e: nat, caps: seq<string> | j <= |s| && Matches(pat, s, j, e, caps, ic)
      ensures r.Some? && r.value.start <= j
      ensures j == r.value.start ==> Extends(r.value.groups, caps)
    {
      SearchLeftmost(pat, s, j, e, caps, ic);
      MatchAtComplete(pat, s, j, e, caps, ic);
    }
    if r.Some? {
      assert r.value.start <= |s| && Matches(pat, s, r.value.start, r.value.end, r.value.groups, ic);
    }
  }

  // ---------------------------------------------------------------------
  // Case-insensitive matching

  /** Under `re.IGNORECASE` a pattern character that is neither an ASCII
      capital nor the long s matches itself, its capital when it is an
      ASCII lower-case letter, and the long s when it is `s`. */
  lemma {:induction false} IgnoreCaseChar(x: char, p: char)
    requires !('A' <= p <= 'Z') && p != 'ſ'
    ensures CharMatches(x, p, true) <==>
              || x == p
              || ('a' <= p <= 'z' && x as int == p as int - 32)
              || (p == 's' && x == 'ſ')
  {
  }

  /** Texts that agree character by character up to case folding. */
  predicate FoldEq(x: string, y: string)
  {
    |x| == |y| && forall k :: 0 <= k < |x| ==> Fold(x[k]) == Fold(y[k])
  }

  /** Case folding keeps digit runs as they are. */
  lemma {:induction false} DigitRunEndFold(x: string, y: string, i: nat)
    requires FoldEq(x, y) && i <= |x|
    ensures DigitRunEnd(x, i) == DigitRunEnd(y, i)
    ensures x[i..DigitRunEnd(x, i)] == y[i..DigitRunEnd(y, i)]
    decreases |x| - i
  {
    if i < |x| {
      assert Fold(x[i]) == Fold(y[i]);
      if IsDigit(x[i]) {
        DigitRunEndFold(x, y, i + 1);
        var j := DigitRunEnd(x, i);
        assert x[i..j] == [x[i]] + x[i + 1..j];
        assert y[i..j] == [y[i]] + y[i + 1..j];
      }
    }
  }

  /** Case-insensitive matching sees the text only up to case folding. */
  lemma {:induction false} MatchAtFold(pat: Pattern, x: string, y: string, i: nat)
    requires FoldEq(x, y) && i <= |x|
    ensures MatchAt(pat, x, i, true) == MatchAt(pat, y, i, true)
    decreases |pat|
  {
    if |pat| > 0 {
      match pat[0]
      case Ch(c) =>
        if i < |x| {
          assert Fold(x[i]) == Fold(y[i]);
          MatchAtFold(pat[1..], x, y, i + 1);
        }
      case Digits =>
        DigitRunEndFold(x, y, i);
        MatchAtFold(pat[1..], x, y, DigitRunEnd(x, i));
    }
  }

  lemma {:induction false} SearchFromFold(pat: Pattern, x: string, y: string, i: nat)
    requires FoldEq(x, y) && i <= |x|
    ensures SearchFrom(pat, x, i, true) == SearchFrom(pat, y, i, true)
    decreases |x| - i
  {
    MatchAtFold(pat, x, y, i);
    if i < |x| {
      SearchFromFold(pat, x, y, i + 1);
    }
  }

  /** A character that is not a letter appears in a text exactly where it
      appears in any text with the same folding. */
  lemma {:induction false} FoldAvoids(x: string, y: string, c: char)
    requires FoldEq(x, y) && c !in y && !('a' <= c <= 'z') && !('A' <= c <= 'Z') && c != 'ſ'
    ensures c !in x
  {
    forall k | 0 <= k < |x| ensures x[k] != c
    {
      assert Fold(x[k]) == Fold(y[k]);
    }
  }

  /** A case-insensitive `re.search` gives the same answer on texts that
      agree up to case folding. */
  lemma {:induction false} ReSearchFold(pat: Pattern, x: string, y: string)
    requires FoldEq(x, y)
    ensures ReSearch(pat, x, true) == ReSearch(pat, y, true)
  {
    SearchFromFold(pat, x, y, 0);
  }

  /** `int(m.group(k))` for a group, which is a non-empty run of digits. */
  function GroupValue(f: Found, k: nat): (v: nat)
    requires k < |f.groups| && |f.groups[k]| > 0 && AllDigits(f.groups[k])
    ensures ParseInt(f.groups[k]) == Some(v as int)
  {
    ParseIntDigits(f.groups[k]);
    DecValue(f.groups[k])
  }

  // ---------------------------------------------------------------------
  // The four patterns of the pipeline

  /** `user(\d+)-(\d+)-(\d+)-(\d+)-(\d+)-r(\d+)` (Widar gestures). */
  const WidarTemplate := "user#-#-#-#-#-r#"
  const WidarPattern := Compile(WidarTemplate)
  /** `user(\d+)-(\d+)-(\d+)-r(\d+)` (gait), searched case-insensitively. */
  const GaitTemplate := "user#-#-#-r#"
  const GaitPattern := Compile(GaitTemplate)
  /** `(\d+)_(\d+)_` (XRF55). */
  const XrfTemplate := "#_#_"
  const XrfPattern := Compile(XrfTemplate)
  /** `user(\d+)_position(\d+)_activity(\d+)` (ElderAL). */
  const ElderTemplate := "user#_" + "position#_" + "activity#"
  const ElderPattern := Compile(ElderTemplate)
  /** `amp_tx(\d+)_rx(\d+)_sub(\d+)` (ElderAL amplitude column headers). */
  const ColumnTemplate := "amp_tx#_" + "rx#_" + "sub#"
  const ColumnPattern := Compile(ColumnTemplate)

  /** A template whose every `#` from position `i` on is followed by a
      character that is neither `#` nor a digit, or ends the template. */
  predicate TemplateOk(t: string, i: nat)
    decreases |t| - i
  {
    i + 1 >= |t| || ((t[i] == '#' ==> t[i + 1] != '#' && !IsDigit(t[i + 1])) && TemplateOk(t, i + 1))
  }

  /** The number of `#` from position `i` on. */
  function Hashes(t: string, i: nat): nat
    decreases |t| - i
  {
    if i >= |t| then 0 else (if t[i] == '#' then 1 else 0) + Hashes(t, i + 1)
  }

  /** The text a template describes from position `i` on, for the given
      group values: each `#` is replaced by the decimal digits of the next
      value (`str(v)`). */
  function Format(t: string, i: nat, vals: seq<nat>): string
    decreases |t| - i
  {
    if i >= |t| then ""
    else if t[i] == '#' then
      if |vals| == 0 then Format(t, i + 1, []) else ShowNat(vals[0]) + Format(t, i + 1, vals[1..])
    else [t[i]] + Format(t, i + 1, vals)
  }

  /** The group texts a formatted name carries. */
  function Shown(vals: seq<nat>): (caps: seq<string>)
    ensures |caps| == |vals| && forall k :: 0 <= k < |vals| ==> caps[k] == ShowNat(vals[k])
  {
    seq(|vals|, k requires 0 <= k < |vals| => ShowNat(vals[k]))
  }

  /** A formatted text fits its template, with the values' digits as the
      groups. */
  lemma {:induction false} FormatMatches(t: string, i: nat, vals: seq<nat>, pre: string, ic: bool)
    requires i <= |t| && |vals| == Hashes(t, i)
    ensures Matches(Compile(t[i..]), pre + Format(t, i, vals), |pre|, |pre| + |Format(t, i, vals)|, Shown(vals), ic)
    decreases |t| - i
  {
    if i < |t| {
      if t[i] == '#' {
        FormatMatches(t, i + 1, vals[1..], pre + ShowNat(vals[0]), ic);
        GroupFormatted(t, i, vals, pre, ic);
      } else {
        FormatMatches(t, i + 1, vals, pre + [t[i]], ic);
        CharFormatted(t, i, vals, pre, ic);
      }
    }
  }

  lemma {:induction false} CompileTail(t: string, i: nat)
    requires i < |t|
    ensures Compile(t[i..])[0] == if t[i] == '#' then Digits else Ch(t[i])
    ensures Compile(t[i..])[1..] == Compile(t[i + 1..])
  {
    assert t[i..][0] == t[i] && t[i..][1..] == t[i + 1..];
  }

  /** The step of `FormatMatches` for a group. */
  lemma {:induction false} GroupFormatted(t: string, i: nat, vals: seq<nat>, pre: string, ic: bool)
    requires i < |t| && t[i] == '#' && |vals| == Hashes(t, i)
    requires var pre' := pre + ShowNat(vals[0]);
             var rest := Format(t, i + 1, vals[1..]);
             Matches(Compile(t[i + 1..]), pre' + rest, |pre'|, |pre'| + |rest|, Shown(vals[1..]), ic)
    ensures Matches(Compile(t[i..]), pre + Format(t, i, vals), |pre|, |pre| + |Format(t, i, vals)|, Shown(vals), ic)
  {
    var rest := Format(t, i + 1, vals[1..]);
    assert Format(t, i, vals) == ShowNat(vals[0]) + rest;
    ShownCons(vals);
    CompileTail(t, i);
    GroupConcat(Compile(t[i..]), pre, rest, Shown(vals), ic);
  }

  /** The step of `FormatMatches` for a literal character. */
  lemma {:induction false} CharFormatted(t: string, i: nat, vals: seq<nat>, pre: string, ic: bool)
    requires i < |t| && t[i] != '#'
    requires var pre' := pre + [t[i]];
             var rest := Format(t, i + 1, vals);
             Matches(Compile(t[i + 1..]), pre' + rest, |pre'|, |pre'| + |rest|, Shown(vals), ic)
    ensures Matches(Compile(t[i..]), pre + Format(t, i, vals), |pre|, |pre| + |Format(t, i, vals)|, Shown(vals), ic)
  {
    var rest := Format(t, i + 1, vals);
    assert Format(t, i, vals) == [t[i]] + rest;
    CompileTail(t, i);
    CharConcat(Compile(t[i..]), pre, rest, Shown(vals), ic);
  }

  /** A group matching its own digits in front of a text that fits the rest
      of the pattern. */
  lemma {:induction false} GroupConcat(pat: Pattern, pre: string, rest: string, caps: seq<string>, ic: bool)
    requires |pat| > 0 && pat[0] == Digits && |caps| > 0 && |caps[0]| > 0 && AllDigits(caps[0])
    requires Matches(pat[1..], (pre + caps[0]) + rest, |pre + caps[0]|, |pre + caps[0]| + |rest|, caps[1..], ic)
    ensures Matches(pat, pre + (caps[0] + rest), |pre|, |pre| + |caps[0] + rest|, caps, ic)
  {
    var s := pre + (caps[0] + rest);
    assert s == (pre + caps[0]) + rest;
    assert s[|pre|..|pre| + |caps[0]|] == caps[0];
  }

  /** A literal matching itself in front of a text that fits the rest of
      the pattern. */
  lemma {:induction false} CharConcat(pat: Pattern, pre: string, rest: string, caps: seq<string>, ic: bool)
    requires |pat| > 0 && pat[0].Ch?
    requires Matches(pat[1..], (pre + [pat[0].c]) + rest, |pre| + 1, |pre| + 1 + |rest|, caps, ic)
    ensures Matches(pat, pre + ([pat[0].c] + rest), |pre|, |pre| + |[pat[0].c] + rest|, caps, ic)
  {
    var s := pre + ([pat[0].c] + rest);
    assert s == (pre + [pat[0].c]) + rest;
    assert s[|pre|] == pat[0].c;
  }

  lemma {:induction false} ShownCons(vals: seq<nat>)
    requires |vals| > 0
    ensures Shown(vals)[0] == ShowNat(vals[0]) && Shown(vals)[1..] == Shown(vals[1..])
  {
    var a, b := Shown(vals)[1..], Shown(vals[1..]);
    assert |a| == |b|;
    forall k | 0 <= k < |a| ensures a[k] == b[k]
    {
      assert a[k] == Shown(vals)[k + 1];
    }
  }

  /** Matching a formatted name against its template returns the whole
      name and the digits of every value: the matcher inverts `Format`. */
  lemma {:induction false} FormatRoundTrip(t: string, vals: seq<nat>, ic: bool)
    requires Template(t, |vals|)
    ensures var s := Format(t, 0, vals);
            MatchAt(Compile(t), s, 0, ic) == Some((|s|, Shown(vals)))
  {
    var s := Format(t, 0, vals);
    FormatMatches(t, 0, vals, "", ic);
    assert t[0..] == t && "" + s == s;
    CompileWellFormed(t, 0);
    MatchAtComplete(Compile(t), s, 0, |s|, Shown(vals), ic);
  }

  lemma {:induction false} CompileWellFormed(t: string, i: nat)
    requires i <= |t| && TemplateOk(t, i)
    ensures WellFormed(Compile(t[i..])) && Groups(Compile(t[i..])) == Hashes(t, i)
    decreases |t| - i
  {
    if i < |t| {
      CompileWellFormed(t, i + 1);
      var pat := Compile(t[i..]);
      assert t[i..][1..] == t[i + 1..];
      assert pat[1..] == Compile(t[i + 1..]);
      forall k | 0 <= k < |pat| - 1 && pat[k].Digits?
        ensures pat[k + 1].Ch? && !IsDigit(pat[k + 1].c)
      {
        if k > 0 { assert pat[k] == pat[1..][k - 1] && pat[k + 1] == pat[1..][k]; }
      }
    }
  }

  /** A usable template with `n` groups. */
  predicate Template(t: string, n: nat)
  {
    TemplateOk(t, 0) && Hashes(t, 0) == n
  }

  lemma {:induction false} PatternOk(t: string, n: nat)
    requires Template(t, n)
    ensures WellFormed(Compile(t)) && Groups(Compile(t)) == n
  {
    CompileWellFormed(t, 0);
    assert t[0..] == t;
  }

  /** Each of the four patterns is well formed; they have 6, 4, 2 and 3
      groups. */
  lemma {:induction false} WidarPatternOk()
    ensures Template(WidarTemplate, 6)
    ensures WellFormed(WidarPattern) && Groups(WidarPattern) == 6
  {
    WidarTemplateOk();
    PatternOk(WidarTemplate, 6);
  }

  lemma {:induction false} GaitPatternOk()
    ensures Template(GaitTemplate, 4)
    ensures WellFormed(GaitPattern) && Groups(GaitPattern) == 4
  {
    GaitTemplateOk();
    PatternOk(GaitTemplate, 4);
  }

  lemma {:induction false} XrfPatternOk()
    ensures Template(XrfTemplate, 2)
    ensures WellFormed(XrfPattern) && Groups(XrfPattern) == 2
  {
    var t := "#_#_";
    assert t == XrfTemplate;
    assert TemplateOk(t, 3) && Hashes(t, 3) == 0;
    assert TemplateOk(t, 2) && Hashes(t, 2) == 1;
    assert TemplateOk(t, 1) && Hashes(t, 1) == 1;
    assert TemplateOk(t, 0) && Hashes(t, 0) == 2;
    PatternOk(XrfTemplate, 2);
  }

  lemma {:induction false} ElderPatternOk()
    ensures Template(ElderTemplate, 3)
    ensures WellFormed(ElderPattern) && Groups(ElderPattern) == 3
  {
    ElderTemplateOk();
    PatternOk(ElderTemplate, 3);
  }

  // The templates are checked one character at a time, from the end.

  lemma {:induction false} WidarTemplateOk()
    ensures Template(WidarTemplate, 6)
  {
    var t := "user#-#-#-#-#-r#";
    assert t == WidarTemplate;
    WidarTemplateTail();
    assert TemplateOk(t, 7) && Hashes(t, 7) == 4;
    assert TemplateOk(t, 6) && Hashes(t, 6) == 5;
    assert TemplateOk(t, 5) && Hashes(t, 5) == 5;
    assert TemplateOk(t, 4) && Hashes(t, 4) == 6;
    assert TemplateOk(t, 3) && Hashes(t, 3) == 6;
    assert TemplateOk(t, 2) && Hashes(t, 2) == 6;
    assert TemplateOk(t, 1) && Hashes(t, 1) == 6;
    assert TemplateOk(t, 0) && Hashes(t, 0) == 6;
  }

  lemma {:induction false} WidarTemplateTail()
    ensures TemplateOk(WidarTemplate, 8) && Hashes(WidarTemplate, 8) == 4
  {
    var t := "user#-#-#-#-#-r#";
    assert t == WidarTemplate;
    assert TemplateOk(t, 15) && Hashes(t, 15) == 1;
    assert TemplateOk(t, 14) && Hashes(t, 14) == 1;
    assert TemplateOk(t, 13) && Hashes(t, 13) == 1;
    assert TemplateOk(t, 12) && Hashes(t, 12) == 2;
    assert TemplateOk(t, 11) && Hashes(t, 11) == 2;
    assert TemplateOk(t, 10) && Hashes(t, 10) == 3;
    assert TemplateOk(t, 9) && Hashes(t, 9) == 3;
    assert TemplateOk(t, 8) && Hashes(t, 8) == 4;
  }

  lemma {:induction false} GaitTemplateOk()
    ensures Template(GaitTemplate, 4)
  {
    var t := "user#-#-#-r#";
    assert t == GaitTemplate;
    assert TemplateOk(t, 11) && Hashes(t, 11) == 1;
    assert TemplateOk(t, 10) && Hashes(t, 10) == 1;
    assert TemplateOk(t, 9) && Hashes(t, 9) == 1;
    assert TemplateOk(t, 8) && Hashes(t, 8) == 2;
    assert TemplateOk(t, 7) && Hashes(t, 7) == 2;
    assert TemplateOk(t, 6) && Hashes(t, 6) == 3;
    assert TemplateOk(t, 5) && Hashes(t, 5) == 3;
    assert TemplateOk(t, 4) && Hashes(t, 4) == 4;
    assert TemplateOk(t, 3) && Hashes(t, 3) == 4;
    assert TemplateOk(t, 2) && Hashes(t, 2) == 4;
    assert TemplateOk(t, 1) && Hashes(t, 1) == 4;
    assert TemplateOk(t, 0) && Hashes(t, 0) == 4;
  }

  lemma {:induction false} ElderTemplateOk()
    ensures Template(ElderTemplate, 3)
  {
    var t := ElderTemplate;
    ElderTemplateMiddle();
    assert TemplateOk(t, 7) && Hashes(t, 7) == 2;
    assert TemplateOk(t, 6) && Hashes(t, 6) == 2;
    assert TemplateOk(t, 5) && Hashes(t, 5) == 2;
    assert TemplateOk(t, 4) && Hashes(t, 4) == 3;
    assert TemplateOk(t, 3) && Hashes(t, 3) == 3;
    assert TemplateOk(t, 2) && Hashes(t, 2) == 3;
    assert TemplateOk(t, 1) && Hashes(t, 1) == 3;
    assert TemplateOk(t, 0) && Hashes(t, 0) == 3;
  }

  lemma {:induction false} ElderTemplateMiddle()
    ensures TemplateOk(ElderTemplate, 8) && Hashes(ElderTemplate, 8) == 2
  {
    var t := ElderTemplate;
    ElderTemplateTail();
    assert TemplateOk(t, 15) && Hashes(t, 15) == 1;
    assert TemplateOk(t, 14) && Hashes(t, 14) == 2;
    assert TemplateOk(t, 13) && Hashes(t, 13) == 2;
    assert TemplateOk(t, 12) && Hashes(t, 12) == 2;
    assert TemplateOk(t, 11) && Hashes(t, 11) == 2;
    assert TemplateOk(t, 10) && Hashes(t, 10) == 2;
    assert TemplateOk(t, 9) && Hashes(t, 9) == 2;
    assert TemplateOk(t, 8) && Hashes(t, 8) == 2;
  }

  lemma {:induction false} ElderTemplateTail()
    ensures TemplateOk(ElderTemplate, 16) && Hashes(ElderTemplate, 16) == 1
  {
    var t := ElderTemplate;
    assert TemplateOk(t, 24) && Hashes(t, 24) == 1;
    assert TemplateOk(t, 23) && Hashes(t, 23) == 1;
    assert TemplateOk(t, 22) && Hashes(t, 22) == 1;
    assert TemplateOk(t, 21) && Hashes(t, 21) == 1;
    assert TemplateOk(t, 20) && Hashes(t, 20) == 1;
    assert TemplateOk(t, 19) && Hashes(t, 19) == 1;
    assert TemplateOk(t, 18) && Hashes(t, 18) == 1;
    assert TemplateOk(t, 17) && Hashes(t, 17) == 1;
    assert TemplateOk(t, 16) && Hashes(t, 16) == 1;
  }

  lemma {:induction false} ColumnPatternOk()
    ensures Template(ColumnTemplate, 3)
    ensures WellFormed(ColumnPattern) && Groups(ColumnPattern) == 3
  {
    ColumnTemplateOk();
    PatternOk(ColumnTemplate, 3);
  }

  lemma {:induction false} ColumnTemplateOk()
    ensures Template(ColumnTemplate, 3)
  {
    var t := ColumnTemplate;
    ColumnTemplateTail();
    assert TemplateOk(t, 7) && Hashes(t, 7) == 2;
    assert TemplateOk(t, 6) && Hashes(t, 6) == 3;
    assert TemplateOk(t, 5) && Hashes(t, 5) == 3;
    assert TemplateOk(t, 4) && Hashes(t, 4) == 3;
    assert TemplateOk(t, 3) && Hashes(t, 3) == 3;
    assert TemplateOk(t, 2) && Hashes(t, 2) == 3;
    assert TemplateOk(t, 1) && Hashes(t, 1) == 3;
    assert TemplateOk(t, 0) && Hashes(t, 0) == 3;
  }

  lemma {:induction false} ColumnTemplateTail()
    ensures TemplateOk(ColumnTemplate, 8) && Hashes(ColumnTemplate, 8) == 2
  {
    var t := ColumnTemplate;
    assert TemplateOk(t, 15) && Hashes(t, 15) == 1;
    assert TemplateOk(t, 14) && Hashes(t, 14) == 1;
    assert TemplateOk(t, 13) && Hashes(t, 13) == 1;
    assert TemplateOk(t, 12) && Hashes(t, 12) == 1;
    assert TemplateOk(t, 11) && Hashes(t, 11) == 1;
    assert TemplateOk(t, 10) && Hashes(t, 10) == 2;
    assert TemplateOk(t, 9) && Hashes(t, 9) == 2;
    assert TemplateOk(t, 8) && Hashes(t, 8) == 2;
  }
}

=== FILE: processor.dfy ===
/** Per-capture processing: the label and group a capture's file name
    carries, the frames sorted by timestamp and stacked into one array, and
    the filter over all captures that keeps those yielding a sample. Phase
    calibration and wavelet denoising are floating-point numerics and enter
    as parameters. */
module Processor {
  import opened Wrappers
  import opened Numbers
  import opened Paths
  import opened Tensors
  import opened Structure
  import opened Patterns
  import opened Ordering

  // ---------------------------------------------------------------------
  // File names

  /** The tuple `parse_file_info_from_filename` returns: six entries, the
      unused ones `None`. */
  type Info = seq<Option<int>>

  const KnownDatasets: set<string> := {"widar", "gait", "xrf55", "elderAL"}

  /** `os.path.splitext(os.path.basename(f))[0]`. */
  function ParseBase(fName: string): (b: string)
    ensures '/' !in b
  {
    var name := Basename(fName);
    var b := StripExtension(name);
    assert b == name || b == name[..|b|];
    b
  }

  /** The first `n` groups of a match as integers, padded with `None` to
      six entries. */
  function Padded(m: Found, n: nat): (info: Info)
    requires n <= 6 && n <= |m.groups| && DigitGroups(m.groups)
    ensures |info| == 6
    ensures forall k :: 0 <= k < n ==> info[k].Some? && ParseInt(m.groups[k]) == Some(info[k].value)
    ensures forall k :: n <= k < 6 ==> info[k].None?
  {
    seq(6, k requires 0 <= k < 6 => if k < n then Some(GroupValue(m, k) as int) else None)
  }

  function Extract(m: Option<Found>, n: nat): (info: Option<Info>)
    requires n <= 6
    requires m.Some? ==> n <= |m.value.groups| && DigitGroups(m.value.groups)
  {
    match m
    case None => None
    case Some(f) => Some(Padded(f, n))
  }

  /** `parse_file_info_from_filename(f_name, dataset)`: `Ok(None)` when the
      name does not fit the dataset's pattern or the dataset is unknown; an
      error when an ElderAL path has fewer than five `/`-separated parts. */
  function ParseFileInfo(fName: string, dataset: string): (r: Result<Option<Info>>)
    ensures r.Ok? && r.value.Some? ==> |r.value.value| == 6
    ensures r.Err? <==> dataset == "elderAL" && |Split(fName, '/')| <= 4
    ensures dataset !in KnownDatasets ==> r == Ok(None)
  {
    if dataset == "widar" then
      WidarPatternOk();
      Ok(Extract(ReMatch(WidarPattern, ParseBase(fName), false), 6))
    else if dataset == "gait" then
      GaitPatternOk();
      Ok(Extract(ReSearch(GaitPattern, ParseBase(fName), true), 3))
    else if dataset == "xrf55" then
      XrfPatternOk();
      Ok(Extract(ReSearch(XrfPattern, ParseBase(fName), false), 2))
    else if dataset == "elderAL" then
      var parts := Split(fName, '/');
      if |parts| <= 4 then Err("IndexError: list index out of range")
      else
        ElderPatternOk();
        Ok(Extract(ReSearch(ElderPattern, parts[4], false), 3))
    else Ok(None)
  }

  /** Where `selector` takes the label and the group from the tuple. */
  function Columns(dataset: string): (c: Option<(nat, nat)>)
    ensures c.Some? <==> dataset in KnownDatasets
    ensures c.Some? ==> c.value.0 < 3 && c.value.1 < 3 && c.value.0 != c.value.1
  {
    if dataset == "widar" then Some((1, 2))
    else if dataset == "gait" then Some((0, 1))
    else if dataset == "xrf55" then Some((1, 0))
    else if dataset == "elderAL" then Some((2, 1))
    else None
  }

  /** `selector(res, dataset)`: `(int(res[l]), int(res[g]))`; subscripting
      a missing tuple or converting a `None` entry raises. */
  function Select(res: Option<Info>, dataset: string): (r: Result<(Option<int>, Option<int>)>)
    ensures dataset !in KnownDatasets ==> r == Ok((None, None))
    ensures dataset in KnownDatasets && res.None? ==> r.Err?
    ensures r.Ok? && dataset in KnownDatasets ==>
              r.value.0.Some? && r.value.1.Some? && res.Some?
              && r.value.0 in res.value && r.value.1 in res.value
  {
    match Columns(dataset)
    case None => Ok((None, None))
    case Some((l, g)) =>
      match res
      case None => Err("TypeError: 'NoneType' object is not subscriptable")
      case Some(info) =>
        if l >= |info| || g >= |info| then Err("IndexError: tuple index out of range")
        else if info[l].None? || info[g].None? then Err("TypeError: int() argument must be a string, a bytes-like object or a real number, not 'NoneType'")
        else Ok((info[l], info[g]))
  }

  /** The label and group of a capture: parsing then selecting. */
  function LabelOf(fName: string, dataset: string): (r: Result<(Option<int>, Option<int>)>)
    ensures dataset !in KnownDatasets ==> r == Ok((None, None))
    ensures dataset in KnownDatasets && ParseFileInfo(fName, dataset) == Ok(None) ==> r.Err?
    ensures r.Ok? && dataset in KnownDatasets ==> r.value.0.Some? && r.value.1.Some?
  {
    match ParseFileInfo(fName, dataset)
    case Err(e) => Err(e)
    case Ok(res) => Select(res, dataset)
  }

  // Names written by the datasets' conventions parse back to their values.

  /** `dir/<name>.<ext>`, with `name` the template filled with `vals`. */
  function NamedPath(dir: string, t: string, vals: seq<nat>, ext: string): string
  {
    dir + "/" + Format(t, 0, vals) + "." + ext
  }

  /** The tuple holding `vals`, then `None` up to six entries. */
  function Tuple(vals: seq<nat>): (info: Info)
    requires |vals| <= 6
    ensures |info| == 6
    ensures forall k :: 0 <= k < 6 ==> info[k] == if k < |vals| then Some(vals[k] as int) else None
  {
    seq(6, k requires 0 <= k < 6 => if k < |vals| then Some(vals[k] as int) else None)
  }

  /** A Widar capture named `user<a>-<b>-<c>-<d>-<e>-r<f>.<ext>` parses to
      the six numbers and is labelled by the gesture `b`, grouped by the
      torso position `c`. */
  lemma {:induction false} WidarName(dir: string, vals: seq<nat>, ext: string)
    requires |vals| == 6 && '.' !in ext && '/' !in ext
    ensures ParseFileInfo(NamedPath(dir, WidarTemplate, vals, ext), "widar") == Ok(Some(Tuple(vals)))
    ensures LabelOf(NamedPath(dir, WidarTemplate, vals, ext), "widar") == Ok((Some(vals[1] as int), Some(vals[2] as int)))
  {
    WidarInfo(dir, vals, ext);
    var info := Tuple(vals);
    assert Columns("widar") == Some((1, 2));
    LabelOfInfo(NamedPath(dir, WidarTemplate, vals, ext), "widar", info);
  }

  lemma {:induction false} WidarInfo(dir: string, vals: seq<nat>, ext: string)
    requires |vals| == 6 && '.' !in ext && '/' !in ext
    ensures ParseFileInfo(NamedPath(dir, WidarTemplate, vals, ext), "widar") == Ok(Some(Tuple(vals)))
  {
    var path := NamedPath(dir, WidarTemplate, vals, ext);
    WidarPatternOk();
    PlainName(WidarTemplate);
    NamedFound(dir, WidarTemplate, WidarPattern, vals, ext, false);
    WidarFound(path, |Format(WidarTemplate, 0, vals)|, vals);
  }

  lemma {:induction false} WidarFound(path: string, len: nat, vals: seq<nat>)
    requires |vals| == 6 && ReMatch(WidarPattern, ParseBase(path), false) == Some(Found(0, len, Shown(vals)))
    ensures ParseFileInfo(path, "widar") == Ok(Some(Tuple(vals)))
  {
    WidarUnfold(path);
    ShownValues(Found(0, len, Shown(vals)), vals, 6);
  }

  /** A Gait capture named `user<a>-<b>-<c>-r<d>.<ext>` parses to `a`,
      `b`, `c` and is labelled by the user `a`, grouped by the track `b`.
      `GaitNameAnyCase` extends this to the letters in any case. */
  lemma {:induction false} GaitName(dir: string, vals: seq<nat>, ext: string)
    requires |vals| == 4 && '.' !in ext && '/' !in ext
    ensures ParseFileInfo(NamedPath(dir, GaitTemplate, vals, ext), "gait") == Ok(Some(Tuple(vals[..3])))
    ensures LabelOf(NamedPath(dir, GaitTemplate, vals, ext), "gait") == Ok((Some(vals[0] as int), Some(vals[1] as int)))
  {
    GaitInfo(dir, vals, ext);
    var info := Tuple(vals[..3]);
    assert Columns("gait") == Some((0, 1));
    LabelOfInfo(NamedPath(dir, GaitTemplate, vals, ext), "gait", info);
  }

  lemma {:induction false} GaitInfo(dir: string, vals: seq<nat>, ext: string)
    requires |vals| == 4 && '.' !in ext && '/' !in ext
    ensures ParseFileInfo(NamedPath(dir, GaitTemplate, vals, ext), "gait") == Ok(Some(Tuple(vals[..3])))
  {
    var path := NamedPath(dir, GaitTemplate, vals, ext);
    GaitPatternOk();
    PlainName(GaitTemplate);
    NamedFound(dir, GaitTemplate, GaitPattern, vals, ext, true);
    GaitFound(path, |Format(GaitTemplate, 0, vals)|, vals);
  }

  lemma {:induction false} GaitFound(path: string, len: nat, vals: seq<nat>)
    requires |vals| == 4 && ReSearch(GaitPattern, ParseBase(path), true) == Some(Found(0, len, Shown(vals)))
    ensures ParseFileInfo(path, "gait") == Ok(Some(Tuple(vals[..3])))
  {
    GaitUnfold(path);
    ShownValues(Found(0, len, Shown(vals)), vals, 3);
  }

  /** Gait names are searched case-insensitively: a name that agrees with
      `user<a>-<b>-<c>-r<d>` up to the case of its letters (`USER3-1-1-R1`,
      `User3-1-1-r1`, ...) parses and is labelled as the lower-case name. */
  lemma {:induction false} GaitNameAnyCase(dir: string, vals: seq<nat>, name: string, ext: string)
    requires |vals| == 4 && '.' !in ext && '/' !in ext
    requires FoldEq(name, Format(GaitTemplate, 0, vals))
    ensures ParseFileInfo(dir + "/" + name + "." + ext, "gait") == Ok(Some(Tuple(vals[..3])))
    ensures LabelOf(dir + "/" + name + "." + ext, "gait") == Ok((Some(vals[0] as int), Some(vals[1] as int)))
  {
    var path := dir + "/" + name + "." + ext;
    GaitAnyCaseInfo(dir, vals, name, ext);
    assert Columns("gait") == Some((0, 1));
    LabelOfInfo(path, "gait", Tuple(vals[..3]));
  }

  lemma {:induction false} GaitAnyCaseInfo(dir: string, vals: seq<nat>, name: string, ext: string)
    requires |vals| == 4 && '.' !in ext && '/' !in ext
    requires FoldEq(name, Format(GaitTemplate, 0, vals))
    ensures ParseFileInfo(dir + "/" + name + "." + ext, "gait") == Ok(Some(Tuple(vals[..3])))
  {
    var f := Format(GaitTemplate, 0, vals);
    var path := dir + "/" + name + "." + ext;
    GaitPatternOk();
    PlainName(GaitTemplate);
    FoldedBase(dir, GaitTemplate, vals, name, ext);
    ReSearchFold(GaitPattern, name, f);
    FoundWhole(GaitTemplate, vals, true);
    GaitFound(path, |f|, vals);
  }

  /** A name that folds like a formatted template is the base name of
      `dir/<name>.<ext>`. */
  lemma {:induction false} FoldedBase(dir: string, t: string, vals: seq<nat>, name: string, ext: string)
    requires Template(t, |vals|) && |t| > 0 && '.' !in t && '/' !in t
    requires '.' !in ext && '/' !in ext
    requires FoldEq(name, Format(t, 0, vals))
    ensures ParseBase(dir + "/" + name + "." + ext) == name
  {
    var f := Format(t, 0, vals);
    FormatAvoids(t, 0, vals, '.');
    FormatAvoids(t, 0, vals, '/');
    FormatHead(t, vals);
    FoldAvoids(name, f, '.');
    FoldAvoids(name, f, '/');
    var file := name + "." + ext;
    assert '/' !in file;
    assert dir + "/" + name + "." + ext == dir + "/" + file;
    BasenameOfChild(dir, file);
    StripLastExtension(name, ext);
  }

  /** An XRF55 capture named `<a>_<b>_.<ext>` parses to `a`, `b` and is
      labelled by the action `b`, grouped by the user `a`. */
  lemma {:induction false} XrfName(dir: string, vals: seq<nat>, ext: string)
    requires |vals| == 2 && '.' !in ext && '/' !in ext
    ensures ParseFileInfo(NamedPath(dir, XrfTemplate, vals, ext), "xrf55") == Ok(Some(Tuple(vals)))
    ensures LabelOf(NamedPath(dir, XrfTemplate, vals, ext), "xrf55") == Ok((Some(vals[1] as int), Some(vals[0] as int)))
  {
    XrfInfo(dir, vals, ext);
    var info := Tuple(vals);
    assert Columns("xrf55") == Some((1, 0));
    LabelOfInfo(NamedPath(dir, XrfTemplate, vals, ext), "xrf55", info);
  }

  lemma {:induction false} XrfInfo(dir: string, vals: seq<nat>, ext: string)
    requires |vals| == 2 && '.' !in ext && '/' !in ext
    ensures ParseFileInfo(NamedPath(dir, XrfTemplate, vals, ext), "xrf55") == Ok(Some(Tuple(vals)))
  {
    var path := NamedPath(dir, XrfTemplate, vals, ext);
    XrfPatternOk();
    PlainName(XrfTemplate);
    NamedFound(dir, XrfTemplate, XrfPattern, vals, ext, false);
    XrfFound(path, |Format(XrfTemplate, 0, vals)|, vals);
  }

  lemma {:induction false} XrfFound(path: string, len: nat, vals: seq<nat>)
    requires |vals| == 2 && ReSearch(XrfPattern, ParseBase(path), false) == Some(Found(0, len, Shown(vals)))
    ensures ParseFileInfo(path, "xrf55") == Ok(Some(Tuple(vals)))
  {
    XrfUnfold(path);
    ShownValues(Found(0, len, Shown(vals)), vals, 2);
  }

  /** An ElderAL path whose fifth `/`-separated part is
      `user<a>_position<b>_activity<c>` parses to `a`, `b`, `c` and is
      labelled by the activity `c`, grouped by the position `b`. */
  lemma {:induction false} ElderName(parts: seq<string>, vals: seq<nat>)
    requires |parts| >= 5 && |vals| == 3 && forall k :: 0 <= k < |parts| ==> '/' !in parts[k]
    requires parts[4] == Format(ElderTemplate, 0, vals)
    ensures ParseFileInfo(Join(parts, '/'), "elderAL") == Ok(Some(Tuple(vals)))
    ensures LabelOf(Join(parts, '/'), "elderAL") == Ok((Some(vals[2] as int), Some(vals[1] as int)))
  {
    ElderInfo(parts, vals);
    var info := Tuple(vals);
    assert Columns("elderAL") == Some((2, 1));
    LabelOfInfo(Join(parts, '/'), "elderAL", info);
  }

  lemma {:induction false} ElderInfo(parts: seq<string>, vals: seq<nat>)
    requires |parts| >= 5 && |vals| == 3 && forall k :: 0 <= k < |parts| ==> '/' !in parts[k]
    requires parts[4] == Format(ElderTemplate, 0, vals)
    ensures ParseFileInfo(Join(parts, '/'), "elderAL") == Ok(Some(Tuple(vals)))
  {
    var path := Join(parts, '/');
    ElderPatternOk();
    JoinSplit(parts, '/');
    FoundWhole(ElderTemplate, vals, false);
    var m := Found(0, |parts[4]|, Shown(vals));
    ShownValues(m, vals, 3);
    assert ParseFileInfo(path, "elderAL") == Ok(Some(Padded(m, 3)));
  }

  /** In a path `dir/<name>.<ext>` the pattern finds the whole formatted
      name, with the values' digits as its groups, whether matched at the
      start or searched. */
  lemma {:induction false} NamedFound(dir: string, t: string, pat: Pattern, vals: seq<nat>, ext: string, ic: bool)
    requires pat == Compile(t)
    requires Template(t, |vals|) && |t| > 0 && t[0] != '.' && '.' !in t && '/' !in t
    requires '.' !in ext && '/' !in ext
    ensures var name := Format(t, 0, vals);
            var base := ParseBase(NamedPath(dir, t, vals, ext));
            ReMatch(pat, base, ic) == Some(Found(0, |name|, Shown(vals)))
            && ReSearch(pat, base, ic) == Some(Found(0, |name|, Shown(vals)))
  {
    NamedBase(dir, t, vals, ext);
    FoundWhole(t, vals, ic);
  }

  /** The template starts with neither `.` nor `/` and has neither. */
  lemma {:induction false} PlainName(t: string)
    requires t == WidarTemplate || t == GaitTemplate || t == XrfTemplate
    ensures |t| > 0 && t[0] != '.' && '.' !in t && '/' !in t
  {
  }

  /** The tuple whose first `n` entries are `int()` of the first `n` group
      texts, the others `None`. */
  function Values(caps: seq<string>, n: nat): (info: Info)
    ensures |info| == 6
  {
    seq(6, k requires 0 <= k < 6 => if k < n && k < |caps| then ParseInt(caps[k]) else None)
  }

  lemma {:induction false} PaddedValues(m: Found, n: nat)
    requires n <= 6 && n <= |m.groups| && DigitGroups(m.groups)
    ensures Padded(m, n) == Values(m.groups, n)
  {
  }

  /** Widar: the tuple exists exactly when the pattern fits at the start of
      the base name, and then holds the integers of the greedy fit's six
      groups. */
  lemma {:induction false} ParseWidar(path: string, e: nat, caps: seq<string>)
    ensures ParseFileInfo(path, "widar").Ok?
    ensures ParseFileInfo(path, "widar").value.Some? <==>
              exists e': nat, caps': seq<string> :: Matches(WidarPattern, ParseBase(path), 0, e', caps', false)
    ensures Greedy(WidarPattern, ParseBase(path), 0, e, caps, false) ==>
              ParseFileInfo(path, "widar") == Ok(Some(Values(caps, 6)))
  {
    var base := ParseBase(path);
    WidarUnfold(path);
    WidarPatternOk();
    ReMatchGreedy(WidarPattern, base, false);
    var r := ReMatch(WidarPattern, base, false);
    if r.Some? {
      PaddedValues(r.value, 6);
      if Greedy(WidarPattern, base, 0, e, caps, false) {
        GreedyUnique(WidarPattern, base, 0, r.value.end, r.value.groups, e, caps, false);
      }
    }
  }

  /** Gait: the tuple exists exactly when the pattern fits somewhere in the
      base name, letters in any case, and then holds the integers of the
      first three groups of the leftmost greedy fit. */
  lemma {:induction false} ParseGait(path: string, j: nat, e: nat, caps: seq<string>)
    ensures ParseFileInfo(path, "gait").Ok?
    ensures ParseFileInfo(path, "gait").value.Some? <==>
              exists j': nat, e': nat, caps': seq<string> ::
                j' <= |ParseBase(path)| && Matches(GaitPattern, ParseBase(path), j', e', caps', true)
    ensures Leftmost(GaitPattern, ParseBase(path), j, e, caps, true) ==>
              ParseFileInfo(path, "gait") == Ok(Some(Values(caps, 3)))
  {
    var base := ParseBase(path);
    GaitUnfold(path);
    GaitPatternOk();
    SearchedValues(GaitPattern, base, j, e, caps, true, 3);
  }

  /** XRF55: as for Gait, with case-sensitive letters and two groups. */
  lemma {:induction false} ParseXrf(path: string, j: nat, e: nat, caps: seq<string>)
    ensures ParseFileInfo(path, "xrf55").Ok?
    ensures ParseFileInfo(path, "xrf55").value.Some? <==>
              exists j': nat, e': nat, caps': seq<string> ::
                j' <= |ParseBase(path)| && Matches(XrfPattern, ParseBase(path), j', e', caps', false)
    ensures Leftmost(XrfPattern, ParseBase(path), j, e, caps, false) ==>
              ParseFileInfo(path, "xrf55") == Ok(Some(Values(caps, 2)))
  {
    var base := ParseBase(path);
    XrfUnfold(path);
    XrfPatternOk();
    SearchedValues(XrfPattern, base, j, e, caps, false, 2);
  }

  /** ElderAL: with at least five `/`-separated parts, as for XRF55 on the
      fifth part, with three groups. */
  lemma {:induction false} ParseElder(path: string, j: nat, e: nat, caps: seq<string>)
    requires |Split(path, '/')| > 4
    ensures ParseFileInfo(path, "elderAL").Ok?
    ensures ParseFileInfo(path, "elderAL").value.Some? <==>
              exists j': nat, e': nat, caps': seq<string> ::
                j' <= |Split(path, '/')[4]| && Matches(ElderPattern, Split(path, '/')[4], j', e', caps', false)
    ensures Leftmost(ElderPattern, Split(path, '/')[4], j, e, caps, false) ==>
              ParseFileInfo(path, "elderAL") == Ok(Some(Values(caps, 3)))
  {
    ElderUnfold(path);
    ElderPatternOk();
    SearchedValues(ElderPattern, Split(path, '/')[4], j, e, caps, false, 3);
  }

  /** `Extract` of a search is the tuple of the leftmost greedy fit. */
  lemma {:induction false} SearchedValues(pat: Pattern, s: string, j: nat, e: nat, caps: seq<string>, ic: bool, n: nat)
    requires WellFormed(pat) && n <= Groups(pat) && n <= 6
    ensures var x := Extract(ReSearch(pat, s, ic), n);
            && (x.Some? <==> exists j': nat, e': nat, caps': seq<string> :: j' <= |s| && Matches(pat, s, j', e', caps', ic))
            && (Leftmost(pat, s, j, e, caps, ic) ==> x == Some(Values(caps, n)))
  {
    ReSearchLeftmost(pat, s, ic);
    var r := ReSearch(pat, s, ic);
    if r.Some? {
      PaddedValues(r.value, n);
      if Leftmost(pat, s, j, e, caps, ic) {
        LeftmostUnique(pat, s, r.value.start, r.value.end, r.value.groups, j, e, caps, ic);
      }
    }
  }

  /** Each dataset's branch of `ParseFileInfo`, unfolded. */
  lemma {:induction false} WidarUnfold(path: string)
    ensures Groups(WidarPattern) == 6
    ensures ParseFileInfo(path, "widar") == Ok(Extract(ReMatch(WidarPattern, ParseBase(path), false), 6))
  {
    WidarPatternOk();
  }

  lemma {:induction false} GaitUnfold(path: string)
    ensures Groups(GaitPattern) == 4
    ensures ParseFileInfo(path, "gait") == Ok(Extract(ReSearch(GaitPattern, ParseBase(path), true), 3))
  {
    GaitPatternOk();
  }

  lemma {:induction false} XrfUnfold(path: string)
    ensures Groups(XrfPattern) == 2
    ensures ParseFileInfo(path, "xrf55") == Ok(Extract(ReSearch(XrfPattern, ParseBase(path), false), 2))
  {
    XrfPatternOk();
  }

  /** A formatted name is found whole, with the values' digits as its
      groups, whether matched at the start or searched. */
  lemma {:induction false} FoundWhole(t: string, vals: seq<nat>, ic: bool)
    requires Template(t, |vals|)
    ensures var name := Format(t, 0, vals);
            ReMatch(Compile(t), name, ic) == Some(Found(0, |name|, Shown(vals)))
            && ReSearch(Compile(t), name, ic) == Some(Found(0, |name|, Shown(vals)))
  {
    FormatRoundTrip(t, vals, ic);
  }

  /** Once the tuple is known, the label and group are its selected
      entries. */
  lemma {:induction false} LabelOfInfo(path: string, dataset: string, info: Info)
    requires ParseFileInfo(path, dataset) == Ok(Some(info)) && Columns(dataset).Some?
    requires Columns(dataset).value.0 < |info| && Columns(dataset).value.1 < |info|
    requires info[Columns(dataset).value.0].Some? && info[Columns(dataset).value.1].Some?
    ensures LabelOf(path, dataset) == Ok((info[Columns(dataset).value.0], info[Columns(dataset).value.1]))
  {
    var r := ParseFileInfo(path, dataset);
    assert LabelOf(path, dataset) == Select(r.value, dataset);
    SelectInfo(info, dataset);
  }

  lemma {:induction false} SelectInfo(info: Info, dataset: string)
    requires Columns(dataset).Some?
    requires Columns(dataset).value.0 < |info| && Columns(dataset).value.1 < |info|
    requires info[Columns(dataset).value.0].Some? && info[Columns(dataset).value.1].Some?
    ensures Select(Some(info), dataset) == Ok((info[Columns(dataset).value.0], info[Columns(dataset).value.1]))
  {
  }

  /** The groups of a match on a formatted name give back the values. */
  lemma {:induction false} ShownValues(m: Found, vals: seq<nat>, n: nat)
    requires m.groups == Shown(vals) && n <= 6 && n <= |vals|
    ensures DigitGroups(m.groups)
    ensures forall k :: 0 <= k < n ==> Padded(m, n)[k] == Some(vals[k] as int)
    ensures Padded(m, n) == Tuple(vals[..n])
    ensures n == |vals| ==> Padded(m, n) == Tuple(vals)
  {
    assert n == |vals| ==> vals[..n] == vals;
    forall k | 0 <= k < |m.groups| ensures |m.groups[k]| > 0 && AllDigits(m.groups[k])
    {
      assert m.groups[k] == ShowNat(vals[k]);
    }
    var p := Padded(m, n);
    var q := Tuple(vals[..n]);
    forall k | 0 <= k < 6 ensures p[k] == q[k]
    {
      if k < n {
        assert p[k] == Some(GroupValue(m, k) as int);
        assert m.groups[k] == ShowNat(vals[k]);
        ShowNatValue(vals[k]);
      }
    }
    assert p == q;
  }

  /** The base of a path `dir/<name>.<ext>` is the formatted name. */
  lemma {:induction false} NamedBase(dir: string, t: string, vals: seq<nat>, ext: string)
    requires Template(t, |vals|) && |t| > 0 && t[0] != '.' && '.' !in t && '/' !in t
    requires '.' !in ext && '/' !in ext
    ensures ParseBase(NamedPath(dir, t, vals, ext)) == Format(t, 0, vals)
  {
    var name := Format(t, 0, vals);
    FormatAvoids(t, 0, vals, '.');
    FormatAvoids(t, 0, vals, '/');
    FormatHead(t, vals);
    var file := name + "." + ext;
    assert '/' !in file;
    assert NamedPath(dir, t, vals, ext) == dir + "/" + file;
    BasenameOfChild(dir, file);
    StripLastExtension(name, ext);
  }

  /** A template character other than `#` and the digits never shows up in
      the formatted text unless the template has it. */
  lemma {:induction false} FormatAvoids(t: string, i: nat, vals: seq<nat>, c: char)
    requires c != '#' && !IsDigit(c) && forall k :: i <= k < |t| ==> t[k] != c
    ensures c !in Format(t, i, vals)
    decreases |t| - i
  {
    if i < |t| {
      if t[i] == '#' && |vals| > 0 {
        FormatAvoids(t, i + 1, vals[1..], c);
        assert c !in ShowNat(vals[0]);
      } else if t[i] == '#' {
        FormatAvoids(t, i + 1, [], c);
      } else {
        FormatAvoids(t, i + 1, vals, c);
      }
    }
  }

  /** A formatted text starts with the template's first character, or a
      digit when that is `#`. */
  lemma {:induction false} FormatHead(t: string, vals: seq<nat>)
    requires Template(t, |vals|) && |t| > 0
    ensures |Format(t, 0, vals)| > 0
    ensures Format(t, 0, vals)[0] == t[0] || IsDigit(Format(t, 0, vals)[0])
  {
    if t[0] == '#' {
      assert |vals| > 0;
      assert ShowNat(vals[0])[0] in ShowNat(vals[0]);
    }
  }

  lemma {:induction false} BasenameOfChild(dir: string, file: string)
    requires '/' !in file
    ensures Basename(dir + "/" + file) == file
  {
    var p := dir + "/" + file;
    assert p[|dir|] == '/';
    assert p[|dir| + 1..] == file;
  }

  lemma {:induction false} StripLastExtension(name: string, ext: string)
    requires '.' !in name && '.' !in ext && |name| > 0 && name[0] != '.'
    ensures StripExtension(name + "." + ext) == name
  {
    var b := name + "." + ext;
    assert b[|name|] == '.';
    assert b[..|name|] == name && b[|name| + 1..] == ext;
    assert !AllDots(name);
  }

  /** A known dataset yields no tuple only when its pattern fits nowhere
      it is looked for: at the start of the base for Widar, at any position
      for the others. */
  lemma {:induction false} NoInfoMeansNoFit(fName: string, dataset: string, j: nat, e: nat, caps: seq<string>)
    requires ParseFileInfo(fName, dataset) == Ok(None)
    ensures dataset == "widar" ==> !Matches(WidarPattern, ParseBase(fName), 0, e, caps, false)
    ensures dataset == "gait" && j <= |ParseBase(fName)| ==>
              !Matches(GaitPattern, ParseBase(fName), j, e, caps, true)
    ensures dataset == "xrf55" && j <= |ParseBase(fName)| ==>
              !Matches(XrfPattern, ParseBase(fName), j, e, caps, false)
    ensures dataset == "elderAL" ==> |Split(fName, '/')| > 4
    ensures dataset == "elderAL" && j <= |Split(fName, '/')[4]| ==>
              !Matches(ElderPattern, Split(fName, '/')[4], j, e, caps, false)
  {
    if dataset == "widar" {
      WidarNoFit(fName, e, caps);
    } else if dataset == "gait" {
      if j <= |ParseBase(fName)| { GaitNoFit(fName, j, e, caps); }
    } else if dataset == "xrf55" {
      if j <= |ParseBase(fName)| { XrfNoFit(fName, j, e, caps); }
    } else if dataset == "elderAL" {
      ElderNoFit(fName, j, e, caps);
    }
  }

  lemma {:induction false} WidarNoFit(fName: string, e: nat, caps: seq<string>)
    requires ParseFileInfo(fName, "widar") == Ok(None)
    ensures !Matches(WidarPattern, ParseBase(fName), 0, e, caps, false)
  {
    WidarUnfold(fName);
    WidarPatternOk();
    AnchoredNoFit(WidarPattern, ParseBase(fName), e, caps, false);
  }

  lemma {:induction false} GaitNoFit(fName: string, j: nat, e: nat, caps: seq<string>)
    requires ParseFileInfo(fName, "gait") == Ok(None) && j <= |ParseBase(fName)|
    ensures !Matches(GaitPattern, ParseBase(fName), j, e, caps, true)
  {
    GaitUnfold(fName);
    GaitPatternOk();
    SearchedNoFit(GaitPattern, ParseBase(fName), j, e, caps, true);
  }

  lemma {:induction false} XrfNoFit(fName: string, j: nat, e: nat, caps: seq<string>)
    requires ParseFileInfo(fName, "xrf55") == Ok(None) && j <= |ParseBase(fName)|
    ensures !Matches(XrfPattern, ParseBase(fName), j, e, caps, false)
  {
    XrfUnfold(fName);
    XrfPatternOk();
    SearchedNoFit(XrfPattern, ParseBase(fName), j, e, caps, false);
  }

  lemma {:induction false} ElderNoFit(fName: string, j: nat, e: nat, caps: seq<string>)
    requires ParseFileInfo(fName, "elderAL") == Ok(None)
    ensures |Split(fName, '/')| > 4
    ensures j <= |Split(fName, '/')[4]| ==> !Matches(ElderPattern, Split(fName, '/')[4], j, e, caps, false)
  {
    ElderUnfold(fName);
    ElderPatternOk();
    if j <= |Split(fName, '/')[4]| {
      SearchedNoFit(ElderPattern, Split(fName, '/')[4], j, e, caps, false);
    }
  }

  lemma {:induction false} ElderUnfold(path: string)
    ensures Groups(ElderPattern) == 3
    ensures |Split(path, '/')| > 4 ==>
              ParseFileInfo(path, "elderAL") == Ok(Extract(ReSearch(ElderPattern, Split(path, '/')[4], false), 3))
  {
    ElderPatternOk();
  }

  lemma {:induction false} AnchoredNoFit(pat: Pattern, s: string, e: nat, caps: seq<string>, ic: bool)
    requires WellFormed(pat) && ReMatch(pat, s, ic).None?
    ensures !Matches(pat, s, 0, e, caps, ic)
  {
    if Matches(pat, s, 0, e, caps, ic) {
      MatchAnchored(pat, s, e, caps, ic);
    }
  }

  lemma {:induction false} SearchedNoFit(pat: Pattern, s: string, j: nat, e: nat, caps: seq<string>, ic: bool)
    requires WellFormed(pat) && ReSearch(pat, s, ic).None?
    ensures j <= |s| ==> !Matches(pat, s, j, e, caps, ic)
  {
    if j <= |s| && Matches(pat, s, j, e, caps, ic) {
      SearchLeftmost(pat, s, j, e, caps, ic);
    }
  }

  // ---------------------------------------------------------------------
  // Frames to one array

  /** The sort key: the timestamp's numeric value. */
  function TimeKey(f: Frame): real
  {
    StampValue(f.timestamp)
  }

  function Arrays(fs: seq<Frame>): (xs: seq<Tensor>)
    ensures |xs| == |fs| && forall i :: 0 <= i < |fs| ==> xs[i] == fs[i].csi
  {
    seq(|fs|, i requires 0 <= i < |fs| => fs[i].csi)
  }

  /** Every frame holds a well-formed array of shape `s`. */
  predicate AllShaped(fs: seq<Frame>, s: seq<nat>)
  {
    forall i :: 0 <= i < |fs| ==> Valid(fs[i].csi) && fs[i].csi.shape == s
  }

  /** `x` is the frames' arrays stacked in the given order, with every
      extent-1 axis of the stacked shape removed: its elements are the
      frames' elements one frame after another. */
  ghost predicate Lays(x: Tensor, fs: seq<Frame>)
  {
    |fs| > 0 && AllShaped(fs, fs[0].csi.shape)
    && x.shape == RemoveOnes([|fs|] + fs[0].csi.shape)
    && x.data == Concat(Layers(Arrays(fs)))
  }

  /** `np.stack(...).squeeze()` over the frames: `Ok(None)` when there are
      none, an error when their arrays differ in shape. */
  function StackFrames(fs: seq<Frame>): (r: Result<Option<Tensor>>)
    ensures r == Ok(None) <==> |fs| == 0
    ensures r.Err? <==> |fs| > 0 && !AllShaped(fs, fs[0].csi.shape)
    ensures r.Ok? && r.value.Some? ==> Valid(r.value.value) && Lays(r.value.value, fs)
  {
    if |fs| == 0 then Ok(None)
    else if !SameShape(Arrays(fs), fs[0].csi.shape) then
      Err("ValueError: all input arrays must have the same shape")
    else
      Ok(Some(Squeeze(Stack(Arrays(fs), fs[0].csi.shape))))
  }

  /** In a laid-out array, element `k` of frame `i` sits at flat position
      `i * p + k`, where `p` is the number of elements of one frame. */
  lemma {:induction false} LaysAt(x: Tensor, fs: seq<Frame>, i: nat, k: nat)
    requires Lays(x, fs) && i < |fs| && k < Prod(fs[0].csi.shape)
    ensures |x.data| == |fs| * Prod(fs[0].csi.shape)
    ensures i * Prod(fs[0].csi.shape) + k < |x.data|
    ensures x.data[i * Prod(fs[0].csi.shape) + k] == fs[i].csi.data[k]
  {
    var p := Prod(fs[0].csi.shape);
    assert Uniform(Layers(Arrays(fs)), p);
    ConcatLength(Layers(Arrays(fs)), p);
    ConcatAt(Layers(Arrays(fs)), p, i, k);
  }

  // ---------------------------------------------------------------------
  // One capture

  datatype Sample = Sample(csi: Tensor, classLabel: Option<int>, group: Option<int>)

  /** `_process_single_csi(d, dataset)`: label and group first, then the
      frames in timestamp order (a stable sort), stacked and squeezed.
      Fewer than three axes left gives no sample; more than three fail in
      the phase calibration's `T, F, A = shape`. */
  function ProcessSingle(d: CsiData, dataset: string, calibrate: Tensor -> Tensor, denoise: Tensor -> Tensor)
    : (r: Result<Option<Sample>>)
    ensures LabelOf(d.fileName, dataset).Err? ==> r.Err?
    ensures r.Ok? && r.value.Some? ==>
              var st := StackFrames(SortBy(d.frames, TimeKey));
              st.Ok? && st.value.Some? && |st.value.value.shape| == 3
              && Lays(st.value.value, SortBy(d.frames, TimeKey))
              && r.value.value.csi == denoise(calibrate(st.value.value))
              && LabelOf(d.fileName, dataset) == Ok((r.value.value.classLabel, r.value.value.group))
    ensures r == Ok(None) <==>
              LabelOf(d.fileName, dataset).Ok?
              && (|d.frames| == 0
                  || (StackFrames(SortBy(d.frames, TimeKey)).Ok?
                      && |StackFrames(SortBy(d.frames, TimeKey)).value.value.shape| < 3))
  {
    match LabelOf(d.fileName, dataset)
    case Err(e) => Err(e)
    case Ok((lab, grp)) =>
      match StackFrames(SortBy(d.frames, TimeKey))
      case Err(e) => Err(e)
      case Ok(None) => Ok(None)
      case Ok(Some(x)) =>
        if |x.shape| < 3 then Ok(None)
        else if |x.shape| > 3 then Err("ValueError: too many values to unpack (expected 3)")
        else Ok(Some(Sample(denoise(calibrate(x)), lab, grp)))
  }

  // ---------------------------------------------------------------------
  // All captures

  /** The three parallel lists `process` returns. */
  datatype Batch = Batch(samples: seq<Tensor>, labels: seq<Option<int>>, groups: seq<Option<int>>)

  /** The loop over the per-capture results, in input order: a sample is
      appended to all three lists, a missing one is skipped, and the first
      failure ends the loop. */
  function Collect(outs: seq<Result<Option<Sample>>>): (r: Result<Batch>)
    ensures r.Ok? ==> |r.value.samples| == |r.value.labels| == |r.value.groups| <= |outs|
    ensures r.Ok? <==> forall i :: 0 <= i < |outs| ==> outs[i].Ok?
    ensures r.Err? ==> exists i :: 0 <= i < |outs| && outs[i] == Err(r.msg) &&
                                   forall j :: 0 <= j < i ==> outs[j].Ok?
  {
    if |outs| == 0 then Ok(Batch([], [], []))
    else
      match outs[0]
      case Err(e) => Err(e)
      case Ok(out) =>
        match Collect(outs[1..])
        case Err(e) => Err(e)
        case Ok(rest) =>
          match out
          case None => Ok(rest)
          case Some(s) => Ok(Push(s, rest))
  }

  /** The batch with one more sample in front. */
  function Push(s: Sample, b: Batch): Batch
  {
    Batch([s.csi] + b.samples, [s.classLabel] + b.labels, [s.group] + b.groups)
  }

  /** The per-capture results, in input order (`executor.map`). */
  function Outcomes(ds: seq<CsiData>, dataset: string, calibrate: Tensor -> Tensor, denoise: Tensor -> Tensor)
    : (outs: seq<Result<Option<Sample>>>)
    ensures |outs| == |ds|
    ensures forall i :: 0 <= i < |ds| ==> outs[i] == ProcessSingle(ds[i], dataset, calibrate, denoise)
  {
    seq(|ds|, i requires 0 <= i < |ds| => ProcessSingle(ds[i], dataset, calibrate, denoise))
  }

  /** `BaseProcessor.process`: the samples of the captures that give one,
      in input order, as three parallel lists; a failing capture makes the
      whole call fail. */
  function Process(ds: seq<CsiData>, dataset: string, calibrate: Tensor -> Tensor, denoise: Tensor -> Tensor)
    : (r: Result<Batch>)
    ensures r.Ok? ==> |r.value.samples| == |r.value.labels| == |r.value.groups| <= |ds|
    ensures r.Ok? <==> forall i :: 0 <= i < |ds| ==> ProcessSingle(ds[i], dataset, calibrate, denoise).Ok?
    ensures r.Err? ==> exists i :: 0 <= i < |ds| && ProcessSingle(ds[i], dataset, calibrate, denoise) == Err(r.msg) &&
                                   forall j :: 0 <= j < i ==> ProcessSingle(ds[j], dataset, calibrate, denoise).Ok?
  {
    var outs := Outcomes(ds, dataset, calibrate, denoise);
    var r := Collect(outs);
    assert r.Err? ==> exists i :: 0 <= i < |outs| && outs[i] == Err(r.msg) &&
                                  forall j :: 0 <= j < i ==> outs[j].Ok?;
    r
  }

  function JoinBatch(a: Batch, b: Batch): Batch
  {
    Batch(a.samples + b.samples, a.labels + b.labels, a.groups + b.groups)
  }

  /** Collecting two runs of results one after the other is collecting
      them together: with the one-result case below this makes the loop an
      order-keeping filter. */
  lemma {:induction false} CollectAppend(a: seq<Result<Option<Sample>>>, b: seq<Result<Option<Sample>>>)
    requires Collect(a).Ok? && Collect(b).Ok?
    ensures Collect(a + b) == Ok(JoinBatch(Collect(a).value, Collect(b).value))
    decreases |a|
  {
    var y := Collect(b).value;
    if |a| == 0 {
      assert a + b == b;
      assert [] + y.samples == y.samples && [] + y.labels == y.labels && [] + y.groups == y.groups;
    } else {
      var o, tail := a[0], a[1..];
      assert a == [o] + tail && a + b == [o] + (tail + b);
      CollectCons(o, tail);
      CollectAppend(tail, b);
      CollectCons(o, tail + b);
      var x := Collect(tail).value;
      if o.value.Some? {
        PushJoin(o.value.value, x, y);
      }
    }
  }

  lemma {:induction false} CollectCons(o: Result<Option<Sample>>, rest: seq<Result<Option<Sample>>>)
    requires o.Ok? && Collect(rest).Ok?
    ensures Collect([o] + rest)
            == Ok(if o.value.None? then Collect(rest).value else Push(o.value.value, Collect(rest).value))
  {
    assert ([o] + rest)[0] == o && ([o] + rest)[1..] == rest;
  }

  lemma {:induction false} PushJoin(s: Sample, x: Batch, y: Batch)
    ensures JoinBatch(Push(s, x), y) == Push(s, JoinBatch(x, y))
  {
    assert [s.csi] + (x.samples + y.samples) == ([s.csi] + x.samples) + y.samples;
    assert [s.classLabel] + (x.labels + y.labels) == ([s.classLabel] + x.labels) + y.labels;
    assert [s.group] + (x.groups + y.groups) == ([s.group] + x.groups) + y.groups;
  }

  /** One result contributes its sample, or nothing when it has none. */
  lemma {:induction false} CollectOne(out: Option<Sample>)
    ensures Collect([Ok(out)])
            == if out.None? then Ok(Batch([], [], []))
               else Ok(Batch([out.value.csi], [out.value.classLabel], [out.value.group]))
  {
    var l := [Ok(out)];
    assert l[1..] == [];
    if out.Some? {
      var sm := out.value;
      assert [sm.csi] + [] == [sm.csi] && [sm.classLabel] + [] == [sm.classLabel] && [sm.group] + [] == [sm.group];
    }
  }
}

=== FILE: readers.dfy ===
/** Choosing a reader for a dataset and loading a whole directory with it:
    the registry of readers, the discovery of data files, the capture of
    each file's failure as a message and the folding of every file's
    captures into one list. The files are read by a pool of worker
    processes and their results arrive in any order; the model takes that
    completion order as a parameter. */
module Readers {
  import opened Wrappers
  import opened Bits
  import opened Tensors
  import opened Structure
  import Paths
  import BfeeReader
  import XrfReader
  import ElderReader

  /** The reader classes of the registry. */
  datatype ReaderKind = Bfee | Xrf | Elder

  /** `get_reader_class(dataset)`: the registry lookup, which raises
      `ValueError` for a name it does not hold. */
  function ReaderFor(dataset: string): (r: Result<ReaderKind>)
    ensures r.Ok? <==> dataset in {"widar", "gait", "xrf55", "elderAL"}
    ensures r == Ok(Bfee) <==> dataset == "widar" || dataset == "gait"
    ensures r == Ok(Xrf) <==> dataset == "xrf55"
    ensures r == Ok(Elder) <==> dataset == "elderAL"
    ensures r.Err? ==> r.msg == "ValueError: not supported dataset: " + dataset
  {
    if dataset == "widar" || dataset == "gait" then Ok(Bfee)
    else if dataset == "xrf55" then Ok(Xrf)
    else if dataset == "elderAL" then Ok(Elder)
    else Err("ValueError: not supported dataset: " + dataset)
  }

  /** One path found under the input directory, and whether it is a
      regular file. */
  datatype Found = Found(path: string, isFile: bool)

  /** A data file: a regular file whose own name does not contain `truth`. */
  predicate IsDataFile(f: Found)
  {
    f.isFile && !Paths.HasSubstring(Paths.Basename(f.path), "truth")
  }

  /** `[f for f in root.rglob("*") if f.is_file() and "truth" not in f.name]`
      over the paths the walk found, in the order it found them. */
  function DataFiles(found: seq<Found>): (fs: seq<Found>)
    ensures |fs| <= |found|
    ensures forall f :: f in fs <==> f in found && IsDataFile(f)
  {
    if |found| == 0 then []
    else
      var rest := DataFiles(found[1..]);
      assert found == [found[0]] + found[1..];
      if IsDataFile(found[0]) then [found[0]] + rest else rest
  }

  /** The filter keeps the walk's order: filtering a concatenation
      concatenates the filtered parts. */
  lemma {:induction false} DataFilesAppend(a: seq<Found>, b: seq<Found>)
    ensures DataFiles(a + b) == DataFiles(a) + DataFiles(b)
    decreases |a|
  {
    if |a| > 0 {
      var t := a[1..];
      assert (a + b)[0] == a[0] && (a + b)[1..] == t + b;
      DataFilesAppend(t, b);
      DataFilesCons(a);
      DataFilesCons(a + b);
      var x, y := DataFiles(t), DataFiles(b);
      assert [a[0]] + (x + y) == ([a[0]] + x) + y;
    } else {
      assert a + b == b;
    }
  }

  lemma {:induction false} DataFilesCons(a: seq<Found>)
    requires |a| > 0
    ensures DataFiles(a) == if IsDataFile(a[0]) then [a[0]] + DataFiles(a[1..]) else DataFiles(a[1..])
  {
  }

  /** Every data file is kept as often as the walk found it, and nothing
      else is kept. */
  lemma {:induction false} DataFilesCount(found: seq<Found>, f: Found)
    ensures multiset(DataFiles(found))[f] == if IsDataFile(f) then multiset(found)[f] else 0
    decreases |found|
  {
    if |found| > 0 {
      DataFilesCount(found[1..], f);
      assert found == [found[0]] + found[1..];
    }
  }

  /** What the readers see of one file: its bytes (bfee), the array
      `np.load` returns or `None` when the file has gone (XRF55) and the
      rows `csv.reader` yields (ElderAL). */
  datatype FileView = FileView(bytes: seq<byte>, loaded: Option<Tensor>, dtype: DType, rows: seq<seq<string>>)

  predicate ValidView(v: FileView)
  {
    v.loaded.Some? ==> Valid(v.loaded.value)
  }

  /** `reader.read_file(path)`: a capture list, a single capture, or the
      exception it raises. */
  function ReadWith(kind: ReaderKind, path: string, v: FileView): (r: Result<ReadOutput>)
    requires ValidView(v)
    ensures kind != Elder ==> r.Ok?
    ensures kind == Bfee ==> r.value.Single? && r.value.capture.fileName == Paths.Basename(path)
    ensures kind == Xrf ==> r.value.Many? && |r.value.captures| in {0, 3}
    ensures kind == Elder ==> r == ElderReader.ReadFile(path, v.rows)
  {
    match kind
    case Bfee => Ok(Single(BfeeReader.ReadFile(path, v.bytes)))
    case Xrf => Ok(Many(XrfReader.ReadFile(path, v.loaded, v.dtype)))
    case Elder => ElderReader.ReadFile(path, v.rows)
  }

  /** `str(e)` of an exception whose text is `Class: message`: the message
      without the class name. */
  function Describe(msg: string): (d: string)
    ensures |d| <= |msg|
  {
    if |msg| < 2 then msg
    else if msg[..2] == ": " then msg[2..]
    else Describe(msg[1..])
  }

  lemma {:induction false} DescribeNamed(cls: string, text: string)
    requires forall k :: 0 <= k < |cls| ==> cls[k] != ':'
    ensures Describe(cls + ": " + text) == text
  {
    var m := cls + ": " + text;
    if |cls| > 0 {
      assert m[..2][0] == cls[0];
      assert m[1..] == cls[1..] + ": " + text;
      DescribeNamed(cls[1..], text);
    } else {
      assert m[..2] == ": " && m[2..] == text;
    }
  }

  /** What a worker returns for one file: the file's name and either the
      data or the message of the exception the reader raised. */
  datatype Outcome = Outcome(name: string, data: Option<ReadOutput>, err: Option<string>)

  /** `_process_file(reader, path)`: never raises; the exception of a
      failed read becomes its message. */
  function ProcessFile(kind: ReaderKind, path: string, v: FileView): (o: Outcome)
    requires ValidView(v)
    ensures o.name == Paths.Basename(path)
    ensures o.data.Some? <==> o.err.None?
    ensures o.data.Some? <==> ReadWith(kind, path, v).Ok?
    ensures o.data.Some? ==> o.data.value == ReadWith(kind, path, v).value
    ensures o.err.Some? ==> o.err.value == Describe(ReadWith(kind, path, v).msg)
  {
    match ReadWith(kind, path, v)
    case Ok(d) => Outcome(Paths.Basename(path), Some(d), None)
    case Err(e) => Outcome(Paths.Basename(path), None, Some(Describe(e)))
  }

  /** What one outcome adds to the result list: every capture of a list,
      the one capture of a single result, nothing for a failure. */
  function Contribution(o: Outcome): (cs: seq<CsiData>)
    ensures o.data.None? ==> cs == []
    ensures o.data.Some? && o.data.value.Single? ==> cs == [o.data.value.capture]
    ensures o.data.Some? && o.data.value.Many? ==> cs == o.data.value.captures
  {
    match o.data
    case None => []
    case Some(Single(c)) => [c]
    case Some(Many(cs)) => cs
  }

  /** The captures of the files in the order their workers complete: the
      contribution of file `order[0]`, then of `order[1]`, and so on. */
  function Gather(parts: seq<seq<CsiData>>, order: seq<nat>): (r: seq<CsiData>)
    requires forall k :: 0 <= k < |order| ==> order[k] < |parts|
    ensures forall c :: c in r ==> exists k :: 0 <= k < |order| && c in parts[order[k]]
  {
    if |order| == 0 then []
    else
      var rest := Gather(parts, order[1..]);
      assert forall k :: 0 <= k < |order[1..]| ==> order[1..][k] == order[k + 1];
      parts[order[0]] + rest
  }

  lemma {:induction false} GatherAppend(parts: seq<seq<CsiData>>, a: seq<nat>, b: seq<nat>)
    requires forall k :: 0 <= k < |a| ==> a[k] < |parts|
    requires forall k :: 0 <= k < |b| ==> b[k] < |parts|
    ensures forall k :: 0 <= k < |a + b| ==> (a + b)[k] < |parts|
    ensures Gather(parts, a + b) == Gather(parts, a) + Gather(parts, b)
  {
    if |a| > 0 {
      assert (a + b)[0] == a[0];
      assert (a + b)[1..] == a[1..] + b;
      GatherAppend(parts, a[1..], b);
    } else {
      assert a + b == b;
    }
  }

  /** Two completion orders that visit the same files the same number of
      times gather the same captures, as a multiset. */
  lemma {:induction false} GatherReordered(parts: seq<seq<CsiData>>, o1: seq<nat>, o2: seq<nat>)
    requires forall k :: 0 <= k < |o1| ==> o1[k] < |parts|
    requires multiset(o1) == multiset(o2)
    ensures forall k :: 0 <= k < |o2| ==> o2[k] < |parts|
    ensures multiset(Gather(parts, o1)) == multiset(Gather(parts, o2))
    decreases |o1|
  {
    forall k | 0 <= k < |o2| ensures o2[k] < |parts| {
      assert o2[k] in multiset(o1);
    }
    if |o1| > 0 {
      var x := o1[0];
      assert x in multiset(o2);
      var i :| 0 <= i < |o2| && o2[i] == x;
      var pre, post := o2[..i], o2[i + 1..];
      assert o2 == pre + [x] + post;
      DropOne(o1, pre, x, post);
      GatherReordered(parts, o1[1..], pre + post);
      GatherSplit(parts, pre, x, post);
      assert o1 == [x] + o1[1..];
    }
  }

  /** Taking the same element out of two orderings of one multiset leaves
      two orderings of one multiset. */
  lemma {:induction false} DropOne(o1: seq<nat>, pre: seq<nat>, x: nat, post: seq<nat>)
    requires |o1| > 0 && o1[0] == x && multiset(o1) == multiset(pre + [x] + post)
    ensures multiset(o1[1..]) == multiset(pre + post)
  {
    assert o1 == [x] + o1[1..];
    assert multiset(o1[1..]) == multiset(o1) - multiset{x};
    assert multiset(pre + [x] + post) == multiset(pre) + multiset{x} + multiset(post);
  }

  /** The contribution of a file visited in the middle of an order counts
      as much as one visited first. */
  lemma {:induction false} GatherSplit(parts: seq<seq<CsiData>>, pre: seq<nat>, x: nat, post: seq<nat>)
    requires x < |parts|
    requires forall k :: 0 <= k < |pre| ==> pre[k] < |parts|
    requires forall k :: 0 <= k < |post| ==> post[k] < |parts|
    ensures forall k :: 0 <= k < |pre + [x] + post| ==> (pre + [x] + post)[k] < |parts|
    ensures forall k :: 0 <= k < |pre + post| ==> (pre + post)[k] < |parts|
    ensures multiset(Gather(parts, pre + [x] + post)) ==
            multiset(parts[x]) + multiset(Gather(parts, pre + post))
  {
    assert pre + [x] + post == pre + ([x] + post);
    GatherAppend(parts, pre, [x] + post);
    GatherAppend(parts, [x], post);
    GatherAppend(parts, pre, post);
    assert Gather(parts, [x]) == parts[x] by { assert [x][1..] == []; }
  }

  /** `range(n)`: the files in discovery order. */
  function Range(n: nat): (r: seq<nat>)
    ensures |r| == n && forall k :: 0 <= k < n ==> r[k] == k
  {
    seq(n, k requires 0 <= k < n => k)
  }

  /** A completion order of `n` files: every file exactly once. */
  predicate IsOrder(order: seq<nat>, n: nat)
  {
    multiset(order) == multiset(Range(n))
  }

  /** Every file's worker outcome, in discovery order. */
  function Outcomes(kind: ReaderKind, files: seq<Found>, views: string -> FileView): (os: seq<Outcome>)
    requires forall k :: 0 <= k < |files| ==> ValidView(views(files[k].path))
    ensures |os| == |files|
    ensures forall k :: 0 <= k < |files| ==> os[k] == ProcessFile(kind, files[k].path, views(files[k].path))
  {
    seq(|files|, k requires 0 <= k < |files| => ProcessFile(kind, files[k].path, views(files[k].path)))
  }

  function Contributions(os: seq<Outcome>): (parts: seq<seq<CsiData>>)
    ensures |parts| == |os| && forall k :: 0 <= k < |os| ==> parts[k] == Contribution(os[k])
  {
    seq(|os|, k requires 0 <= k < |os| => Contribution(os[k]))
  }

  /** `load_data(root, dataset)`. The checks run in `load_data`'s order: a
      path that is not a directory raises `ValueError`; a directory without
      data files raises `OSError` (the source raises `IOError`, which Python 3
      names `OSError`); only then is the dataset looked up.
      `found` is what the recursive walk finds, `views` what each reader
      sees of a file, `order` the order in which the workers finish. */
  function LoadData(root: string, isDir: bool, found: seq<Found>, dataset: string,
                    views: string -> FileView, order: seq<nat>): (r: Result<seq<CsiData>>)
    requires forall f :: f in found ==> ValidView(views(f.path))
    requires IsOrder(order, |DataFiles(found)|)
    ensures !isDir ==> r == Err("ValueError: invalid file path: " + root)
    ensures isDir && |DataFiles(found)| == 0 ==> r == Err("OSError: no file in folder: " + root)
    ensures isDir && |DataFiles(found)| > 0 && ReaderFor(dataset).Err? ==> r == Err(ReaderFor(dataset).msg)
    ensures r.Ok? <==> isDir && |DataFiles(found)| > 0 && ReaderFor(dataset).Ok?
  {
    var files := DataFiles(found);
    if !isDir then Err("ValueError: invalid file path: " + root)
    else if |files| == 0 then Err("OSError: no file in folder: " + root)
    else match ReaderFor(dataset)
      case Err(e) => Err(e)
      case Ok(kind) =>
        assert forall k :: 0 <= k < |files| ==> files[k] in found;
        var parts := Contributions(Outcomes(kind, files, views));
        forall k | 0 <= k < |order| ensures order[k] < |parts| {
          assert order[k] in multiset(Range(|files|));
        }
        Ok(Gather(parts, order))
  }

  /** The captures of a successful load, as a multiset, are those of every
      data file's contribution taken in discovery order: the completion
      order does not matter. */
  lemma {:induction false} LoadDataOrderFree(root: string, isDir: bool, found: seq<Found>, dataset: string,
                          views: string -> FileView, o1: seq<nat>, o2: seq<nat>)
    requires forall f :: f in found ==> ValidView(views(f.path))
    requires IsOrder(o1, |DataFiles(found)|) && IsOrder(o2, |DataFiles(found)|)
    requires LoadData(root, isDir, found, dataset, views, o1).Ok?
    ensures LoadData(root, isDir, found, dataset, views, o2).Ok?
    ensures multiset(LoadData(root, isDir, found, dataset, views, o1).value) ==
            multiset(LoadData(root, isDir, found, dataset, views, o2).value)
  {
    var files := DataFiles(found);
    var kind := ReaderFor(dataset).value;
    assert forall k :: 0 <= k < |files| ==> files[k] in found;
    var parts := Contributions(Outcomes(kind, files, views));
    forall k | 0 <= k < |o1| ensures o1[k] < |parts| {
      assert o1[k] in multiset(Range(|files|));
    }
    GatherReordered(parts, o1, o2);
  }

  /** A completion order names only files that exist. */
  lemma {:induction false} OrderBounds(order: seq<nat>, n: nat)
    requires IsOrder(order, n)
    ensures forall k :: 0 <= k < |order| ==> order[k] < n
  {
    forall k | 0 <= k < |order| ensures order[k] < n {
      assert order[k] in multiset(Range(n));
    }
  }

  /** A completion order visits every file. */
  lemma {:induction false} OrderVisits(order: seq<nat>, n: nat, k: nat) returns (i: nat)
    requires IsOrder(order, n) && k < n
    ensures i < |order| && order[i] == k
  {
    assert Range(n)[k] == k;
    assert k in multiset(order);
    i :| 0 <= i < |order| && order[i] == k;
  }

  /** The contribution of every visited file is gathered. */
  lemma {:induction false} GatherVisits(parts: seq<seq<CsiData>>, order: seq<nat>, i: nat, c: CsiData)
    requires forall k :: 0 <= k < |order| ==> order[k] < |parts|
    requires i < |order| && c in parts[order[i]]
    ensures c in Gather(parts, order)
  {
    if i > 0 {
      assert forall k :: 0 <= k < |order[1..]| ==> order[1..][k] == order[k + 1];
      GatherVisits(parts, order[1..], i - 1, c);
    }
  }

  /** Under a completion order that visits every file once, a capture is
      gathered exactly when some file contributes it. */
  lemma {:induction false} GatherMembers(parts: seq<seq<CsiData>>, order: seq<nat>, c: CsiData)
    requires IsOrder(order, |parts|)
    ensures forall k :: 0 <= k < |order| ==> order[k] < |parts|
    ensures c in Gather(parts, order) <==> exists k :: 0 <= k < |parts| && c in parts[k]
  {
    OrderBounds(order, |parts|);
    if exists k :: 0 <= k < |parts| && c in parts[k] {
      var k :| 0 <= k < |parts| && c in parts[k];
      var i := OrderVisits(order, |parts|, k);
      GatherVisits(parts, order, i, c);
    }
  }

  /** A successful load gathers, in completion order, the contribution of
      every data file's worker outcome. */
  lemma {:induction false} LoadDataParts(root: string, isDir: bool, found: seq<Found>, dataset: string,
                      views: string -> FileView, order: seq<nat>) returns (parts: seq<seq<CsiData>>)
    requires forall f :: f in found ==> ValidView(views(f.path))
    requires IsOrder(order, |DataFiles(found)|)
    requires LoadData(root, isDir, found, dataset, views, order).Ok?
    ensures |parts| == |DataFiles(found)|
    ensures forall k :: 0 <= k < |parts| ==>
              ValidView(views(DataFiles(found)[k].path)) &&
              parts[k] == Contribution(ProcessFile(ReaderFor(dataset).value, DataFiles(found)[k].path,
                                                   views(DataFiles(found)[k].path)))
    ensures forall k :: 0 <= k < |order| ==> order[k] < |parts|
    ensures LoadData(root, isDir, found, dataset, views, order).value == Gather(parts, order)
  {
    var files := DataFiles(found);
    assert forall k :: 0 <= k < |files| ==> files[k] in found;
    parts := Contributions(Outcomes(ReaderFor(dataset).value, files, views));
    OrderBounds(order, |files|);
  }

  /** A capture is in the result of a successful load exactly when it is
      among the captures read from some data file; failed files add
      nothing. */
  lemma {:induction false} LoadDataMembers(root: string, isDir: bool, found: seq<Found>, dataset: string,
                        views: string -> FileView, order: seq<nat>, c: CsiData)
    requires forall f :: f in found ==> ValidView(views(f.path))
    requires IsOrder(order, |DataFiles(found)|)
    requires LoadData(root, isDir, found, dataset, views, order).Ok?
    ensures c in LoadData(root, isDir, found, dataset, views, order).value <==>
            exists k :: 0 <= k < |DataFiles(found)| &&
              c in Contribution(ProcessFile(ReaderFor(dataset).value, DataFiles(found)[k].path,
                                            views(DataFiles(found)[k].path)))
  {
    var parts := LoadDataParts(root, isDir, found, dataset, views, order);
    GatherMembers(parts, order, c);
  }
}

=== FILE: resize.dfy ===
/** `resize_csi_to_fixed_length`: every sample is cut or padded along its
    time axis (axis 0) to a fixed number of steps. The slice `s[:n, :, :]`
    follows Python's rules, so a negative `n` counts from the end; the
    padding is `np.pad` with a constant, which accepts only three-axis
    samples because it is given three pad pairs. */
module Resize {
  import opened Wrappers
  import opened Tensors
  import opened Arith

  /** Where the slice `[:n]` ends on an axis of length `t`. */
  function SliceEnd(t: nat, n: int): (e: nat)
    ensures e <= t
    ensures 0 <= n <= t ==> e == n
    ensures n < 0 && t + n >= 0 ==> e == t + n
    ensures t + n < 0 ==> e == 0
  {
    if n >= 0 then (if n < t then n else t)
    else if t + n > 0 then t + n else 0
  }

  /** Where step `i` of a sample of shape `[n] + rest` starts, and that
      element `idx` of that step lies inside the sample. */
  lemma {:induction false} RowOffset(n: nat, rest: seq<nat>, i: nat, idx: seq<nat>)
    requires i < n && InBounds(rest, idx)
    ensures InBounds([n] + rest, [i] + idx)
    ensures Offset([n] + rest, [i] + idx) == i * Prod(rest) + Offset(rest, idx)
    ensures Prod([n] + rest) == n * Prod(rest)
    ensures i * Prod(rest) + Prod(rest) <= n * Prod(rest)
  {
    assert ([n] + rest)[1..] == rest;
    assert ([i] + idx)[1..] == idx;
    MulStep(i, n, Prod(rest));
  }

  /** The first `n` steps of a sample. */
  function Truncate(a: Tensor, n: nat): (r: Tensor)
    requires Valid(a) && |a.shape| > 0 && n <= a.shape[0]
    ensures Valid(r) && r.shape == [n] + a.shape[1..]
    ensures forall i, idx :: 0 <= i < n && InBounds(a.shape[1..], idx) ==>
              InBounds(a.shape, [i] + idx) && InBounds(r.shape, [i] + idx) &&
              At(r, [i] + idx) == At(a, [i] + idx)
  {
    var rest := a.shape[1..];
    var p := Prod(rest);
    assert a.shape == [a.shape[0]] + rest;
    MulLe(n, a.shape[0], p);
    assert Prod([n] + rest) == n * p by { assert ([n] + rest)[1..] == rest; }
    var r := Tensor([n] + rest, a.data[..n * p]);
    forall i, idx | 0 <= i < n && InBounds(rest, idx)
      ensures InBounds(a.shape, [i] + idx) && InBounds(r.shape, [i] + idx)
      ensures At(r, [i] + idx) == At(a, [i] + idx)
    {
      RowOffset(n, rest, i, idx);
      RowOffset(a.shape[0], rest, i, idx);
    }
    r
  }

  /** Step `i` of the padded element sequence: taken from the sample while
      `i < t`, from the fill behind it afterwards. */
  lemma {:induction false} PadAt(data: seq<Num>, fill: seq<Num>, v: Num, t: nat, i: nat, p: nat, o: nat)
    requires |data| == t * p && o < p
    requires forall k :: 0 <= k < |fill| ==> fill[k] == v
    requires i * p + o < |data| + |fill|
    ensures i < t ==> i * p + o < |data| && (data + fill)[i * p + o] == data[i * p + o]
    ensures i >= t ==> (data + fill)[i * p + o] == v
  {
    if i < t {
      MulStep(i, t, p);
    } else {
      MulLe(t, i, p);
    }
  }

  /** The sample followed by steps whose every element is `pad`, up to `n`
      steps in all. */
  function Pad(a: Tensor, n: nat, pad: real): (r: Tensor)
    requires Valid(a) && |a.shape| > 0 && a.shape[0] <= n
    ensures Valid(r) && r.shape == [n] + a.shape[1..]
    ensures forall i, idx :: 0 <= i < n && InBounds(a.shape[1..], idx) ==>
              InBounds(r.shape, [i] + idx) &&
              (i < a.shape[0] ==> InBounds(a.shape, [i] + idx) && At(r, [i] + idx) == At(a, [i] + idx)) &&
              (i >= a.shape[0] ==> At(r, [i] + idx) == RealNum(pad))
  {
    var t := a.shape[0];
    var rest := a.shape[1..];
    var p := Prod(rest);
    assert a.shape == [t] + rest;
    assert Prod(a.shape) == t * p by { assert ([t] + rest)[1..] == rest; }
    assert Prod([n] + rest) == n * p by { assert ([n] + rest)[1..] == rest; }
    assert n * p == t * p + (n - t) * p;
    var fill := seq((n - t) * p, _ => RealNum(pad));
    var r := Tensor([n] + rest, a.data + fill);
    forall i, idx | 0 <= i < n && InBounds(rest, idx)
      ensures InBounds(r.shape, [i] + idx)
      ensures i < t ==> InBounds(a.shape, [i] + idx) && At(r, [i] + idx) == At(a, [i] + idx)
      ensures i >= t ==> At(r, [i] + idx) == RealNum(pad)
    {
      RowOffset(n, rest, i, idx);
      if i < t { RowOffset(t, rest, i, idx); }
      PadAt(a.data, fill, RealNum(pad), t, i, p, Offset(rest, idx));
    }
    r
  }

  /** Why a single sample cannot be resized, if it cannot. */
  function Rejection(shape: seq<nat>, n: int): Option<string>
  {
    if |shape| == 0 then Some("IndexError: tuple index out of range")
    else if shape[0] > n && |shape| < 3 then Some("IndexError: too many indices for array")
    else if shape[0] < n && |shape| != 3 then Some("ValueError: operands could not be broadcast together")
    else None
  }

  /** One sample, resized to `n` time steps. */
  function ResizeOne(a: Tensor, n: int, pad: real): (r: Result<Tensor>)
    requires Valid(a)
    ensures r.Err? <==> |a.shape| == 0 || (a.shape[0] > n && |a.shape| < 3) || (a.shape[0] < n && |a.shape| != 3)
    ensures r.Ok? ==> Valid(r.value) && |r.value.shape| == |a.shape| && r.value.shape[1..] == a.shape[1..]
    ensures r.Ok? ==> r.value.shape[0] == if n >= 0 then n else SliceEnd(a.shape[0], n)
    ensures r.Ok? ==> forall i, idx :: 0 <= i < r.value.shape[0] && InBounds(a.shape[1..], idx) ==>
              InBounds(r.value.shape, [i] + idx) &&
              (i < a.shape[0] ==> InBounds(a.shape, [i] + idx) && At(r.value, [i] + idx) == At(a, [i] + idx)) &&
              (i >= a.shape[0] ==> At(r.value, [i] + idx) == RealNum(pad))
    ensures |a.shape| > 0 && a.shape[0] == n ==> r == Ok(a)
  {
    match Rejection(a.shape, n)
    case Some(e) => Err(e)
    case None =>
      var t := a.shape[0];
      if t > n then Ok(Truncate(a, SliceEnd(t, n)))
      else if t < n then Ok(Pad(a, n, pad))
      else
        assert a.shape == [t] + a.shape[1..];
        forall i, idx | 0 <= i < t && InBounds(a.shape[1..], idx) ensures InBounds(a.shape, [i] + idx) {
          RowOffset(t, a.shape[1..], i, idx);
        }
        Ok(a)
  }

  /** Two samples whose shape and every element agree with what `ResizeOne`
      promises are equal to its result: the element-wise description above
      determines the resized sample completely. */
  lemma {:induction false} ResizeDetermined(a: Tensor, n: int, pad: real, b: Tensor)
    requires Valid(a) && ResizeOne(a, n, pad).Ok?
    requires Valid(b) && b.shape == ResizeOne(a, n, pad).value.shape
    requires forall i, idx :: 0 <= i < b.shape[0] && InBounds(a.shape[1..], idx) ==>
               InBounds(b.shape, [i] + idx) &&
               (i < a.shape[0] ==> InBounds(a.shape, [i] + idx) && At(b, [i] + idx) == At(a, [i] + idx)) &&
               (i >= a.shape[0] ==> At(b, [i] + idx) == RealNum(pad))
    ensures b == ResizeOne(a, n, pad).value
  {
    var r := ResizeOne(a, n, pad).value;
    forall full | InBounds(b.shape, full) ensures At(b, full) == At(r, full)
    {
      var i, idx := full[0], full[1..];
      assert full == [i] + idx;
      assert InBounds(a.shape[1..], idx) by {
        forall k | 0 <= k < |idx| ensures idx[k] < a.shape[1..][k] {
          assert idx[k] == full[k + 1] && a.shape[1..][k] == b.shape[k + 1];
        }
      }
    }
    Extensionality(b, r);
  }

  /** Padding and then cutting back to the original length gives the sample
      back. */
  lemma {:induction false} PadTruncate(a: Tensor, n: nat, pad: real)
    requires Valid(a) && |a.shape| > 0 && a.shape[0] <= n
    ensures Truncate(Pad(a, n, pad), a.shape[0]) == a
  {
    var t := a.shape[0];
    var rest := a.shape[1..];
    assert a.shape == [t] + rest;
    assert Prod(a.shape) == t * Prod(rest) by { assert ([t] + rest)[1..] == rest; }
    var b := Pad(a, n, pad);
    assert b.data[..t * Prod(rest)] == a.data;
  }

  /** Cutting twice is cutting once, to the shorter length. */
  lemma {:induction false} TruncateTwice(a: Tensor, m: nat, k: nat)
    requires Valid(a) && |a.shape| > 0 && k <= m <= a.shape[0]
    ensures Truncate(Truncate(a, m), k) == Truncate(a, k)
  {
    var rest := a.shape[1..];
    var p := Prod(rest);
    var b := Truncate(a, m);
    TruncateData(a, m);
    assert b.shape[1..] == rest;
    TruncateData(b, k);
    TruncateData(a, k);
    MulLe(k, m, p);
    assert a.data[..m * p][..k * p] == a.data[..k * p];
  }

  /** The first `n` steps are the first `n` blocks of elements. */
  lemma {:induction false} TruncateData(a: Tensor, n: nat)
    requires Valid(a) && |a.shape| > 0 && n <= a.shape[0]
    ensures n * Prod(a.shape[1..]) <= |a.data|
    ensures Truncate(a, n) == Tensor([n] + a.shape[1..], a.data[..n * Prod(a.shape[1..])])
  {
    assert a.shape == [a.shape[0]] + a.shape[1..];
    MulLe(n, a.shape[0], Prod(a.shape[1..]));
  }

  /** `resize_csi_to_fixed_length(xs, n, pad)`: the samples in order, each
      resized; the first sample that cannot be resized raises. */
  function ResizeAll(xs: seq<Tensor>, n: int, pad: real): (r: Result<seq<Tensor>>)
    requires forall i :: 0 <= i < |xs| ==> Valid(xs[i])
    ensures r.Ok? <==> forall i :: 0 <= i < |xs| ==> ResizeOne(xs[i], n, pad).Ok?
    ensures r.Ok? ==> |r.value| == |xs| &&
                      (forall i :: 0 <= i < |xs| ==> ResizeOne(xs[i], n, pad) == Ok(r.value[i]))
    ensures r.Ok? && n >= 0 ==> forall i :: 0 <= i < |xs| ==> r.value[i].shape == [n] + xs[i].shape[1..]
    ensures r.Err? ==> exists i :: 0 <= i < |xs| && ResizeOne(xs[i], n, pad) == Err(r.msg) &&
                                   (forall j :: 0 <= j < i ==> ResizeOne(xs[j], n, pad).Ok?)
  {
    FirstError(ResizeEach(xs, n, pad))
  }

  /** Every sample resized on its own. */
  function ResizeEach(xs: seq<Tensor>, n: int, pad: real): (rs: seq<Result<Tensor>>)
    requires forall i :: 0 <= i < |xs| ==> Valid(xs[i])
    ensures |rs| == |xs| && forall i :: 0 <= i < |xs| ==> rs[i] == ResizeOne(xs[i], n, pad)
  {
    seq(|xs|, i requires 0 <= i < |xs| => ResizeOne(xs[i], n, pad))
  }
}

=== FILE: structure.dfy ===
/** The records every decoder produces: a frame (one timestamped channel
    matrix, optionally with the Intel 5300 "bfee" metadata) and a capture
    (`CSIData`: a file name and its frames in decoding order). */
module Structure {
  import opened Wrappers
  import opened Tensors
  import Numbers

  /** A frame timestamp: Python `int` or `float`. The two kinds compare by
      numeric value, which is what `sorted(..., key=timestamp)` uses. */
  datatype Stamp = IntStamp(i: int) | FloatStamp(x: real)

  function StampValue(s: Stamp): real
  {
    match s
    case IntStamp(i) => i as real
    case FloatStamp(x) => x
  }

  /** numpy dtype name of a frame's array, as `repr` prints it. */
  datatype DType = DType(name: string)

  const Complex64 := DType("complex64")
  const Float64 := DType("float64")

  /** The ten receiver fields a bfee record carries besides its timestamp
      and matrix. */
  datatype BfeeMeta = BfeeMeta(
    bfeeCount: nat, nRx: nat, nTx: nat,
    rssiA: nat, rssiB: nat, rssiC: nat,
    noise: int, agc: nat, antennaSel: nat, fakeRate: nat)

  /** `BaseFrame` when `meta` is `None`, `BfeeFrame` when it is present. */
  datatype Frame = Frame(timestamp: Stamp, csi: Tensor, dtype: DType, meta: Option<BfeeMeta>)

  /** `BaseFrame(timestamp, csi_array)`. */
  function BaseFrame(timestamp: Stamp, csi: Tensor, dtype: DType): (f: Frame)
    ensures f.timestamp == timestamp && f.csi == csi && f.dtype == dtype && f.meta.None?
  {
    Frame(timestamp, csi, dtype, None)
  }

  /** `BfeeFrame(...)`: the base part receives timestamp and array unchanged
      and the metadata fields are stored as given. */
  function BfeeFrame(timestamp: Stamp, csi: Tensor, bfeeCount: nat, nRx: nat, nTx: nat,
                     rssiA: nat, rssiB: nat, rssiC: nat, noise: int, agc: nat,
                     antennaSel: nat, fakeRate: nat): (f: Frame)
    ensures f.timestamp == timestamp && f.csi == csi && f.dtype == Complex64
    ensures f.meta.Some?
    ensures var m := f.meta.value;
            && m.bfeeCount == bfeeCount && m.nRx == nRx && m.nTx == nTx
            && m.rssiA == rssiA && m.rssiB == rssiB && m.rssiC == rssiC
            && m.noise == noise && m.agc == agc && m.antennaSel == antennaSel
            && m.fakeRate == fakeRate
  {
    Frame(timestamp, csi, Complex64,
          Some(BfeeMeta(bfeeCount, nRx, nTx, rssiA, rssiB, rssiC, noise, agc, antennaSel, fakeRate)))
  }

  // ---------------------------------------------------------------------
  // repr

  function JoinDims(dims: seq<nat>): string
  {
    if |dims| == 0 then ""
    else if |dims| == 1 then Numbers.ShowNat(dims[0])
    else Numbers.ShowNat(dims[0]) + ", " + JoinDims(dims[1..])
  }

  /** Python's text of a shape tuple: `()`, `(5,)`, `(30, 3, 1)`. */
  function ShapeText(shape: seq<nat>): string
  {
    "(" + JoinDims(shape) + (if |shape| == 1 then "," else "") + ")"
  }

  /** `repr(frame)`; float timestamps are printed by `showFloat`. */
  function Repr(f: Frame, showFloat: real -> string): string
  {
    var ts := match f.timestamp
      case IntStamp(i) => Numbers.ShowInt(i)
      case FloatStamp(x) => showFloat(x);
    "timestamp=" + ts + ", csi_shape=" + ShapeText(f.csi.shape) + ", dtype=" + f.dtype.name + ")"
  }

  /** `repr` shows timestamp, shape and dtype only: two frames that agree on
      those print alike, whatever their array contents or metadata. */
  lemma {:induction false} ReprIgnoresContents(f: Frame, g: Frame, showFloat: real -> string)
    requires f.timestamp == g.timestamp && f.csi.shape == g.csi.shape && f.dtype == g.dtype
    ensures Repr(f, showFloat) == Repr(g, showFloat)
  {
  }

  // ---------------------------------------------------------------------
  // CSIData

  datatype CsiData = CsiData(fileName: string, frames: seq<Frame>)

  /** `CSIData(file_name)`. */
  function NewCsiData(fileName: string): (d: CsiData)
    ensures d.fileName == fileName && |d.frames| == 0
  {
    CsiData(fileName, [])
  }

  /** `add_frame`: appends without validating the frame. */
  function AddFrame(d: CsiData, f: Frame): (r: CsiData)
    ensures r.fileName == d.fileName
    ensures |r.frames| == |d.frames| + 1 && r.frames[|d.frames|] == f
    ensures r.frames[..|d.frames|] == d.frames
  {
    CsiData(d.fileName, d.frames + [f])
  }

  /** Adding frames one by one with `add_frame`. */
  function AddFrames(d: CsiData, fs: seq<Frame>): CsiData
    decreases |fs|
  {
    if |fs| == 0 then d else AddFrames(AddFrame(d, fs[0]), fs[1..])
  }

  /** A capture built by repeated `add_frame` holds exactly the added frames,
      in the order they were added, after the earlier ones. */
  lemma {:induction false} AddFramesAppends(d: CsiData, fs: seq<Frame>)
    ensures AddFrames(d, fs) == CsiData(d.fileName, d.frames + fs)
    decreases |fs|
  {
    if |fs| > 0 {
      AddFramesAppends(AddFrame(d, fs[0]), fs[1..]);
      assert d.frames + [fs[0]] + fs[1..] == d.frames + fs;
    }
  }

  /** Adding two runs of frames one after the other adds their
      concatenation. */
  lemma {:induction false} AddFramesTwice(d: CsiData, a: seq<Frame>, b: seq<Frame>)
    ensures AddFrames(AddFrames(d, a), b) == AddFrames(d, a + b)
  {
    AddFramesAppends(d, a);
    AddFramesAppends(AddFrames(d, a), b);
    AddFramesAppends(d, a + b);
  }

  /** What a reader's `read_file` returns: a list of captures (XRF55, and
      the ElderAL reader on an empty file) or a single capture. */
  datatype ReadOutput = Many(captures: seq<CsiData>) | Single(capture: CsiData)
}

=== FILE: tensors.dfy ===
/** The numpy arrays of the pipeline: a shape and its elements flattened in
    C order (last axis fastest), with the few numpy operations the pipeline
    uses — element access, zeros, the basic slices `a[g]` and `a[..., t]`,
    `np.stack` along a new axis 0 and `squeeze()`. */
module Tensors {
  import opened Arith

  /** One array element; real-valued arrays have `im == 0.0`. Values are
      exact: float32/float64 rounding is not part of this model. */
  datatype Num = Num(re: real, im: real)

  const Zero := Num(0.0, 0.0)

  function RealNum(x: real): Num { Num(x, 0.0) }

  datatype Tensor = Tensor(shape: seq<nat>, data: seq<Num>)

  /** Number of elements of an array of this shape (`np.prod(shape)`). */
  function Prod(shape: seq<nat>): nat
  {
    if |shape| == 0 then 1 else shape[0] * Prod(shape[1..])
  }

  predicate Valid(a: Tensor) { |a.data| == Prod(a.shape) }

  predicate InBounds(shape: seq<nat>, idx: seq<nat>)
  {
    |idx| == |shape| && forall k :: 0 <= k < |idx| ==> idx[k] < shape[k]
  }

  /** Position of element `idx` in the C-order element sequence. */
  function Offset(shape: seq<nat>, idx: seq<nat>): (o: nat)
    requires InBounds(shape, idx)
    ensures o < Prod(shape)
  {
    if |shape| == 0 then 0
    else
      var o := idx[0] * Prod(shape[1..]) + Offset(shape[1..], idx[1..]);
      MulStep(idx[0], shape[0], Prod(shape[1..]));
      o
  }

  /** `a[idx]` for a full index. */
  function At(a: Tensor, idx: seq<nat>): Num
    requires Valid(a) && InBounds(a.shape, idx)
  {
    a.data[Offset(a.shape, idx)]
  }

  /** `np.zeros(shape)`. */
  function Zeros(shape: seq<nat>): (r: Tensor)
    ensures Valid(r) && r.shape == shape
    ensures forall idx :: InBounds(shape, idx) ==> At(r, idx) == Zero
  {
    Tensor(shape, seq(Prod(shape), _ => Zero))
  }

  /** Distinct in-bounds indices address distinct elements. */
  lemma {:induction false} OffsetInjective(shape: seq<nat>, i1: seq<nat>, i2: seq<nat>)
    requires InBounds(shape, i1) && InBounds(shape, i2)
    requires Offset(shape, i1) == Offset(shape, i2)
    ensures i1 == i2
  {
    if |shape| > 0 {
      var p := Prod(shape[1..]);
      if i1[0] < i2[0] {
        MulStep(i1[0], i2[0], p);
        assert false;
      } else if i2[0] < i1[0] {
        MulStep(i2[0], i1[0], p);
        assert false;
      }
      OffsetInjective(shape[1..], i1[1..], i2[1..]);
      assert i1 == [i1[0]] + i1[1..] && i2 == [i2[0]] + i2[1..];
    }
  }

  /** The index of the element at C-order position `k`. */
  function Unoffset(shape: seq<nat>, k: nat): (idx: seq<nat>)
    requires k < Prod(shape)
    ensures InBounds(shape, idx) && Offset(shape, idx) == k
  {
    if |shape| == 0 then []
    else
      var p := Prod(shape[1..]);
      DivModSplit(k, shape[0], p);
      var q: nat, r: nat := k / p, k % p;
      var rest := Unoffset(shape[1..], r);
      OffsetCons(shape, q, rest);
      [q] + rest
  }

  /** The offset of `[q] + rest` counts `q` whole blocks of the trailing
      axes, then the offset of `rest` within a block. */
  lemma {:induction false} OffsetCons(shape: seq<nat>, q: nat, rest: seq<nat>)
    requires |shape| > 0 && q < shape[0] && InBounds(shape[1..], rest)
    ensures InBounds(shape, [q] + rest)
    ensures Offset(shape, [q] + rest) == q * Prod(shape[1..]) + Offset(shape[1..], rest)
  {
    var idx := [q] + rest;
    assert idx[1..] == rest;
    forall i | 0 <= i < |idx| ensures idx[i] < shape[i] {
      if i > 0 { assert idx[i] == rest[i - 1]; }
    }
  }

  /** Two arrays of one shape that agree at every index are equal. */
  lemma {:induction false} Extensionality(x: Tensor, y: Tensor)
    requires Valid(x) && Valid(y) && x.shape == y.shape
    requires forall idx :: InBounds(x.shape, idx) ==> At(x, idx) == At(y, idx)
    ensures x == y
  {
    forall k | 0 <= k < |x.data| ensures x.data[k] == y.data[k]
    {
      var idx := Unoffset(x.shape, k);
      assert At(x, idx) == At(y, idx);
    }
  }

  /** Two three-axis arrays of one shape that agree at every index are
      equal. */
  lemma {:induction false} Extensionality3(x: Tensor, y: Tensor, n0: nat, n1: nat, n2: nat)
    requires Valid(x) && Valid(y) && x.shape == y.shape == [n0, n1, n2]
    requires forall i: nat, j: nat, k: nat :: i < n0 && j < n1 && k < n2 ==>
               InBounds(x.shape, [i, j, k]) && At(x, [i, j, k]) == At(y, [i, j, k])
    ensures x == y
  {
    forall idx | InBounds(x.shape, idx) ensures At(x, idx) == At(y, idx)
    {
      var i: nat, j: nat, k: nat := idx[0], idx[1], idx[2];
      assert idx == [i, j, k];
    }
    Extensionality(x, y);
  }

  /** `a[idx] = v`: only the addressed element changes. */
  function WriteAt(a: Tensor, idx: seq<nat>, v: Num): (r: Tensor)
    requires Valid(a) && InBounds(a.shape, idx)
    ensures Valid(r) && r.shape == a.shape
    ensures forall j :: InBounds(a.shape, j) ==> At(r, j) == if j == idx then v else At(a, j)
  {
    var r := Tensor(a.shape, a.data[Offset(a.shape, idx) := v]);
    forall j | InBounds(a.shape, j) ensures At(r, j) == if j == idx then v else At(a, j)
    {
      if j != idx && Offset(a.shape, j) == Offset(a.shape, idx) {
        OffsetInjective(a.shape, j, idx);
      }
    }
    r
  }

  // ---------------------------------------------------------------------
  // Offsets of the basic slices

  lemma {:induction false} ProdSnoc(s: seq<nat>, d: nat)
    ensures Prod(s + [d]) == Prod(s) * d
  {
    if |s| > 0 {
      assert (s + [d])[1..] == s[1..] + [d];
      ProdSnoc(s[1..], d);
    }
  }

  lemma {:induction false} InBoundsSnoc(front: seq<nat>, d: nat, idx: seq<nat>, t: nat)
    requires InBounds(front, idx) && t < d
    ensures InBounds(front + [d], idx + [t])
  {
    var shape := front + [d];
    var full := idx + [t];
    forall k | 0 <= k < |full| ensures full[k] < shape[k] {
      if k < |idx| { assert full[k] == idx[k] && shape[k] == front[k]; }
    }
  }

  lemma {:induction false} SnocArith(a: int, p: int, o: int, d: int, t: int)
    ensures a * (p * d) + (o * d + t) == (a * p + o) * d + t
  {
    assert a * (p * d) == (a * p) * d;
    assert (a * p + o) * d == (a * p) * d + o * d;
  }

  /** Appending a last index multiplies the offset by the last extent. */
  lemma {:induction false} OffsetSnoc(front: seq<nat>, d: nat, idx: seq<nat>, t: nat)
    requires InBounds(front, idx) && t < d
    ensures InBounds(front + [d], idx + [t])
    ensures Offset(front + [d], idx + [t]) == Offset(front, idx) * d + t
  {
    InBoundsSnoc(front, d, idx, t);
    var shape := front + [d];
    var full := idx + [t];
    if |front| > 0 {
      assert shape[1..] == front[1..] + [d];
      assert full[1..] == idx[1..] + [t];
      OffsetSnoc(front[1..], d, idx[1..], t);
      ProdSnoc(front[1..], d);
      var p := Prod(front[1..]);
      var o := Offset(front[1..], idx[1..]);
      assert Offset(shape, full) == idx[0] * (p * d) + (o * d + t);
      SnocArith(idx[0], p, o, d, t);
    }
  }

  /** `a[g]`: the sub-array at position `g` of axis 0. */
  function Take(a: Tensor, g: nat): (r: Tensor)
    requires Valid(a) && |a.shape| > 0 && g < a.shape[0]
    ensures Valid(r) && r.shape == a.shape[1..]
    ensures forall idx :: InBounds(r.shape, idx) ==>
              InBounds(a.shape, [g] + idx) && At(r, idx) == At(a, [g] + idx)
  {
    var p := Prod(a.shape[1..]);
    MulStep(g, a.shape[0], p);
    var r := Tensor(a.shape[1..], a.data[g * p..g * p + p]);
    assert forall idx :: InBounds(r.shape, idx) ==> ([g] + idx)[1..] == idx;
    r
  }

  /** `a[..., t]`: the sub-array at position `t` of the last axis. */
  function TakeLast(a: Tensor, t: nat): (r: Tensor)
    requires Valid(a) && |a.shape| > 0 && t < a.shape[|a.shape| - 1]
    ensures Valid(r) && r.shape == a.shape[..|a.shape| - 1]
    ensures forall idx :: InBounds(r.shape, idx) ==>
              InBounds(a.shape, idx + [t]) && At(r, idx) == At(a, idx + [t])
  {
    var front := a.shape[..|a.shape| - 1];
    var d := a.shape[|a.shape| - 1];
    assert a.shape == front + [d];
    ProdSnoc(front, d);
    var r := Tensor(front, seq(Prod(front), k requires 0 <= k < Prod(front) =>
      MulStep(k, Prod(front), d); a.data[k * d + t]));
    forall idx | InBounds(r.shape, idx)
      ensures InBounds(a.shape, idx + [t]) && At(r, idx) == At(a, idx + [t])
    {
      OffsetSnoc(front, d, idx, t);
    }
    r
  }

  // ---------------------------------------------------------------------
  // Stacking

  function Concat<T>(xs: seq<seq<T>>): seq<T>
  {
    if |xs| == 0 then [] else xs[0] + Concat(xs[1..])
  }

  predicate Uniform<T>(xs: seq<seq<T>>, w: nat)
  {
    forall i :: 0 <= i < |xs| ==> |xs[i]| == w
  }

  lemma {:induction false} ConcatLength<T>(xs: seq<seq<T>>, w: nat)
    requires Uniform(xs, w)
    ensures |Concat(xs)| == |xs| * w
  {
    if |xs| > 0 {
      ConcatLength(xs[1..], w);
      MulPred(|xs|, w);
    }
  }

  /** Concatenating pieces of width `w` lays piece `i` at `i * w`. */
  lemma {:induction false} ConcatAt<T>(xs: seq<seq<T>>, w: nat, i: nat, k: nat)
    requires Uniform(xs, w) && i < |xs| && k < w
    ensures i * w + k < |Concat(xs)| && Concat(xs)[i * w + k] == xs[i][k]
  {
    ConcatLength(xs, w);
    MulStep(i, |xs|, w);
    if i > 0 {
      var rest := xs[1..];
      ConcatAt(rest, w, i - 1, k);
      MulPred(i, w);
      assert rest[i - 1] == xs[i];
    }
  }

  predicate SameShape(xs: seq<Tensor>, shape: seq<nat>)
  {
    forall i :: 0 <= i < |xs| ==> xs[i].shape == shape && Valid(xs[i])
  }

  /** The flat element sequences of the arrays, in order. */
  function Layers(xs: seq<Tensor>): (ps: seq<seq<Num>>)
    ensures |ps| == |xs| && forall i :: 0 <= i < |xs| ==> ps[i] == xs[i].data
  {
    seq(|xs|, i requires 0 <= i < |xs| => xs[i].data)
  }

  /** `np.stack(xs, axis=0)` for arrays that all have shape `shape`. */
  function Stack(xs: seq<Tensor>, shape: seq<nat>): (r: Tensor)
    requires SameShape(xs, shape)
    ensures Valid(r) && r.shape == [|xs|] + shape
    ensures forall i, idx :: 0 <= i < |xs| && InBounds(shape, idx) ==>
              InBounds(r.shape, [i] + idx) && At(r, [i] + idx) == At(xs[i], idx)
  {
    var pieces := Layers(xs);
    ConcatLength(pieces, Prod(shape));
    var r := Tensor([|xs|] + shape, Concat(pieces));
    assert ([|xs|] + shape)[1..] == shape;
    forall i, idx | 0 <= i < |xs| && InBounds(shape, idx)
      ensures InBounds(r.shape, [i] + idx) && At(r, [i] + idx) == At(xs[i], idx)
    {
      assert ([i] + idx)[1..] == idx;
      assert Offset(r.shape, [i] + idx) == i * Prod(shape) + Offset(shape, idx);
      ConcatAt(pieces, Prod(shape), i, Offset(shape, idx));
    }
    r
  }

  /** In the stacked array, element `k` of array `i` sits at flat position
      `i * Prod(shape) + k`: the arrays are laid end to end. */
  lemma {:induction false} StackFlat(xs: seq<Tensor>, shape: seq<nat>, i: nat, k: nat)
    requires SameShape(xs, shape) && i < |xs| && k < Prod(shape)
    ensures i * Prod(shape) + k < |Stack(xs, shape).data|
    ensures Stack(xs, shape).data[i * Prod(shape) + k] == xs[i].data[k]
  {
    ConcatAt(Layers(xs), Prod(shape), i, k);
  }

  // ---------------------------------------------------------------------
  // Squeezing

  /** The shape with every extent-1 axis removed, other axes kept in order. */
  function RemoveOnes(shape: seq<nat>): (r: seq<nat>)
    ensures Prod(r) == Prod(shape)
    ensures 1 !in r && |r| <= |shape|
    ensures forall d :: d != 1 ==> multiset(r)[d] == multiset(shape)[d]
    ensures |shape| == 1 ==> r == if shape[0] == 1 then [] else shape
  {
    if |shape| == 0 then []
    else
      assert shape == [shape[0]] + shape[1..];
      if shape[0] == 1 then RemoveOnes(shape[1..]) else [shape[0]] + RemoveOnes(shape[1..])
  }

  /** Removing extent-1 axes works axis by axis from left to right: with
      the one-axis case above this says the kept axes stay in order. */
  lemma {:induction false} RemoveOnesAppend(a: seq<nat>, b: seq<nat>)
    ensures RemoveOnes(a + b) == RemoveOnes(a) + RemoveOnes(b)
    decreases |a|
  {
    if |a| == 0 {
      assert a + b == b;
    } else {
      assert (a + b)[0] == a[0] && (a + b)[1..] == a[1..] + b;
      RemoveOnesAppend(a[1..], b);
    }
  }

  /** `a.squeeze()`: drops all extent-1 axes, keeping the others in order;
      the C-order elements and their count are unchanged. */
  function Squeeze(a: Tensor): (r: Tensor)
    requires Valid(a)
    ensures Valid(r) && r.data == a.data && r.shape == RemoveOnes(a.shape)
    ensures 1 !in r.shape && Prod(r.shape) == Prod(a.shape)
  {
    Tensor(RemoveOnes(a.shape), a.data)
  }

  lemma {:induction false} SqueezeIdempotent(a: Tensor)
    requires Valid(a)
    ensures Squeeze(Squeeze(a)) == Squeeze(a)
  {
    NoOnesFixed(RemoveOnes(a.shape));
  }

  lemma {:induction false} NoOnesFixed(shape: seq<nat>)
    requires 1 !in shape
    ensures RemoveOnes(shape) == shape
  {
    if |shape| > 0 {
      assert shape[0] != 1;
      assert 1 !in shape[1..];
      NoOnesFixed(shape[1..]);
    }
  }
}

=== FILE: wrappers.dfy ===
/** Failure-carrying result types shared by every module of the model.
    `None`/`Option` stands for Python's `None`; `Result` stands for
    "returns a value or raises an exception with this message". */
module Wrappers {

  datatype Option<+T> = None | Some(value: T)

  datatype Result<+R> = Ok(value: R) | Err(msg: string)

  /** Extracts a present value or falls back to a default. */
  function GetOr<T>(o: Option<T>, default: T): T
  {
    match o
    case Some(v) => v
    case None => default
  }

  /** The values of a sequence of outcomes, or the first error among them. */
  function FirstError<T>(rs: seq<Result<T>>): (r: Result<seq<T>>)
    ensures r.Ok? <==> forall j :: 0 <= j < |rs| ==> rs[j].Ok?
    ensures r.Ok? ==> |r.value| == |rs| && forall j :: 0 <= j < |rs| ==> rs[j] == Ok(r.value[j])
    ensures r.Err? ==> exists j :: 0 <= j < |rs| && rs[j] == Err(r.msg) &&
                                   forall j' :: 0 <= j' < j ==> rs[j'].Ok?
  {
    if |rs| == 0 then Ok([])
    else match rs[0]
      case Err(e) => Err(e)
      case Ok(k) =>
        match FirstError(rs[1..])
        case Err(e) =>
          ghost var j :| 0 <= j < |rs[1..]| && rs[1..][j] == Err(e) &&
            forall j' :: 0 <= j' < j ==> rs[1..][j'].Ok?;
          assert rs[j + 1] == Err(e);
          Err(e)
        case Ok(ks) => Ok([k] + ks)
  }
}

=== FILE: xrf.dfy ===
/** The XRF55 reader: a saved array of 270000 elements is reshaped in C
    order to `(3, 30, 3, 1000)` (receiver, subcarrier, antenna, time) and
    cut into one capture per receiver, each holding one `30 x 3` frame per
    time step with the step number as its timestamp. */
module XrfReader {
  import opened Wrappers
  import opened Tensors
  import opened Structure

  const Receivers: nat := 3
  const Subcarriers: nat := 30
  const Antennas: nat := 3
  const Steps: nat := 1000

  /** `(3, 30, 3, 1000)`. */
  const Layout: seq<nat> := [Receivers, Subcarriers, Antennas, Steps]

  lemma {:induction false} LayoutSize()
    ensures Prod([Steps]) == 1000
    ensures Prod([Antennas, Steps]) == 3000
    ensures Prod([Subcarriers, Antennas, Steps]) == 90000
    ensures Prod(Layout) == 270000
  {
    assert [Steps][1..] == [];
    assert [Antennas, Steps][1..] == [Steps];
    assert [Subcarriers, Antennas, Steps][1..] == [Antennas, Steps];
    assert Layout[1..] == [Subcarriers, Antennas, Steps];
  }

  /** `raw.reshape(shape)`: the C-order elements under a new shape, or
      `None` (a `ValueError`) when the element counts differ. */
  function Reshape(raw: Tensor, shape: seq<nat>): (r: Option<Tensor>)
    requires Valid(raw)
    ensures r.Some? <==> Prod(shape) == Prod(raw.shape)
    ensures r.Some? ==> Valid(r.value) && r.value.shape == shape && r.value.data == raw.data
  {
    if Prod(shape) == Prod(raw.shape) then Some(Tensor(shape, raw.data)) else None
  }

  /** The frames of receiver `g`: `x[g][:, :, t]` at timestamp `t`. */
  function ReceiverFrames(x: Tensor, g: nat, dtype: DType): (fs: seq<Frame>)
    requires Valid(x) && x.shape == Layout && g < Receivers
    ensures |fs| == Steps
    ensures forall t :: 0 <= t < Steps ==>
              fs[t].timestamp == IntStamp(t) && fs[t].dtype == dtype && fs[t].meta.None? &&
              Valid(fs[t].csi) && fs[t].csi.shape == [Subcarriers, Antennas]
  {
    var y := Take(x, g);
    assert y.shape == [Subcarriers, Antennas, Steps];
    assert y.shape[..2] == [Subcarriers, Antennas];
    seq(Steps, t requires 0 <= t < Steps => BaseFrame(IntStamp(t), TakeLast(y, t), dtype))
  }

  /** The capture of receiver `g`: a fresh capture with its frames added
      in time order. */
  function Capture(path: string, x: Tensor, g: nat, dtype: DType): (d: CsiData)
    requires Valid(x) && x.shape == Layout && g < Receivers
    ensures d == CsiData(path, ReceiverFrames(x, g, dtype))
  {
    AddFramesAppends(NewCsiData(path), ReceiverFrames(x, g, dtype));
    AddFrames(NewCsiData(path), ReceiverFrames(x, g, dtype))
  }

  /** `read_file`: no captures when the file is missing (`raw` is `None`)
      or cannot be reshaped, otherwise one capture per receiver. */
  function ReadFile(path: string, raw: Option<Tensor>, dtype: DType): (r: seq<CsiData>)
    requires raw.Some? ==> Valid(raw.value)
    ensures |r| == 0 <==> raw.None? || Prod(raw.value.shape) != 270000
    ensures |r| != 0 ==> |r| == Receivers
    ensures forall g :: 0 <= g < |r| ==> r[g].fileName == path && |r[g].frames| == Steps
    ensures forall g, t :: 0 <= g < |r| && 0 <= t < Steps ==>
              r[g].frames[t].timestamp == IntStamp(t) &&
              Valid(r[g].frames[t].csi) && r[g].frames[t].csi.shape == [Subcarriers, Antennas]
  {
    LayoutSize();
    if raw.None? then []
    else match Reshape(raw.value, Layout)
      case None => []
      case Some(x) =>
        seq(Receivers, g requires 0 <= g < Receivers => Capture(path, x, g, dtype))
  }

  /** The C-order position of element `[g, s, a, t]` of the reshaped array. */
  lemma {:induction false} LayoutOffset(g: nat, s: nat, a: nat, t: nat)
    requires g < Receivers && s < Subcarriers && a < Antennas && t < Steps
    ensures InBounds(Layout, [g, s, a, t])
    ensures Offset(Layout, [g, s, a, t]) == ((g * 30 + s) * 3 + a) * 1000 + t
  {
    LayoutSize();
    var idx := [g, s, a, t];
    assert idx[1..] == [s, a, t] && idx[1..][1..] == [a, t] && idx[1..][1..][1..] == [t];
    assert Layout[1..] == [Subcarriers, Antennas, Steps];
    assert Layout[1..][1..] == [Antennas, Steps];
    assert Layout[1..][1..][1..] == [Steps];
    assert Offset([Steps], [t]) == t by { assert [Steps][1..] == [] && [t][1..] == []; }
    assert Offset([Antennas, Steps], [a, t]) == a * 1000 + t;
    assert Offset([Subcarriers, Antennas, Steps], [s, a, t]) == s * 3000 + a * 1000 + t;
    assert Offset(Layout, idx) == g * 90000 + s * 3000 + a * 1000 + t;
  }

  /** Entry `[s][a]` of frame `t` of capture `g` is element
      `((g * 30 + s) * 3 + a) * 1000 + t` of the saved array. */
  lemma {:induction false} FrameEntry(path: string, raw: Tensor, dtype: DType, g: nat, t: nat, s: nat, a: nat)
    requires Valid(raw) && Prod(raw.shape) == 270000
    requires g < Receivers && t < Steps && s < Subcarriers && a < Antennas
    ensures var r := ReadFile(path, Some(raw), dtype);
            && |r| == Receivers
            && InBounds(r[g].frames[t].csi.shape, [s, a])
            && ((g * 30 + s) * 3 + a) * 1000 + t < |raw.data|
            && At(r[g].frames[t].csi, [s, a]) == raw.data[((g * 30 + s) * 3 + a) * 1000 + t]
  {
    LayoutSize();
    var x := Reshape(raw, Layout).value;
    var y := Take(x, g);
    assert y.shape == [Subcarriers, Antennas, Steps];
    var r := ReadFile(path, Some(raw), dtype);
    assert r[g].frames == ReceiverFrames(x, g, dtype);
    var f := r[g].frames[t].csi;
    assert f == TakeLast(y, t);
    assert y.shape[..2] == [Subcarriers, Antennas];
    assert At(f, [s, a]) == At(y, [s, a] + [t]);
    assert [s, a] + [t] == [s, a, t];
    assert At(y, [s, a, t]) == At(x, [g] + [s, a, t]);
    assert [g] + [s, a, t] == [g, s, a, t];
    LayoutOffset(g, s, a, t);
  }
}

=== FILE: zte.dfy ===
/** The ZTE CSV reader. Only rows whose `rx_chain_num` ends with `tx0` are
    used; each names its receive chain as `rx<k>-...`. The rows are grouped
    by timestamp in ascending order and every group becomes one `512 x 3`
    frame whose column `k` holds the `I + jQ` vector of the group's last
    row for chain `k`. Cells are given already split by the CSV parser. */
module ZteReader {
  import opened Wrappers
  import opened Numbers
  import opened Tensors
  import opened Structure
  import Labels

  /** Subcarriers per row (`csi_i_0 .. csi_i_511`). */
  const Width: nat := 512
  /** Receive chains kept in a frame. */
  const Chains: nat := 3
  const FrameShape: seq<nat> := [Width, Chains]

  /** One CSV row: the `rx_chain_num` cell, the `timestamp` cell, and the
      cells of the columns named `csi_i_0` ... `csi_i_511` and `csi_q_0` ...
      `csi_q_511`, in index order, as many of those names as the header
      has. Columns with other names, such as `csi_i_512`, are not part of
      a row, and `df[[...]]` selects by name whatever the header order. */
  datatype ZteRow = ZteRow(chain: string, timestamp: int, i: seq<real>, q: seq<real>)

  /** A kept row once its chain index is known and its vector is built. */
  datatype Entry = Entry(ts: int, rx: int, iq: seq<Num>)

  predicate EndsWith(s: string, suffix: string)
  {
    |s| >= |suffix| && s[|s| - |suffix|..] == suffix
  }

  /** `df[df['rx_chain_num'].str.endswith('tx0')]`, in file order. */
  function Tx0Rows(rows: seq<ZteRow>): (kept: seq<ZteRow>)
    ensures |kept| <= |rows|
    ensures forall r :: r in kept <==> r in rows && EndsWith(r.chain, "tx0")
    ensures |rows| == 1 ==> kept == if EndsWith(rows[0].chain, "tx0") then rows else []
  {
    if |rows| == 0 then []
    else
      var rest := Tx0Rows(rows[1..]);
      assert rows == [rows[0]] + rows[1..];
      if EndsWith(rows[0].chain, "tx0") then [rows[0]] + rest else rest
  }

  /** The filter works row by row in file order: with the one-row case
      above this says the kept rows keep their order and multiplicity. */
  lemma {:induction false} Tx0RowsAppend(a: seq<ZteRow>, b: seq<ZteRow>)
    ensures Tx0Rows(a + b) == Tx0Rows(a) + Tx0Rows(b)
    decreases |a|
  {
    if |a| == 0 {
      assert a + b == b;
    } else {
      assert (a + b)[0] == a[0] && (a + b)[1..] == a[1..] + b;
      Tx0RowsAppend(a[1..], b);
    }
  }

  /** `s.split('-')[0]`: the text before the first dash, or all of it. */
  function BeforeDash(s: string): (r: string)
    ensures '-' !in r
    ensures |r| <= |s| && r == s[..|r|]
    ensures |r| < |s| ==> s[|r|] == '-'
  {
    match IndexOf(s, '-')
    case None => s
    case Some(k) => s[..k]
  }

  /** An occurrence of `rx` starts at position `j`. */
  predicate RxAt(s: string, j: int)
  {
    0 <= j < |s| - 1 && s[j] == 'r' && s[j + 1] == 'x'
  }

  /** `s.replace('rx', '')`: every occurrence, scanning left to right
      without overlaps, removed. */
  function RemoveRx(s: string): (r: string)
    ensures |r| <= |s|
  {
    if |s| == 0 then s
    else if RxAt(s, 0) then RemoveRx(s[2..])
    else [s[0]] + RemoveRx(s[1..])
  }

  /** Text without an occurrence is left as it is. */
  lemma {:induction false} RemoveRxNone(s: string)
    requires forall j :: 0 <= j < |s| ==> !RxAt(s, j)
    ensures RemoveRx(s) == s
    decreases |s|
  {
    if |s| > 0 {
      var t := s[1..];
      assert !RxAt(s, 0);
      forall j | 0 <= j < |t| ensures !RxAt(t, j)
      {
        assert !RxAt(s, j + 1);
      }
      RemoveRxNone(t);
    }
  }

  /** How `str.replace` proceeds: the text before the first occurrence is
      kept, the occurrence is dropped, and the search resumes after it. */
  lemma {:induction false} RemoveRxFirst(s: string, i: nat)
    requires RxAt(s, i) && forall j :: 0 <= j < i ==> !RxAt(s, j)
    ensures RemoveRx(s) == s[..i] + RemoveRx(s[i + 2..])
    decreases i
  {
    if i > 0 {
      var t := s[1..];
      RemoveRxKeep(s);
      RxAtShift(s, i);
      RemoveRxFirst(t, i - 1);
      assert t[..i - 1] == s[1..i] && t[i + 1..] == s[i + 2..];
      assert s[..i] == [s[0]] + s[1..i];
    }
  }

  /** A first character that does not start `rx` is kept. */
  lemma {:induction false} RemoveRxKeep(s: string)
    requires |s| > 0 && !RxAt(s, 0)
    ensures RemoveRx(s) == [s[0]] + RemoveRx(s[1..])
  {
  }

  /** Dropping the first character moves every occurrence one place left. */
  lemma {:induction false} RxAtShift(s: string, i: nat)
    requires 0 < i && RxAt(s, i) && forall j :: 0 <= j < i ==> !RxAt(s, j)
    ensures RxAt(s[1..], i - 1) && forall j :: 0 <= j < i - 1 ==> !RxAt(s[1..], j)
  {
    forall j | 0 <= j < i - 1 ensures !RxAt(s[1..], j)
    {
      assert !RxAt(s, j + 1);
    }
  }

  /** The text `int()` is applied to. */
  function RxText(chain: string): string
  {
    RemoveRx(BeforeDash(chain))
  }

  /** `int(x.split('-')[0].replace('rx', ''))`, which raises `ValueError`
      on text that is not an integer. */
  function RxIndex(chain: string): (r: Result<int>)
    ensures r.Ok? <==> ParseInt(RxText(chain)).Some?
    ensures r.Ok? ==> r.value == ParseInt(RxText(chain)).value
    ensures r.Err? ==> r.msg == IntError(RxText(chain))
  {
    match ParseInt(RxText(chain))
    case Some(k) => Ok(k)
    case None => Err(IntError(RxText(chain)))
  }

  /** A chain named `rx<k>-<anything>` has index `k`. */
  lemma {:induction false} RxIndexOfName(k: nat, rest: string)
    ensures RxIndex("rx" + ShowNat(k) + "-" + rest) == Ok(k)
  {
    var d := ShowNat(k);
    assert "rx" + d + "-" + rest == "rx" + d + ("-" + rest);
    assert forall j :: 0 <= j < |d| ==> IsDigit(d[j]);
    RxTextOf(d, "-" + rest);
    ParseIntDigits(d);
    ShowNatValue(k);
  }

  /** A chain named `rx<t>` or `rx<t>-<anything>` whose `<t>` is not
      integer text raises `ValueError` showing `repr(<t>)`. */
  lemma {:induction false} RxIndexRejects(t: string, tail: string)
    requires '-' !in t && forall j :: 0 <= j < |t| ==> !RxAt(t, j)
    requires |tail| > 0 ==> tail[0] == '-'
    requires ParseInt(t).None?
    ensures RxIndex("rx" + t + tail) == Err(IntError(t))
    ensures |StrRepr(t)| <= 200 ==> Unrepr(RxIndex("rx" + t + tail).msg[|IntErrorPrefix|..]) == Some(t)
  {
    RxTextOf(t, tail);
    ReprRoundTrip(t);
  }

  /** The text `int()` sees for a chain `rx<t>` or `rx<t>-<anything>` is
      `<t>`, when `<t>` holds neither a dash nor `rx`. */
  lemma {:induction false} RxTextOf(t: string, tail: string)
    requires '-' !in t && forall j :: 0 <= j < |t| ==> !RxAt(t, j)
    requires |tail| > 0 ==> tail[0] == '-'
    ensures RxText("rx" + t + tail) == t
  {
    var h := "rx" + t;
    assert '-' !in h by {
      assert forall k :: 2 <= k < |h| ==> h[k] == t[k - 2];
    }
    BeforeDashOf(h, tail);
    assert RxAt(h, 0) && h[..0] == [] && h[2..] == t;
    RemoveRxFirst(h, 0);
    RemoveRxNone(t);
  }

  /** `split('-')[0]` of a dash-free text followed by nothing or by a dash
      and more is that text. */
  lemma {:induction false} BeforeDashOf(h: string, tail: string)
    requires '-' !in h
    requires |tail| > 0 ==> tail[0] == '-'
    ensures BeforeDash(h + tail) == h
  {
    var s := h + tail;
    if |tail| > 0 {
      assert s[|h|] == '-' && s[..|h|] == h;
      assert IndexOf(s, '-') == Some(|h|);
    } else {
      assert s == h;
    }
  }

  /** The outcome of `int()` on the chain of every kept row. */
  function RxResults(rows: seq<ZteRow>): (rs: seq<Result<int>>)
    ensures |rs| == |rows| && forall j :: 0 <= j < |rows| ==> rs[j] == RxIndex(rows[j].chain)
  {
    seq(|rows|, j requires 0 <= j < |rows| => RxIndex(rows[j].chain))
  }

  predicate HasVectors(r: ZteRow)
  {
    |r.i| == Width && |r.q| == Width
  }

  /** `data_i + 1j * data_q` for one row. */
  function Vector(r: ZteRow): (v: seq<Num>)
    requires HasVectors(r)
    ensures |v| == Width && forall k :: 0 <= k < Width ==> v[k] == Num(r.i[k], r.q[k])
  {
    seq(Width, k requires 0 <= k < Width => Num(r.i[k], r.q[k]))
  }

  function Entries(rows: seq<ZteRow>, rx: seq<int>): (es: seq<Entry>)
    requires |rx| == |rows| && forall j :: 0 <= j < |rows| ==> HasVectors(rows[j])
    ensures |es| == |rows|
    ensures forall j :: 0 <= j < |rows| ==> es[j] == Entry(rows[j].timestamp, rx[j], Vector(rows[j]))
    ensures forall j :: 0 <= j < |es| ==> |es[j].iq| == Width
  {
    seq(|rows|, j requires 0 <= j < |rows| => Entry(rows[j].timestamp, rx[j], Vector(rows[j])))
  }

  lemma {:induction false} FrameOffset(r: nat, c: nat)
    requires r < Width && c < Chains
    ensures Prod(FrameShape) == Width * Chains
    ensures InBounds(FrameShape, [r, c]) && Offset(FrameShape, [r, c]) == r * Chains + c
  {
    assert FrameShape[1..] == [Chains] && FrameShape[1..][1..] == [];
    assert Prod([Chains]) == Chains by { assert [Chains][1..] == []; }
    assert [r, c][1..] == [c] && [r, c][1..][1..] == [];
  }

  /** `frame_matrix[:, c] = v`. */
  function SetColumn(m: Tensor, c: nat, v: seq<Num>): (r: Tensor)
    requires Valid(m) && m.shape == FrameShape && c < Chains && |v| == Width
    ensures Valid(r) && r.shape == FrameShape
    ensures forall k, c' :: 0 <= k < Width && 0 <= c' < Chains ==>
              InBounds(FrameShape, [k, c']) && At(r, [k, c']) == if c' == c then v[k] else At(m, [k, c'])
  {
    FrameOffset(0, 0);
    var r := Tensor(FrameShape, seq(Width * Chains, p requires 0 <= p < Width * Chains =>
      if p % Chains == c then v[p / Chains] else m.data[p]));
    forall k, c' | 0 <= k < Width && 0 <= c' < Chains
      ensures InBounds(FrameShape, [k, c']) && At(r, [k, c']) == if c' == c then v[k] else At(m, [k, c'])
    {
      FrameOffset(k, c');
      assert (k * Chains + c') % Chains == c' && (k * Chains + c') / Chains == k;
    }
    r
  }

  /** The frame of timestamp `t`: a zero matrix, then for every entry of
      that timestamp in file order, its vector written to its chain's
      column when the chain is 0, 1 or 2. */
  function Scatter(es: seq<Entry>, t: int): (m: Tensor)
    requires forall j :: 0 <= j < |es| ==> |es[j].iq| == Width
    ensures Valid(m) && m.shape == FrameShape
    decreases |es|
  {
    if |es| == 0 then Zeros(FrameShape)
    else
      var m := Scatter(es[..|es| - 1], t);
      var e := es[|es| - 1];
      if e.ts == t && 0 <= e.rx < Chains then SetColumn(m, e.rx, e.iq) else m
  }

  /** The last entry of timestamp `t` for chain `c`, if any. */
  function LastFor(es: seq<Entry>, t: int, c: int): (r: Option<nat>)
    ensures r.Some? ==> r.value < |es| && es[r.value].ts == t && es[r.value].rx == c &&
                        forall j :: r.value < j < |es| ==> !(es[j].ts == t && es[j].rx == c)
    ensures r.None? ==> forall j :: 0 <= j < |es| ==> !(es[j].ts == t && es[j].rx == c)
    decreases |es|
  {
    if |es| == 0 then None
    else if es[|es| - 1].ts == t && es[|es| - 1].rx == c then Some(|es| - 1)
    else LastFor(es[..|es| - 1], t, c)
  }

  /** Column `c` of the frame of timestamp `t` is the vector of the last
      entry of that timestamp for chain `c`, and zero when there is none. */
  lemma {:induction false} ScatterAt(es: seq<Entry>, t: int, k: nat, c: nat)
    requires forall j :: 0 <= j < |es| ==> |es[j].iq| == Width
    requires k < Width && c < Chains
    ensures InBounds(FrameShape, [k, c])
    ensures At(Scatter(es, t), [k, c]) == match LastFor(es, t, c)
              case None => Zero
              case Some(j) => es[j].iq[k]
    decreases |es|
  {
    FrameOffset(k, c);
    if |es| > 0 {
      var front := es[..|es| - 1];
      ScatterAt(front, t, k, c);
      assert forall j :: 0 <= j < |front| ==> front[j] == es[j];
    }
  }

  /** One frame per distinct timestamp of the entries, in ascending
      timestamp order (`groupby` sorts its keys). */
  function GroupFrames(es: seq<Entry>): (fs: seq<Frame>)
    requires forall j :: 0 <= j < |es| ==> |es[j].iq| == Width
    ensures |fs| == |Labels.Unique(Stamps(es))|
    ensures forall g :: 0 <= g < |fs| ==>
              fs[g].timestamp == IntStamp(Labels.Unique(Stamps(es))[g]) && fs[g].dtype == Complex64 &&
              fs[g].csi == Scatter(es, Labels.Unique(Stamps(es))[g])
  {
    var keys := Labels.Unique(Stamps(es));
    seq(|keys|, g requires 0 <= g < |keys| => BaseFrame(IntStamp(keys[g]), Scatter(es, keys[g]), Complex64))
  }

  function Stamps(es: seq<Entry>): (ts: seq<int>)
    ensures |ts| == |es| && forall j :: 0 <= j < |es| ==> ts[j] == es[j].ts
  {
    seq(|es|, j requires 0 <= j < |es| => es[j].ts)
  }

  /** `read_file`: the capture, named by the full path, of the frames built
      from the `tx0` rows. With no such row the capture has no frames; a
      chain name that is not `rx<int>` raises `ValueError`; a kept row
      without 512 I and 512 Q cells raises `KeyError`. */
  function ReadFile(path: string, rows: seq<ZteRow>): (r: Result<CsiData>)
    ensures r.Ok? ==> r.value.fileName == path
    ensures |Tx0Rows(rows)| == 0 ==> r == Ok(NewCsiData(path))
    ensures r.Err? <==> (|Tx0Rows(rows)| > 0 &&
              (FirstError(RxResults(Tx0Rows(rows))).Err? ||
               exists j :: 0 <= j < |Tx0Rows(rows)| && !HasVectors(Tx0Rows(rows)[j])))
  {
    var kept := Tx0Rows(rows);
    if |kept| == 0 then Ok(NewCsiData(path))
    else match FirstError(RxResults(kept))
      case Err(e) => Err(e)
      case Ok(rx) =>
        if exists j :: 0 <= j < |kept| && !HasVectors(kept[j]) then Err("KeyError: csi_i_/csi_q_ columns")
        else Ok(CsiData(path, GroupFrames(Entries(kept, rx))))
  }

  /** What a successful read is made of: every `tx0` row has an integer
      chain index and both vectors, and the frames are the groups of their
      entries. */
  lemma {:induction false} ReadFileOk(path: string, rows: seq<ZteRow>)
    requires ReadFile(path, rows).Ok? && |Tx0Rows(rows)| > 0
    ensures FirstError(RxResults(Tx0Rows(rows))).Ok?
    ensures forall j :: 0 <= j < |Tx0Rows(rows)| ==> HasVectors(Tx0Rows(rows)[j])
    ensures ReadFile(path, rows).value.frames ==
            GroupFrames(Entries(Tx0Rows(rows), FirstError(RxResults(Tx0Rows(rows))).value))
  {
  }

  /** The entries a successful read groups, with their timestamps. */
  lemma {:induction false} ReadFileGroups(path: string, rows: seq<ZteRow>) returns (es: seq<Entry>)
    requires ReadFile(path, rows).Ok? && |Tx0Rows(rows)| > 0
    ensures FirstError(RxResults(Tx0Rows(rows))).Ok?
    ensures forall j :: 0 <= j < |Tx0Rows(rows)| ==> HasVectors(Tx0Rows(rows)[j])
    ensures es == Entries(Tx0Rows(rows), FirstError(RxResults(Tx0Rows(rows))).value)
    ensures forall j :: 0 <= j < |es| ==> |es[j].iq| == Width
    ensures ReadFile(path, rows).value.frames == GroupFrames(es)
    ensures Stamps(es) == RowStamps(Tx0Rows(rows))
  {
    ReadFileOk(path, rows);
    es := Entries(Tx0Rows(rows), FirstError(RxResults(Tx0Rows(rows))).value);
    EntryStamps(Tx0Rows(rows), FirstError(RxResults(Tx0Rows(rows))).value);
  }

  lemma {:induction false} EntryStamps(rows: seq<ZteRow>, rx: seq<int>)
    requires |rx| == |rows| && forall j :: 0 <= j < |rows| ==> HasVectors(rows[j])
    ensures Stamps(Entries(rows, rx)) == RowStamps(rows)
  {
  }

  /** The frames' timestamps are the distinct timestamps of the entries,
      strictly increasing, one frame for each. */
  lemma {:induction false} GroupStamps(es: seq<Entry>)
    requires forall j :: 0 <= j < |es| ==> |es[j].iq| == Width
    ensures var fs := GroupFrames(es);
            && (forall g, h :: 0 <= g < h < |fs| ==> StampValue(fs[g].timestamp) < StampValue(fs[h].timestamp))
            && (forall t :: (exists g :: 0 <= g < |fs| && fs[g].timestamp == IntStamp(t)) <==> t in Stamps(es))
            && |fs| == |Labels.Elems(Stamps(es))|
  {
    var fs := GroupFrames(es);
    var keys := Labels.Unique(Stamps(es));
    forall t ensures (exists g :: 0 <= g < |fs| && fs[g].timestamp == IntStamp(t)) <==> t in Stamps(es)
    {
      if t in Stamps(es) {
        assert t in keys;
        var g :| 0 <= g < |keys| && keys[g] == t;
        assert fs[g].timestamp == IntStamp(t);
      }
    }
    Labels.NumClassesDistinct(Stamps(es));
  }

  /** The `timestamp` column of some rows. */
  function RowStamps(rows: seq<ZteRow>): (ts: seq<int>)
    ensures |ts| == |rows| && forall j :: 0 <= j < |rows| ==> ts[j] == rows[j].timestamp
  {
    seq(|rows|, j requires 0 <= j < |rows| => rows[j].timestamp)
  }

  /** Read as a whole: the frames' timestamps are the distinct timestamps
      of the `tx0` rows, strictly increasing, one frame for each. */
  lemma {:induction false} ReadFileStamps(path: string, rows: seq<ZteRow>)
    requires ReadFile(path, rows).Ok?
    ensures var fs := ReadFile(path, rows).value.frames;
            && (forall g, h :: 0 <= g < h < |fs| ==> StampValue(fs[g].timestamp) < StampValue(fs[h].timestamp))
            && (forall t :: (exists g :: 0 <= g < |fs| && fs[g].timestamp == IntStamp(t)) <==>
                            t in RowStamps(Tx0Rows(rows)))
            && |fs| == |Labels.Elems(RowStamps(Tx0Rows(rows)))|
  {
    if |Tx0Rows(rows)| > 0 {
      var es := ReadFileGroups(path, rows);
      GroupStamps(es);
    }
  }

  /** Entry `[k][c]` of frame `g` is `I + jQ` of cell `k` of the last `tx0`
      row with the frame's timestamp whose chain index is `c`, and zero when
      no such row exists; rows whose index is outside `[0, 3)` never reach
      a frame. */
  lemma {:induction false} ReadFileEntry(path: string, rows: seq<ZteRow>, g: nat, k: nat, c: nat)
    requires ReadFile(path, rows).Ok? && g < |ReadFile(path, rows).value.frames|
    requires k < Width && c < Chains
    ensures |Tx0Rows(rows)| > 0 && FirstError(RxResults(Tx0Rows(rows))).Ok?
    ensures forall j :: 0 <= j < |Tx0Rows(rows)| ==> HasVectors(Tx0Rows(rows)[j])
    ensures var f := ReadFile(path, rows).value.frames[g];
            var kept := Tx0Rows(rows);
            var es := Entries(kept, FirstError(RxResults(kept)).value);
            && f.timestamp.IntStamp? && f.dtype == Complex64
            && Valid(f.csi) && f.csi.shape == FrameShape && InBounds(f.csi.shape, [k, c])
            && At(f.csi, [k, c]) == match LastFor(es, f.timestamp.i, c)
                 case None => Zero
                 case Some(j) => Num(kept[j].i[k], kept[j].q[k])
  {
    var kept := Tx0Rows(rows);
    assert |kept| > 0;
    var es := ReadFileGroups(path, rows);
    GroupEntry(kept, FirstError(RxResults(kept)).value, g, k, c);
  }

  /** Entry `[k][c]` of group `g` of the entries of `kept`. */
  lemma {:induction false} GroupEntry(kept: seq<ZteRow>, rx: seq<int>, g: nat, k: nat, c: nat)
    requires |rx| == |kept| && forall j :: 0 <= j < |kept| ==> HasVectors(kept[j])
    requires g < |GroupFrames(Entries(kept, rx))| && k < Width && c < Chains
    ensures var es := Entries(kept, rx);
            var f := GroupFrames(es)[g];
            && f.timestamp.IntStamp? && f.dtype == Complex64
            && Valid(f.csi) && f.csi.shape == FrameShape && InBounds(f.csi.shape, [k, c])
            && At(f.csi, [k, c]) == match LastFor(es, f.timestamp.i, c)
                 case None => Zero
                 case Some(j) => Num(kept[j].i[k], kept[j].q[k])
  {
    var es := Entries(kept, rx);
    var keys := Labels.Unique(Stamps(es));
    var f := GroupFrames(es)[g];
    assert f.csi == Scatter(es, keys[g]) && f.timestamp == IntStamp(keys[g]);
    ScatterAt(es, keys[g], k, c);
    match LastFor(es, keys[g], c)
    case None =>
    case Some(j) =>
      assert es[j].iq[k] == Num(kept[j].i[k], kept[j].q[k]);
  }
}
